=== FILE: README.md ===
# fee-be-suite backend, modelled in Dafny

This project models the serverless backend of the FEE suite, an event-management platform. The backend keeps everything in one key-value table, keyed by a partition key `pk` and a sort key `sk`:

| record | `pk` | `sk` |
|---|---|---|
| event | `FAD` or `EVENT` | `slug#creationDate` |
| attendee | `slug#ATTENDEE` | e-mail |
| participant | `slug#PARTICIPANT` | e-mail |

It also keeps a blob bucket. The bucket holds payment screenshots, uploaded files and one quiz document per event.

The model has these parts:

- **Services as state.**
  - The table is the class `Store.Table`. Its field `items` is a map from `(pk, sk)` to the record.
  - The table's methods are `Get`, `Put` (unconditional or "must not exist"), `Delete`, `Update` and `Query`.
    - `Update` takes a list of `SET`/`ADD` clauses and an optional guard.
    - `Query` takes a partition and a sort-key prefix, and returns records in ascending sort-key order.
  - The bucket is the class `Store.Bucket`. Its field `objects` is a map from object key to blob.
- **Handlers as methods.** Each HTTP handler is a method on the table and/or the bucket. Its contract states:
  - the order of its 400/404 checks;
  - the response for each case;
  - the new state of the store;
  - that nothing changes on every path that does not answer 200.
- **The attendee counter.** This is the change-feed processor that keeps an event's `attendeeCount` in step with its attendee records (`counter.dfy`).
  - It is imperative: a loop over the batch and a loop over the two event partitions.
  - It is proved against ghost functions that define the effect of one record and of a batch.
  - The lemmas are proved about those functions: +1 per INSERT, the floor at 0 on REMOVE, which errors are swallowed and which propagate, and no deduplication.
- **The dynamic update expression.** Both edit handlers build `SET #attr0 = :val0, ...` by a loop (`update_expression.dfy`). The model proves what this loop does:
  - the placeholders are distinct;
  - the resolved expression writes exactly the body's fields and the two stamps;
  - a body field named like a stamp makes the store reject the expression.
- **Pure helpers.**
  - the file-name sanitiser and the extension helper of the upload handler;
  - the e-mail pattern;
  - the case-insensitive `FAD`/`EVENT` discriminator;
  - the resource tags every stack carries.

Inputs that are not deterministic logic are parameters:

- the current time and the uuid;
- the file type sniffed from the file's first bytes;
- the multipart parser's result;
- the caller's claims;
- whether a service call fails for a reason outside the model. This is a `fault` flag per call or per handler.

A service error's message is not part of the model. One placeholder text, `Http.ServiceErrorText`, stands for all of them.

Some behaviour of the handlers is worth stating up front:

- The edit, verification and attendee-delete handlers make two store calls. They first read the record (404 when absent), then write.
- Not every store error gives 500. `createEvent` and `deleteEvents` answer 400 with the caught error as the message. When the document client cannot marshal a number beyond the safe integers, it throws a plain `Error` before any call, and `JSON.stringify` renders that as `{}`. A service exception renders as its own fields (`name`, `$fault`, `$metadata`). The upload and quiz handlers also answer 400.

## Model

| member | source | states |
|---|---|---|
| Strings.BeforeFirst | stateless/functions/updateAttendeeCounter.ts:84-85 | `split("#")[0]`: a prefix of the text with no `#`, either all of it or followed by `#` |
| Json.NatText | stateless/functions/updateEvent.ts:121-122 | the decimal text of an index: at least one digit, digits only, one digit exactly below 10 |
| Json.NatTextInjective | stateless/functions/updateEvent.ts:121-122 | distinct indexes render differently |
| Http.Param | stateless/functions/updateEvent.ts:28-46 | `pathParameters?.x` under `!x`: present exactly when given and non-empty, and then the given text |
| Http.Caller | stateless/functions/updateEvent.ts:147-148 | the username claim or "admin": the claim when non-empty, otherwise "admin", never empty |
| Http.ContentTypeHeader | stateless/functions/eventRegistration.ts:28 | the lower-case header when non-empty, else the capitalised one; present exactly when either is non-empty |
| Http.Without | stateless/functions/updateEvent.ts:63-66 | `delete obj[k]`: the members other than `k`, kept in their order, and no `k` left |
| Http.ObjectOfMembers | stateless/functions/createEvent.ts:54-59 | spreading the body gives an object with exactly the body's keys and their values |
| Validation.EventPartitionCaseInsensitive | stateless/functions/createEvent.ts:42-52 | `eventType` is accepted exactly when its upper case is FAD or EVENT, the partition is that upper case, and case does not matter |
| Validation.EmailShapedMeans | stateless/functions/eventRegistration.ts:86-95 | an address passing the pattern is `local@domain` with non-empty `@`-free parts and has no white space |
| Validation.FirstMissing | stateless/functions/eventRegistration.ts:72-83 | the required-field loop: no answer exactly when every field is truthy, otherwise the first falsy field in list order |
| Store.PutEffect | stateless/functions/manualAttendeeRegistration.ts:99-106 | a put succeeds exactly when the key attributes are non-empty text, no attribute name is empty, every number at any depth is a safe integer (at most 2^53 - 1 in magnitude, as the default document client demands) and, for "must not exist", the key is free; it then stores the item under its key, otherwise nothing changes; an unsafe number is the client's own refusal, ahead of any service error |
| Store.UpdateEffect | stateless/functions/updateAttendeeCounter.ts:133-149 | a refused update (fault, invalid expression or unsafe operand, false guard, ADD on a non-number) changes nothing; an unsafe operand is the client's own refusal, ahead of any service error |
| Store.ApplySets | stateless/functions/updateEvent.ts:150-162 | SET clauses on distinct attributes write each named attribute, leave every other one alone, and add exactly the named attributes |
| Store.UpdateKeepsKeys | stateless/functions/updateEvent.ts:150-162 | an update never moves a record: every record stays under the key its `pk`/`sk` name |
| Store.QueryResultSpec | stateless/functions/getEventDetailsOptimized.ts:48-57 | a query returns each record under `pk` whose sort key begins with the prefix exactly once, and nothing else, in strictly ascending sort-key order |
| Store.QueryFirst | stateless/functions/updateAttendeeCounter.ts:209-217 | the first row of a query has the least matching sort key; the result is empty exactly when nothing matches |
| Store.Table.Get | stateless/functions/updateAttendeeDetails.ts:75-83 | GetItem: the record under the key, if any, unless the read fails |
| Store.Table.Put | stateless/functions/createEvent.ts:61-66 | PutItem: the new table and outcome are those of `PutEffect` |
| Store.Table.Delete | stateless/functions/deleteAttendee.ts:68-76 | DeleteItem: the key is removed (absent or not) unless the call fails |
| Store.Table.Update | stateless/functions/updateAttendeeStatus.ts:66-81 | UpdateItem: the new table and outcome are those of `UpdateEffect`, and records stay well keyed |
| Store.Table.Query | stateless/functions/getEventListOptimized.ts:48-56 | Query by a selection loop: exactly the ascending listing `QueryResultSpec` describes |
| Store.Bucket.PutObject | stateless/functions/uploadQuizToS3.ts:34-46 | the object is written (or overwritten) under the key exactly when the call does not fail |
| Store.Bucket.GetObject | stateless/functions/getQuizFromS3.ts:22-28 | the object under the key, NoSuchKey when there is none, or a failure |
| UpdateExpression.PlaceholdersDistinct | stateless/functions/updateEvent.ts:120-133 | `#attrI` and `:valI` differ for different indexes |
| UpdateExpression.BuildSetExpression | stateless/functions/updateEvent.ts:120-148 | clause I is `#attrI = :valI`, where `#attrI` names body key I and `:valI` holds its value; `updatedDate` is at n and `updatedBy` at n+1; the maps hold nothing else |
| UpdateExpression.ResolveBuilt | stateless/functions/updateEvent.ts:150-155 | the built expression, as the store reads it, sets the body's fields in order and then the two stamps |
| UpdateExpression.StampedUpdate | stateless/functions/updateEvent.ts:135-162 | the expression is valid exactly when no body key is `updatedDate`, `updatedBy` or empty and every value sent, body and stamps, is a safe integer wherever it is a number; a valid one leaves the record with the body's values, the stamps, and everything else as before |
| UpdateExpression.EmptyNameRefused | stateless/functions/updateEvent.ts:120-133 | a body key `""` gives a clause naming an empty attribute, which the store refuses |
| UpdateExpression.UnsafeNumberRefused | stateless/functions/updateEvent.ts:150-162 | a body value or stamp holding a number beyond the safe integers makes the client refuse the expression |
| UpdateExpression.StampClash | stateless/functions/updateEvent.ts:135-148 | a body key named like a stamp makes two clauses write the same attribute |
| UpdateExpression.SetActionsValid | stateless/functions/updateEvent.ts:120-148 | without a stamp-named or empty key or an unsafe number, the clauses have safe operands, name distinct, non-empty, non-key attributes and are all SETs |
| UpdateExpression.StampedApply | stateless/functions/updateEvent.ts:150-162 | without such a key, applying the clauses gives a record that is `Stamped` |
| UpdateExpression.StampedEffect | stateless/functions/updateAttendeeDetails.ts:123-135 | the stamped update of an existing record succeeds exactly when the call does not fail, no body key is a stamp name or empty, and no value sent holds an unsafe number; it rewrites that record alone, under its own key |
| UpdateExpression.UpdateStamped | stateless/functions/updateAttendeeDetails.ts:95-135 | builds the expression, sends it, and changes the table as `StampedEffect` says |
| AttendeeCounter.RecordPk | stateless/functions/updateAttendeeCounter.ts:65-73 | the first non-empty of the Keys, NewImage and OldImage `pk`; none when all are empty |
| AttendeeCounter.ExtractEventSlug | stateless/functions/updateAttendeeCounter.ts:75-86 | the text of that `pk` before its first `#`, present exactly when there is a `pk` |
| AttendeeCounter.AttendeeRecordSlug | stateless/functions/updateAttendeeCounter.ts:65-86 | the record of an attendee under `slug#ATTENDEE` counts as an attendee record, and its slug is `slug` again |
| AttendeeCounter.FindEventRecord | stateless/functions/updateAttendeeCounter.ts:188-233 | the loop probes FAD, then EVENT, and returns what `FindEvent` specifies: the least key beginning with the slug in the first partition that has one, a refused probe counting as no match |
| AttendeeCounter.IncrementAttendeeCount | stateless/functions/updateAttendeeCounter.ts:88-119 | the new table and the propagated error are those of `Increment` |
| AttendeeCounter.DecrementAttendeeCount | stateless/functions/updateAttendeeCounter.ts:121-186 | the new table and the propagated error are those of `Decrement` (guarded -1, reset to 0 on a failed guard, reset errors swallowed) |
| AttendeeCounter.ProcessStreamRecord | stateless/functions/updateAttendeeCounter.ts:32-63 | one record changes the table as `ProcessRecord` says |
| AttendeeCounter.HandleStream | stateless/functions/updateAttendeeCounter.ts:18-30 | the batch loop changes the table as `ProcessBatch` says and fails exactly when an error propagated |
| AttendeeCounter.AddToCounter | stateless/functions/updateAttendeeCounter.ts:100-112 | `ADD attendeeCount d` on a missing or numeric counter gives the old count (0 when missing) plus d and changes nothing else |
| AttendeeCounter.AddToOther | stateless/functions/updateAttendeeCounter.ts:100-112 | `ADD` on a counter that is not a number is refused |
| AttendeeCounter.SetCounter | stateless/functions/updateAttendeeCounter.ts:157-170 | `SET attendeeCount = 0` writes that attribute alone |
| AttendeeCounter.FoundIsEvent | stateless/functions/updateAttendeeCounter.ts:188-233 | a resolved key is FAD or EVENT, is in the table, begins with the slug, and is the least such key under its partition; FAD is preferred |
| AttendeeCounter.FindEventSeesKeysOnly | stateless/functions/updateAttendeeCounter.ts:194-218 | which event a slug resolves to depends only on the table's keys |
| AttendeeCounter.InsertAddsOne | stateless/functions/updateAttendeeCounter.ts:88-119 | an INSERT for a resolvable event adds exactly 1 to its counter (a missing counter counts as 0) and nothing else; a refused write propagates and changes nothing |
| AttendeeCounter.RemoveFloorsAtZero | stateless/functions/updateAttendeeCounter.ts:121-186 | a REMOVE subtracts 1 from a positive counter and otherwise sets 0; a refused reset is swallowed; the counter never goes negative; only a refused decrement propagates |
| AttendeeCounter.OtherRecordsChangeNothing | stateless/functions/updateAttendeeCounter.ts:32-63 | a non-attendee record, an empty slug, MODIFY or any other event name leaves the table alone without error |
| AttendeeCounter.UnresolvedIsSkipped | stateless/functions/updateAttendeeCounter.ts:91-96 | when neither probe finds the event (or both are refused), the record is skipped without error |
| AttendeeCounter.RecordTouchesOnlyCounters | stateless/functions/updateAttendeeCounter.ts:100-112 | a record keeps the table's keys, and every attribute other than an event's counter |
| AttendeeCounter.RecordFailureChangesNothing | stateless/functions/updateAttendeeCounter.ts:115-118 | a record whose error propagates has changed nothing |
| AttendeeCounter.BatchAppend | stateless/functions/updateAttendeeCounter.ts:21-29 | a batch is its first part followed by the rest, the rest skipped once the first part failed |
| AttendeeCounter.ErrorStopsBatch | stateless/functions/updateAttendeeCounter.ts:21-29 | an error stops the batch there: earlier records keep their updates, later ones are not processed |
| AttendeeCounter.AllForMeans | stateless/functions/updateAttendeeCounter.ts:21-29 | a batch is "for the event" exactly when each record, whichever attendee it concerns, is an attendee record with that event name under that slug, delivered without fault |
| AttendeeCounter.RepeatedInserts | stateless/functions/updateAttendeeCounter.ts:50-51 | n fault-free INSERTs for a resolvable event, for any mix of its attendees, raise its counter c (a missing counter counting as 0, as on a created event) to c + n; an empty batch changes nothing |
| AttendeeCounter.RepeatedRemoves | stateless/functions/updateAttendeeCounter.ts:53-54 | m fault-free REMOVEs for a resolvable event, for any mix of its attendees, take its counter c >= 0 (a missing one counting as 0) to max(c - m, 0); an empty batch changes nothing |
| AttendeeCounter.InsertTwiceAddsTwo | stateless/functions/updateAttendeeCounter.ts:100-112 | the same INSERT delivered twice adds 2, also on a missing counter: there is no deduplication |
| AttendeeCounter.InsertsThenRemoves | stateless/functions/updateAttendeeCounter.ts:133-171 | from a counter c >= 0 or none, n INSERTs and then m > 0 REMOVEs with m >= c + n leave the counter at 0, never below |
| EventHandlers.CreatedSortKey | stateless/functions/createEvent.ts:57 | the sort key is the slug text followed by `#`, so it is longer than the slug |
| EventHandlers.EventItem | stateless/functions/createEvent.ts:54-59 | the stored item has the body's keys plus pk, sk and eventType; pk and eventType are the partition and sk is `slug#creationDate`, over any body values; every other body field is copied; the item is safe exactly when every body value outside pk, sk and eventType is |
| EventHandlers.CreateEvent | stateless/functions/createEvent.ts:19-79 | 400 for bad JSON before the path is read, then for a missing and an invalid type; otherwise an unconditional put (replacing any record under the key), 200 with the item; 400 `{}` when the item holds an unsafe number, and 400 with the serialised service exception when the service fails or refuses a body key `""`; no change unless 200 |
| EventHandlers.Editable | stateless/functions/updateEvent.ts:63-66 | the body without pk, sk and eventType, the rest kept in order |
| EventHandlers.UpdateEvent | stateless/functions/updateEvent.ts:25-195 | four 400s in order before any store access; 404 when no sort key under the partition begins with the slug; otherwise the first match (least sort key) is rewritten as `Stamped`, with `updatedBy` the username or "admin"; 500 on errors, on a stamp-named or empty field name and on an unsafe number; no change unless 200 |
| EventHandlers.DeleteEvents | stateless/functions/deleteEvents.ts:19-80 | 400s for a missing type, a missing slug and an invalid type; then exactly `(upper(type), slug)` is removed, present or not, with 200; 400 with the serialised service exception on a store error |
| EventHandlers.DeleteBySlugKeepsCreated | stateless/functions/deleteEvents.ts:55-65 | deleting by the bare slug never removes the record createEvent stored under `slug#creationDate` |
| EventHandlers.GetEventList | stateless/functions/getEventListOptimized.ts:17-77 | 400s for a missing and an invalid `type`; otherwise the whole partition in sort-key order, or 500; read-only |
| EventHandlers.ListingIsWholePartition | stateless/functions/getEventListOptimized.ts:48-56 | the empty prefix matches every sort key of the partition |
| EventHandlers.GetEventDetails | stateless/functions/getEventDetailsOptimized.ts:16-78 | 400 when a parameter is missing or the type is invalid; otherwise the records whose sort key begins with the slug, or 500; read-only |
| EventHandlers.DetailsIncludeLongerSlugs | stateless/functions/getEventDetailsOptimized.ts:48-57 | an event whose slug merely begins with the requested one is returned too |
| AttendeeHandlers.AttendeeKey | stateless/functions/updateAttendeeDetails.ts:75-81 | the attendee key is `(slug#ATTENDEE, attendeeId)` |
| AttendeeHandlers.EditableDetails | stateless/functions/updateAttendeeDetails.ts:59-62 | the body without attendanceStatus, pk and sk, the rest kept in order |
| AttendeeHandlers.UpdateAttendeeDetails | stateless/functions/updateAttendeeDetails.ts:19-166 | 400s for a missing slug, a missing id, bad JSON and an empty edit, in that order; 404 when the attendee is absent; otherwise that record alone is rewritten as `Stamped`, and its attendanceStatus is kept; 500 on errors, on a stamp-named or empty field name and on an unsafe number; no change unless 200 |
| AttendeeHandlers.Verified | stateless/functions/updateAttendeeStatus.ts:66-79 | the verified record adds or overwrites exactly attendanceStatus = VERIFIED, verifiedDate and verifiedBy, keeping every other attribute |
| AttendeeHandlers.VerifyEffect | stateless/functions/updateAttendeeStatus.ts:66-81 | the three-attribute update of a stored attendee gives `Verified`, or is refused and changes nothing |
| AttendeeHandlers.VerifyIdempotent | stateless/functions/updateAttendeeStatus.ts:72-74 | verifying twice is verifying once with the later stamps; the status stays VERIFIED |
| AttendeeHandlers.UpdateAttendeeStatus | stateless/functions/updateAttendeeStatus.ts:19-110 | 400s for a missing slug and a missing id; 404 when the attendee is absent; otherwise the record becomes `Verified` by the username or "admin", and the response echoes the path's slug and id; 500 on errors |
| AttendeeHandlers.DeleteAttendee | stateless/functions/deleteAttendee.ts:19-102 | 400s for a missing slug and a missing id; 404 when absent; otherwise exactly that key is removed, and the response shows the names the record had and who deleted it; 500 on errors |
| AttendeeHandlers.DeleteAttendeeTwice | stateless/functions/deleteAttendee.ts:47-76 | after a successful delete, the same request answers 404 |
| AttendeeHandlers.RegistrationType | stateless/functions/getEventAttendees.ts:56 | the registration type with a default: the stored value when truthy, otherwise the default |
| AttendeeHandlers.View | stateless/functions/getEventAttendees.ts:44-58 | one listed record: the listed fields it has, with their values, plus the registration type with its default |
| AttendeeHandlers.Views | stateless/functions/getEventAttendees.ts:44-58 | the projection of every row, in order, one per row |
| AttendeeHandlers.ViewHidesKeys | stateless/functions/getEventParticipants.ts:44-56 | listings never show pk or sk, and the participant listing never shows profession |
| AttendeeHandlers.GetEventAttendees | stateless/functions/getEventAttendees.ts:19-80 | 400 without a slug; otherwise every record under `slug#ATTENDEE`, projected, with a count equal to the number of records found; 500 on error; read-only |
| AttendeeHandlers.GetEventParticipants | stateless/functions/getEventParticipants.ts:19-77 | the same for `slug#PARTICIPANT`, without profession |
| Registration.FormValues | stateless/functions/eventRegistration.ts:53-69 | the form fields with `eventSlug` set to the path's slug over any form value |
| Registration.PaymentKeysDistinct | stateless/functions/eventRegistration.ts:100-104 | for slugs without `/` and uuids without `.`, payment keys `slug/payments/uuid.ext` are equal only for equal slug, uuid and extension |
| Registration.EventRegistration | stateless/functions/eventRegistration.ts:27-163 | 400s in order (multipart input, empty parse, path slug, the first missing of firstName/lastName/email/eventType, e-mail pattern); then the screenshot upload and the unconditional put of a PENDING self-service attendee under `(slug#ATTENDEE, email)`, replacing any earlier one; 500 on errors; the response's attendeeId is the e-mail |
| Registration.StoreRegistration | stateless/functions/eventRegistration.ts:97-152 | with a file, the blob key is `slug/payments/uuid.ext` with the sniffed (or png) extension and mime; without one the screenshot key is null and no blob is written; then the put as `PutSelfService` says |
| Registration.PutSelfService | stateless/functions/eventRegistration.ts:119-152 | without `phone`, with an item holding an unsafe number, or on a failing call, 500 and no change; otherwise the attendee is stored under `(slug#ATTENDEE, email)` with 200 |
| Registration.FormItemSafe | stateless/functions/eventRegistration.ts:53-69 | a form's fields are text, so the self-registered attendee never holds an unsafe number |
| Registration.ManualAttendeeValues | stateless/functions/manualAttendeeRegistration.ts:30-46 | the body with `eventSlug` set to the path's slug, every other field kept with its value |
| Registration.ManualAttendeeRegistration | stateless/functions/manualAttendeeRegistration.ts:18-128 | the slug is checked before the JSON; then the six required fields in order and the e-mail pattern; the put succeeds only when no record is under `(slug#ATTENDEE, email)`, storing a VERIFIED manual attendee registered by the username or "admin"; an existing one is kept and the answer is 500, as it is for an item holding an unsafe number |
| Registration.StoreManualAttendee | stateless/functions/manualAttendeeRegistration.ts:82-117 | the "must not exist" put and its two answers; 500 and no change for an existing key, a non-text e-mail or an unsafe number |
| Registration.ManualEventRegistration | stateless/functions/manualEventRegistration.ts:22-104 | 400 for bad JSON; the six required fields, the slug among them, in order; the e-mail pattern; then an unconditional put of a VERIFIED manual participant under `(slug#PARTICIPANT, email)`, registered by the e-mail claim or "admin"; 500 for a non-text e-mail or an item holding an unsafe number |
| Registration.StoreParticipant | stateless/functions/manualEventRegistration.ts:62-93 | the unconditional put, replacing any participant under the key, and its two answers; 500 and no change for a non-text e-mail or an unsafe number |
| Registration.ParticipantsApartFromAttendees | stateless/functions/manualEventRegistration.ts:63 | a participant partition is never an attendee partition |
| FileUpload.AfterLast | stateless/functions/putS3Object.ts:94-95 | the last piece of `split(c)`: a suffix with no `c`, all of the text exactly when it has no `c`, otherwise preceded by `c` |
| FileUpload.ExtensionFromName | stateless/functions/putS3Object.ts:93-96 | an extension exactly when the name has a `.` and the text after the last `.` is non-empty, and then that text |
| FileUpload.ExtensionOfJoined | stateless/functions/putS3Object.ts:93-96 | the extension of `base.ext` is `ext` for any base and any non-empty dot-free ext |
| FileUpload.StripPath | stateless/functions/putS3Object.ts:100 | `replace(/^.*[\\/]/, "")`: a suffix, unchanged exactly when the first line has no slash, otherwise cut just after a slash on the first line |
| FileUpload.StripPathGreedy | stateless/functions/putS3Object.ts:100 | the match runs to the last slash of the first line: none is left there |
| FileUpload.ReplaceUnsafe | stateless/functions/putS3Object.ts:101 | each character outside `[A-Za-z0-9_.-]` becomes `_`, the others stay, the length is kept |
| FileUpload.SanitizeFileName | stateless/functions/putS3Object.ts:98-103 | the result has the stripped name's length, only `[a-z0-9_.-]`, and no slash |
| FileUpload.SafeNameUnchanged | stateless/functions/putS3Object.ts:98-103 | a name of safe characters only is its own sanitised form |
| FileUpload.SanitizeIdempotent | stateless/functions/putS3Object.ts:98-103 | sanitising twice equals sanitising once |
| FileUpload.SanitizeDropsDirectory | stateless/functions/putS3Object.ts:100 | a slash-free base name under a one-line directory path sanitises as the base name alone |
| FileUpload.UploadExtension | stateless/functions/putS3Object.ts:30-31 | the sniffed extension, else the name's extension, else "bin"; never empty |
| FileUpload.UploadMime | stateless/functions/putS3Object.ts:32 | the sniffed mime when non-empty, else application/octet-stream |
| FileUpload.ObjectKey | stateless/functions/putS3Object.ts:35-37 | the sanitised name, or `upload.ext` when that is empty |
| FileUpload.UploadKeyFlat | stateless/functions/putS3Object.ts:35-37 | a base name's key holds no `/`, and is all safe characters when the name is not empty |
| FileUpload.PutS3Object | stateless/functions/putS3Object.ts:15-65 | 400 "Invalid input" without a base64 body and content type; the parser's error or "No file found" as 400; otherwise the file is written at its key with its mime, and the answer is 200 with the CloudFront URL, or 400 on an upload error; the bucket changes only on 200 |
| Quiz.QuizKey | stateless/functions/uploadQuizToS3.ts:32 | the key is the slug followed by `/quiz.json` |
| Quiz.QuizKeysDistinct | stateless/functions/uploadQuizToS3.ts:32 | different slugs have different quiz keys |
| Quiz.UploadQuiz | stateless/functions/uploadQuizToS3.ts:15-68 | 400s for a missing slug, a missing body, a parse error and a falsy `quiz`, in that order; then the whole body is written over any earlier quiz, and the response echoes the key and slug; 400 on an upload error; no write unless 200 |
| Quiz.QuizResponse | stateless/functions/getQuizFromS3.ts:30-67 | a stored document answers 200 with it, stored raw bytes 400, NoSuchKey 404 "Quiz not found", any other read error 400 |
| Quiz.GetQuiz | stateless/functions/getQuizFromS3.ts:15-67 | 400 without an event id; otherwise the read of `eventId/quiz.json`: 200 with a stored document, 400 for raw bytes, 404 when absent, 400 on a read error |
| Quiz.UploadThenGet | stateless/functions/getQuizFromS3.ts:36-46 | after a successful upload for a slug, a get for it answers 200 with the uploaded body |
| Quiz.UploadKeepsOtherQuizzes | stateless/functions/uploadQuizToS3.ts:32-46 | an upload leaves every other event's quiz as it was |
| Quiz.FileUploadsMissQuizzes | stateless/functions/putS3Object.ts:35-37 | a file upload under a base name never lands on a quiz key |
| Tags.Triple | lib/constants/tags.ts:17-31 | an environment's triple has exactly Environment, CostCenter and Owner |
| Tags.LookupEnvironment | lib/constants/tags.ts:36 | `environmentTags[environment]`: an own triple for dev, staging and prod; an inherited member for an `Object.prototype` name; undefined otherwise |
| Tags.AsWrittenDropsTriple | lib/constants/tags.ts:34-37 | as written, "constructor" yields only the three common tags, and "toString" yields no Environment tag |
| Tags.EnvironmentTriple | lib/constants/tags.ts:36 | the environment's own triple, or the dev one for any other name |
| Tags.GetTags | lib/constants/tags.ts:34-37 | the common tags' names plus the triple's; the triple wins on a shared name |
| Tags.CommonTagsPresent | lib/constants/tags.ts:8-14 | ManagedBy CDK, Project FEE_SUITE and the application ARN are always present |
| Tags.SixTags | lib/constants/tags.ts:34-37 | exactly six tags, the two groups sharing no name |
| Tags.OwnTriples | lib/constants/tags.ts:16-32 | dev, staging and prod each get their own triple |
| Tags.FallbackTriple | lib/constants/tags.ts:36 | any other name gets the dev tags |
| Tags.AsWrittenAgrees | lib/constants/tags.ts:36 | for any name that is not an inherited member, the code as written agrees with `GetTags` |

## Left out

- Multipart parsing (`parseFormData`, `parseForm`) is not modelled. The handlers take the parser's outcome as an input: fields plus optional bytes and a name, no file, or a parser error. That the parser reports a base name without its directory is not modelled either.
- `Registration.FormParse`: the `FormEmpty` outcome (`!parsed`) cannot come from the real parser, which always resolves an object. It is kept so that the handler's branch is modelled.
- File-type sniffing (`fileTypeFromBuffer`) is a parameter, an optional (extension, mime) pair.
- `uuidv4()`, `new Date().toISOString()`, `process.env` and logging are left out. The first two are parameters.
- The AWS SDK clients are the `Store.Table` and `Store.Bucket` classes, and update expressions are clause lists. A service error's message is the one placeholder `ServiceErrorText`, and a serialised service exception the one placeholder object `ServiceException`. The name of the table and the bucket is not modelled.
- JSON: bodies are an already-parsed object (members in key order) or a parse error. Non-object JSON bodies, floating-point numbers and the key order of serialised objects are not modelled. The quiz is stored as the value it serialises, so serialise-then-parse is taken as the identity.
- `Quiz.GetQuiz`: the `!response.Body` branch is not modelled, because a stored object always has a body.
- `Quiz.QuizResponse`: raw bytes at a quiz key answer 400, as bytes that are not JSON text fail `JSON.parse`; bytes that happen to be JSON text are not decoded. No handler writes bytes at a quiz key: file uploads never land there (`FileUploadsMissQuizzes`), and payment keys hold `/payments/`.
- `Store.Table.Get`, `Store.Table.Query`: the document client also refuses to unmarshal a stored number beyond the safe integers on a read. Reads are not refused for it; only writes are, and no modelled write stores such a number except an `ADD` that pushes a counter past 2^53 - 1.
- `FileUpload.SanitizeFileName`: `toLowerCase` is modelled on ASCII letters only, and `\w` as `[A-Za-z0-9_]`. A character outside the basic plane becomes one `_`, where JavaScript, working on UTF-16 code units, writes two.
- `Validation.EventPartition`: `toUpperCase` is ASCII-only; `\s` is the ECMAScript white-space and line-terminator set.
- `Store.Table.Query`: pagination and `Limit` are not modelled. A query returns every match, and the counter's `Limit: 1` probe takes the first row.
- At-least-once redelivery of change-feed batches and concurrent invocations belong to the hosting platform. A batch is processed in order, to the end or to the first propagated error.
- The pass-through handlers `getEventList.ts`, `getEventDetails.ts` and `listS3Objects.ts` make one unvalidated call each and are not part of this model.
- Response headers, CORS, the authorizer itself and the infrastructure declarations (the CDK stacks, config loader and type files) are not modelled.
- `Registration.EventRegistration`: a form without `phone` gives an item with an undefined attribute, which the table's document client refuses by default. The model answers 500 after the screenshot upload.

## Findings

| source | as written | input that shows it | evidently intended | confidence | as-written member | corrected member |
|---|---|---|---|---|---|---|
| lib/constants/tags.ts:36 | the lookup `environmentTags[environment]`, with `environmentTags.dev` as its fallback, also finds the members every object inherits from `Object.prototype`; these are truthy, so the dev fallback is skipped, and spreading them adds no tag | `getTags("constructor")` (or "toString", "__proto__", ...) yields only ManagedBy, Project and awsApplication; unreachable from bin/symphony.ts, whose `loadConfig` rejects every name but dev and prod first | an unknown environment name gets the dev triple, six tags in all | not executed; high | Tags.AsWrittenDropsTriple | Tags.GetTags |

=== FILE: attendee_handlers.dfy ===
/**
 * The attendee handlers: edit an attendee's details, mark an attendee
 * VERIFIED, delete an attendee, and the two read-only listings of an
 * event's attendees and participants.
 *
 * Attendees of event `slug` are stored under pk `slug#ATTENDEE` with the
 * attendee id (their e-mail) as sk; participants under `slug#PARTICIPANT`.
 */
module AttendeeHandlers {
  import opened Wrappers
  import opened Json
  import opened Store
  import opened Http
  import opened UpdateExpression

  const MissingAttendeeId := "Missing attendeeId path parameter"
  const AttendeeNotFound := "Attendee not found"

  /** The key of attendee `id` of event `slug`: (`${eventSlug}#ATTENDEE`, id). */
  function AttendeeKey(slug: string, id: string): (k: Key)
    ensures k.0 == slug + "#ATTENDEE" && k.1 == id
  {
    (slug + "#ATTENDEE", id)
  }

  // ----- updateAttendeeDetails -----

  /** The body fields the edit may write: `delete` of `attendanceStatus`, `pk` and `sk`, the rest in their order. */
  function EditableDetails(members: Members): (r: Members)
    ensures forall p :: p in r <==> p in members && p.0 != "attendanceStatus" && p.0 != "pk" && p.0 != "sk"
    ensures forall i :: 0 <= i < |r| ==> r[i].0 != "attendanceStatus" && r[i].0 != "pk" && r[i].0 != "sk"
    ensures Member(r, "attendanceStatus").None?
    ensures InOrder(r, members)
  {
    var once := Without(members, "attendanceStatus");
    var twice := Without(once, "pk");
    InOrderTrans(twice, once, members);
    InOrderTrans(Without(twice, "sk"), twice, members);
    Without(twice, "sk")
  }

  const ShownDetails := {"firstName", "lastName", "email", "phone", "profession", "attendanceStatus",
                         "updatedDate", "updatedBy"}

  function UpdatedAttendeeBody(slug: string, id: string, record: Item): Value {
    var shown := Pick(record, ShownDetails)["eventSlug" := Str(slug)]["attendeeId" := Str(id)];
    Obj(map["status" := Str("OK"), "message" := Str("Attendee details updated successfully"),
            "updatedAttendee" := Obj(shown)])
  }

  predicate DetailsAccepted(req: Request) {
    && Param(req.path, "eventSlug").Some? && Param(req.path, "attendeeId").Some?
    && req.body.Parsed? && |EditableDetails(req.body.members)| > 0
  }

  /**
   * updateAttendeeDetails: three 400s in order, the empty-edit 400, then a
   * Get of the attendee (404 when absent) and one SET update of that record;
   * the record's attendance status is never written.
   */
  method UpdateAttendeeDetails(table: Table, req: Request, now: string, getFault: bool, updateFault: bool)
    returns (resp: Response)
    requires table.Valid()
    modifies table
    ensures table.Valid()
    ensures resp.status != 200 ==> table.items == old(table.items)
    ensures Param(req.path, "eventSlug").None? ==> resp == ErrorResponse(400, MissingEventSlug)
    ensures Param(req.path, "eventSlug").Some? && Param(req.path, "attendeeId").None? ==>
      resp == ErrorResponse(400, MissingAttendeeId)
    ensures Param(req.path, "eventSlug").Some? && Param(req.path, "attendeeId").Some? && req.body.Malformed? ==>
      resp == ErrorResponse(400, "Invalid JSON format")
    ensures (Param(req.path, "eventSlug").Some? && Param(req.path, "attendeeId").Some? && req.body.Parsed?
             && |EditableDetails(req.body.members)| == 0) ==> resp == ErrorResponse(400, "No valid fields to update")
    ensures DetailsAccepted(req) ==>
      var slug := Param(req.path, "eventSlug").value;
      var id := Param(req.path, "attendeeId").value;
      var k := AttendeeKey(slug, id);
      var fields := EditableDetails(req.body.members);
      && (getFault ==> resp == ErrorResponse(500, ServiceErrorText))
      && (!getFault && k !in old(table.items) ==> resp == ErrorResponse(404, AttendeeNotFound))
      && (!getFault && k in old(table.items) ==>
            && (updateFault || NamesStamp(fields) || NamesEmpty(fields) || !SafeMembers(fields) ==>
                  resp == ErrorResponse(500, ServiceErrorText))
            && (!updateFault && !NamesStamp(fields) && !NamesEmpty(fields) && SafeMembers(fields) ==>
                  && k in table.items
                  && table.items == old(table.items)[k := table.items[k]]
                  && Stamped(old(table.items)[k], table.items[k], fields, Str(now), Str(Caller(req.claims.username)))
                  && Lookup1(table.items[k], "attendanceStatus") == Lookup1(old(table.items)[k], "attendanceStatus")
                  && resp == Response(200, UpdatedAttendeeBody(slug, id, table.items[k]))))
  {
    var eventSlug := Param(req.path, "eventSlug");
    var attendeeId := Param(req.path, "attendeeId");
    if eventSlug.None? {
      return ErrorResponse(400, MissingEventSlug);
    }
    if attendeeId.None? {
      return ErrorResponse(400, MissingAttendeeId);
    }
    if req.body.Malformed? {
      return ErrorResponse(400, "Invalid JSON format");
    }
    // Remove any attempt to write the status or the key.
    var updateData := req.body.members;
    updateData := Without(updateData, "attendanceStatus");
    updateData := Without(updateData, "pk");
    updateData := Without(updateData, "sk");
    assert updateData == EditableDetails(req.body.members);
    if |updateData| == 0 {
      return ErrorResponse(400, "No valid fields to update");
    }
    var key := AttendeeKey(eventSlug.value, attendeeId.value);
    var existing := table.Get(key, getFault);
    if existing.ReadFailed? {
      return ErrorResponse(500, ServiceErrorText);
    }
    if existing.value.None? {
      return ErrorResponse(404, AttendeeNotFound);
    }
    var stamp := Str(Caller(req.claims.username));
    var outcome := UpdateStamped(table, key, updateData, Str(now), stamp, updateFault);
    if outcome != Done {
      return ErrorResponse(500, ServiceErrorText);
    }
    resp := Response(200, UpdatedAttendeeBody(eventSlug.value, attendeeId.value, table.items[key]));
  }

  // ----- updateAttendeeStatus -----

  /** `SET attendanceStatus = "VERIFIED", verifiedDate = :verifiedDate, verifiedBy = :verifiedBy`. */
  function VerifyActions(now: string, verifiedBy: string): seq<Action> {
    [Set("attendanceStatus", Str("VERIFIED")), Set("verifiedDate", Str(now)), Set("verifiedBy", Str(verifiedBy))]
  }

  /** The attendee record after verification. */
  function Verified(record: Item, now: string, verifiedBy: string): (r: Item)
    ensures r.Keys == record.Keys + {"attendanceStatus", "verifiedDate", "verifiedBy"}
    ensures r["attendanceStatus"] == Str("VERIFIED")
    ensures r["verifiedDate"] == Str(now) && r["verifiedBy"] == Str(verifiedBy)
    ensures forall a :: a in record && a !in {"attendanceStatus", "verifiedDate", "verifiedBy"} ==> r[a] == record[a]
  {
    record["attendanceStatus" := Str("VERIFIED")]["verifiedDate" := Str(now)]["verifiedBy" := Str(verifiedBy)]
  }

  /** The verification update of a stored attendee writes exactly the three attributes, or is refused and writes nothing. */
  lemma VerifyEffect(items: map<Key, Item>, k: Key, now: string, verifiedBy: string, fault: bool)
    requires WellKeyed(items) && k in items && k.0 != "" && k.1 != ""
    ensures UpdateEffect(items, k, VerifyActions(now, verifiedBy), Always, fault)
            == if fault then (items, Refused(Unavailable)) else (items[k := Verified(items[k], now, verifiedBy)], Done)
  {
    var actions := VerifyActions(now, verifiedBy);
    assert ValidActions(actions);
    var r1 := items[k]["attendanceStatus" := Str("VERIFIED")];
    var r2 := r1["verifiedDate" := Str(now)];
    var r3 := r2["verifiedBy" := Str(verifiedBy)];
    assert Apply(r3, actions[1..][1..][1..]) == Some(r3);
    assert Apply(r2, actions[1..][1..]) == Some(r3);
    assert Apply(r1, actions[1..]) == Some(r3);
    assert Apply(items[k], actions) == Some(r3);
  }

  /** Verifying twice is verifying once with the later stamps: the status stays VERIFIED. */
  lemma VerifyIdempotent(record: Item, now1: string, by1: string, now2: string, by2: string)
    ensures Verified(Verified(record, now1, by1), now2, by2) == Verified(record, now2, by2)
    ensures Verified(Verified(record, now1, by1), now2, by2)["attendanceStatus"]
            == Verified(record, now1, by1)["attendanceStatus"]
  {
  }

  const ShownVerification := {"firstName", "lastName", "email", "attendanceStatus", "verifiedDate", "verifiedBy"}

  function VerifiedAttendeeBody(slug: string, id: string, record: Item): Value {
    var shown := Pick(record, ShownVerification)["eventSlug" := Str(slug)]["attendeeId" := Str(id)];
    Obj(map["status" := Str("OK"), "message" := Str("Attendee status updated to VERIFIED successfully"),
            "updatedAttendee" := Obj(shown)])
  }

  /**
   * updateAttendeeStatus: two 400s, a Get of the attendee (404 when absent),
   * then the three-attribute update; the response echoes the path's slug and id.
   */
  method UpdateAttendeeStatus(table: Table, req: Request, now: string, getFault: bool, updateFault: bool)
    returns (resp: Response)
    requires table.Valid()
    modifies table
    ensures table.Valid()
    ensures resp.status != 200 ==> table.items == old(table.items)
    ensures Param(req.path, "eventSlug").None? ==> resp == ErrorResponse(400, MissingEventSlug)
    ensures Param(req.path, "eventSlug").Some? && Param(req.path, "attendeeId").None? ==>
      resp == ErrorResponse(400, MissingAttendeeId)
    ensures Param(req.path, "eventSlug").Some? && Param(req.path, "attendeeId").Some? ==>
      var slug := Param(req.path, "eventSlug").value;
      var id := Param(req.path, "attendeeId").value;
      var k := AttendeeKey(slug, id);
      && (getFault ==> resp == ErrorResponse(500, ServiceErrorText))
      && (!getFault && k !in old(table.items) ==> resp == ErrorResponse(404, AttendeeNotFound))
      && (!getFault && k in old(table.items) && updateFault ==> resp == ErrorResponse(500, ServiceErrorText))
      && (!getFault && k in old(table.items) && !updateFault ==>
            var record := Verified(old(table.items)[k], now, Caller(req.claims.username));
            && table.items == old(table.items)[k := record]
            && resp == Response(200, VerifiedAttendeeBody(slug, id, record)))
  {
    var eventSlug := Param(req.path, "eventSlug");
    var attendeeId := Param(req.path, "attendeeId");
    if eventSlug.None? {
      return ErrorResponse(400, MissingEventSlug);
    }
    if attendeeId.None? {
      return ErrorResponse(400, MissingAttendeeId);
    }
    var key := AttendeeKey(eventSlug.value, attendeeId.value);
    var existing := table.Get(key, getFault);
    if existing.ReadFailed? {
      return ErrorResponse(500, ServiceErrorText);
    }
    if existing.value.None? {
      return ErrorResponse(404, AttendeeNotFound);
    }
    var verifiedBy := Caller(req.claims.username);
    VerifyEffect(table.items, key, now, verifiedBy, updateFault);
    var outcome := table.Update(key, VerifyActions(now, verifiedBy), Always, updateFault);
    if outcome != Done {
      return ErrorResponse(500, ServiceErrorText);
    }
    resp := Response(200, VerifiedAttendeeBody(eventSlug.value, attendeeId.value, table.items[key]));
  }

  // ----- deleteAttendee -----

  function DeletedAttendeeBody(slug: string, id: string, record: Item, deletedBy: string): Value {
    var shown := Pick(record, {"firstName", "lastName"})["eventSlug" := Str(slug)]["email" := Str(id)];
    Obj(map["status" := Str("OK"), "message" := Str("Attendee deleted successfully"),
            "deletedAttendee" := Obj(shown), "deletedBy" := Str(deletedBy)])
  }

  /**
   * deleteAttendee: two 400s, a Get of the attendee (404 when absent), then
   * the delete of exactly that key; the response shows the names the record
   * had before it was deleted.
   */
  method DeleteAttendee(table: Table, req: Request, getFault: bool, deleteFault: bool) returns (resp: Response)
    requires table.Valid()
    modifies table
    ensures table.Valid()
    ensures resp.status != 200 ==> table.items == old(table.items)
    ensures Param(req.path, "eventSlug").None? ==> resp == ErrorResponse(400, MissingEventSlug)
    ensures Param(req.path, "eventSlug").Some? && Param(req.path, "attendeeId").None? ==>
      resp == ErrorResponse(400, MissingAttendeeId)
    ensures Param(req.path, "eventSlug").Some? && Param(req.path, "attendeeId").Some? ==>
      var slug := Param(req.path, "eventSlug").value;
      var id := Param(req.path, "attendeeId").value;
      var k := AttendeeKey(slug, id);
      && (getFault ==> resp == ErrorResponse(500, ServiceErrorText))
      && (!getFault && k !in old(table.items) ==> resp == ErrorResponse(404, AttendeeNotFound))
      && (!getFault && k in old(table.items) && deleteFault ==> resp == ErrorResponse(500, ServiceErrorText))
      && (!getFault && k in old(table.items) && !deleteFault ==>
            && table.items == old(table.items) - {k}
            && resp == Response(200, DeletedAttendeeBody(slug, id, old(table.items)[k], Caller(req.claims.username))))
  {
    var eventSlug := Param(req.path, "eventSlug");
    var attendeeId := Param(req.path, "attendeeId");
    if eventSlug.None? {
      return ErrorResponse(400, MissingEventSlug);
    }
    if attendeeId.None? {
      return ErrorResponse(400, MissingAttendeeId);
    }
    var key := AttendeeKey(eventSlug.value, attendeeId.value);
    var existing := table.Get(key, getFault);
    if existing.ReadFailed? {
      return ErrorResponse(500, ServiceErrorText);
    }
    if existing.value.None? {
      return ErrorResponse(404, AttendeeNotFound);
    }
    var outcome := table.Delete(key, deleteFault);
    if outcome != Done {
      return ErrorResponse(500, ServiceErrorText);
    }
    resp := Response(200, DeletedAttendeeBody(eventSlug.value, attendeeId.value, existing.value.value,
                                              Caller(req.claims.username)));
  }

  /** The same delete sent twice: once it has succeeded, the second answers 404 and changes nothing. */
  method DeleteAttendeeTwice(table: Table, req: Request) returns (first: Response, second: Response)
    requires table.Valid()
    modifies table
    ensures first.status == 200 ==> second == ErrorResponse(404, AttendeeNotFound)
    ensures first.status == 200 ==>
      && Param(req.path, "eventSlug").Some? && Param(req.path, "attendeeId").Some?
      && table.items == old(table.items) - {AttendeeKey(Param(req.path, "eventSlug").value, Param(req.path, "attendeeId").value)}
  {
    first := DeleteAttendee(table, req, false, false);
    second := DeleteAttendee(table, req, false, false);
  }

  // ----- The listings -----

  const AttendeeFields := {"firstName", "lastName", "email", "phone", "eventSlug", "eventType", "paymentScreenshotKey",
                           "attendanceStatus", "profession", "registrationDate", "registeredBy"}

  /** `item.registrationType || "self-service"`. */
  function RegistrationType(record: Item): (v: Value)
    ensures Truthy(Field(record, "registrationType")) ==> v == record["registrationType"]
    ensures !Truthy(Field(record, "registrationType")) ==> v == Str("self-service")
  {
    if Truthy(Field(record, "registrationType")) then record["registrationType"] else Str("self-service")
  }

  /** One record as a listing shows it: the listed fields it has, and the registration type with its default. */
  function View(record: Item, shown: set<string>): (v: map<string, Value>)
    requires "registrationType" !in shown
    ensures v.Keys == (shown * record.Keys) + {"registrationType"}
    ensures v["registrationType"] == RegistrationType(record)
    ensures forall a :: a in v && a != "registrationType" ==> v[a] == record[a]
  {
    Pick(record, shown)["registrationType" := RegistrationType(record)]
  }

  function Views(rows: seq<Item>, shown: set<string>): (vs: seq<map<string, Value>>)
    requires "registrationType" !in shown
    ensures |vs| == |rows| && forall i :: 0 <= i < |rows| ==> vs[i] == View(rows[i], shown)
  {
    seq(|rows|, i requires 0 <= i < |rows| => View(rows[i], shown))
  }

  /** A listing never shows the key attributes. */
  lemma ViewHidesKeys(record: Item)
    ensures "pk" !in View(record, AttendeeFields) && "sk" !in View(record, AttendeeFields)
    ensures "pk" !in View(record, AttendeeFields - {"profession"})
    ensures "sk" !in View(record, AttendeeFields - {"profession"})
    ensures "profession" !in View(record, AttendeeFields - {"profession"})
  {
  }

  function ListingBody(slug: string, countName: string, listName: string, views: seq<map<string, Value>>): Value {
    Obj(map["status" := Str("OK"), "eventSlug" := Str(slug), countName := Num(|views|), listName := Records(views)])
  }

  /**
   * getEventAttendees: every record under `slug#ATTENDEE`, each projected;
   * the count is the number of records found, not the event's counter.
   */
  method GetEventAttendees(table: Table, req: Request, fault: bool) returns (resp: Response)
    requires table.Valid()
    ensures Param(req.path, "eventSlug").None? ==> resp == ErrorResponse(400, MissingEventSlug)
    ensures Param(req.path, "eventSlug").Some? ==>
      var slug := Param(req.path, "eventSlug").value;
      var rows := QueryResult(table.items, slug + "#ATTENDEE", "");
      && |rows| == |Matching(table.items, slug + "#ATTENDEE", "")|
      && resp == if fault then ErrorResponse(500, ServiceErrorText)
                 else Response(200, ListingBody(slug, "attendeeCount", "attendees", Views(rows, AttendeeFields)))
  {
    var eventSlug := Param(req.path, "eventSlug");
    if eventSlug.None? {
      return ErrorResponse(400, MissingEventSlug);
    }
    QueryResultSpec(table.items, eventSlug.value + "#ATTENDEE", "");
    var result := table.Query(eventSlug.value + "#ATTENDEE", "", fault);
    if result.ReadFailed? {
      return ErrorResponse(500, ServiceErrorText);
    }
    var attendees := Views(result.value, AttendeeFields);
    resp := Response(200, ListingBody(eventSlug.value, "attendeeCount", "attendees", attendees));
  }

  /** getEventParticipants: every record under `slug#PARTICIPANT`, projected without `profession`. */
  method GetEventParticipants(table: Table, req: Request, fault: bool) returns (resp: Response)
    requires table.Valid()
    ensures Param(req.path, "eventSlug").None? ==> resp == ErrorResponse(400, MissingEventSlug)
    ensures Param(req.path, "eventSlug").Some? ==>
      var slug := Param(req.path, "eventSlug").value;
      var rows := QueryResult(table.items, slug + "#PARTICIPANT", "");
      && |rows| == |Matching(table.items, slug + "#PARTICIPANT", "")|
      && resp == if fault then ErrorResponse(500, ServiceErrorText)
                 else Response(200, ListingBody(slug, "participantCount", "participants",
                                                Views(rows, AttendeeFields - {"profession"})))
  {
    var eventSlug := Param(req.path, "eventSlug");
    if eventSlug.None? {
      return ErrorResponse(400, MissingEventSlug);
    }
    QueryResultSpec(table.items, eventSlug.value + "#PARTICIPANT", "");
    var result := table.Query(eventSlug.value + "#PARTICIPANT", "", fault);
    if result.ReadFailed? {
      return ErrorResponse(500, ServiceErrorText);
    }
    var participants := Views(result.value, AttendeeFields - {"profession"});
    resp := Response(200, ListingBody(eventSlug.value, "participantCount", "participants", participants));
  }
}

=== FILE: counter.dfy ===
/**
 * The attendee-counter processor: it consumes a batch of change-feed records
 * in order and keeps each event's `attendeeCount` in step with the attendee
 * records inserted and removed under `{slug}#ATTENDEE`.
 *
 * The methods mirror the processor's functions and update the table in
 * place; each is proved against a ghost function of the old table that says
 * what the record or the batch does, and the lemmas at the end state the
 * counter's properties about those functions.
 */
module AttendeeCounter {
  import opened Wrappers
  import opened Json
  import opened Strings
  import opened Store

  /** A change-feed record: its event name and the `pk` string of its Keys, NewImage and OldImage, where present. */
  datatype StreamRecord = StreamRecord(
    eventName: string,
    keysPk: Option<string>,
    newImagePk: Option<string>,
    oldImagePk: Option<string>)

  /**
   * Which of the processor's store calls the service refuses for a record,
   * for reasons outside the model: the FAD probe, the EVENT probe, the
   * increment or decrement, and the reset to 0.
   */
  datatype Faults = Faults(fadProbe: bool, eventProbe: bool, write: bool, reset: bool)

  const NoFaults := Faults(false, false, false, false)

  /** The table after a record or a batch, and whether the invocation is still running (no error propagated). */
  datatype Step = Step(items: map<Key, Item>, ok: bool)

  const Counter := "attendeeCount"

  predicate NonEmpty(s: Option<string>) {
    s.Some? && s.value != ""
  }

  /** `Keys.pk.S || NewImage.pk.S || OldImage.pk.S`. */
  function RecordPk(rec: StreamRecord): (pk: Option<string>)
    ensures pk.Some? ==> pk.value != ""
    ensures pk.None? <==> !NonEmpty(rec.keysPk) && !NonEmpty(rec.newImagePk) && !NonEmpty(rec.oldImagePk)
    ensures NonEmpty(rec.keysPk) ==> pk == rec.keysPk
  {
    if NonEmpty(rec.keysPk) then rec.keysPk
    else if NonEmpty(rec.newImagePk) then rec.newImagePk
    else if NonEmpty(rec.oldImagePk) then rec.oldImagePk
    else None
  }

  /** isAttendeeRecord: the record's pk contains "#ATTENDEE". */
  predicate IsAttendeeRecord(rec: StreamRecord) {
    RecordPk(rec).Some? && Contains(RecordPk(rec).value, "#ATTENDEE")
  }

  /** extractEventSlug: the text of the pk before its first '#'. */
  function ExtractEventSlug(rec: StreamRecord): (slug: Option<string>)
    ensures slug.Some? <==> RecordPk(rec).Some?
    ensures slug.Some? ==> var pk := RecordPk(rec).value;
      slug.value <= pk && '#' !in slug.value && (slug.value == pk || pk[|slug.value|] == '#')
  {
    match RecordPk(rec)
    case None => None
    case Some(pk) => Some(BeforeFirst(pk, '#'))
  }

  /**
   * The change-feed record of an attendee stored under `slug#ATTENDEE` is
   * classified as an attendee record, and the slug extracted from it is
   * `slug` again, whenever `slug` has no '#' of its own.
   */
  lemma AttendeeRecordSlug(rec: StreamRecord, slug: string)
    requires rec.keysPk == Some(slug + "#ATTENDEE")
    requires '#' !in slug
    ensures IsAttendeeRecord(rec)
    ensures ExtractEventSlug(rec) == Some(slug)
  {
    var pk := slug + "#ATTENDEE";
    assert "#ATTENDEE" <= pk[|slug|..];
    var s := ExtractEventSlug(rec).value;
    assert pk[|slug|] == '#';
    assert s == slug;
  }

  // ----- Specification -----

  function ProbeFault(f: Faults, i: nat): bool {
    if i == 0 then f.fadProbe else f.eventProbe
  }

  /** One probe of findEventRecord: the least matching key under `pk`, or nothing when none matches or the query is refused. */
  ghost function Probe(items: map<Key, Item>, pk: string, slug: string, fault: bool): Option<Key> {
    if fault || Matching(items, pk, slug) == {} then None
    else Some((pk, Least(Matching(items, pk, slug))))
  }

  /** findEventRecord: probe "FAD", then "EVENT". */
  ghost function FindEvent(items: map<Key, Item>, slug: string, f: Faults): Option<Key> {
    var fad := Probe(items, "FAD", slug, f.fadProbe);
    if fad.Some? then fad else Probe(items, "EVENT", slug, f.eventProbe)
  }

  /** incrementAttendeeCount: `ADD attendeeCount 1`; any refusal propagates. */
  ghost function Increment(items: map<Key, Item>, slug: string, f: Faults): Step {
    match FindEvent(items, slug, f)
    case None => Step(items, true)
    case Some(k) =>
      var e := UpdateEffect(items, k, [Add(Counter, 1)], Always, f.write);
      Step(e.0, e.1 == Done)
  }

  /**
   * decrementAttendeeCount: `ADD attendeeCount -1` guarded by
   * `attribute_exists(attendeeCount) AND attendeeCount > 0`; a failed guard
   * falls back to `SET attendeeCount = 0`, whose own failure is swallowed;
   * any other refusal propagates.
   */
  ghost function Decrement(items: map<Key, Item>, slug: string, f: Faults): Step {
    match FindEvent(items, slug, f)
    case None => Step(items, true)
    case Some(k) =>
      var e := UpdateEffect(items, k, [Add(Counter, -1)], Positive(Counter), f.write);
      if e.1 == Done then Step(e.0, true)
      else if e.1 == Refused(ConditionFailed) then
        Step(UpdateEffect(items, k, [Set(Counter, Num(0))], Always, f.reset).0, true)
      else Step(items, false)
  }

  /** processStreamRecord. */
  ghost function ProcessRecord(items: map<Key, Item>, rec: StreamRecord, f: Faults): Step {
    if !IsAttendeeRecord(rec) then Step(items, true)
    else
      var slug := ExtractEventSlug(rec).value;
      if slug == "" then Step(items, true)
      else if rec.eventName == "INSERT" then Increment(items, slug, f)
      else if rec.eventName == "REMOVE" then Decrement(items, slug, f)
      else Step(items, true)
  }

  /** The handler's loop: records in order, stopping at the first one whose error propagates. */
  ghost function ProcessBatch(items: map<Key, Item>, recs: seq<StreamRecord>, faults: seq<Faults>): Step
    requires |faults| == |recs|
    decreases |recs|
  {
    if recs == [] then Step(items, true)
    else
      var before := ProcessBatch(items, recs[..|recs| - 1], faults[..|recs| - 1]);
      if !before.ok then before
      else ProcessRecord(before.items, recs[|recs| - 1], faults[|recs| - 1])
  }

  /** One more record of a batch. */
  lemma BatchNext(items: map<Key, Item>, recs: seq<StreamRecord>, faults: seq<Faults>, i: nat)
    requires |faults| == |recs| && i < |recs|
    ensures var before := ProcessBatch(items, recs[..i], faults[..i]);
      ProcessBatch(items, recs[..i + 1], faults[..i + 1])
      == if !before.ok then before else ProcessRecord(before.items, recs[i], faults[i])
  {
    assert recs[..i + 1][..i] == recs[..i] && faults[..i + 1][..i] == faults[..i];
  }

  /** Once a prefix of the batch has failed, the batch's outcome is that prefix's. */
  lemma FailedPrefixDecides(items: map<Key, Item>, recs: seq<StreamRecord>, faults: seq<Faults>, i: nat)
    requires |faults| == |recs| && i <= |recs|
    requires !ProcessBatch(items, recs[..i], faults[..i]).ok
    ensures ProcessBatch(items, recs, faults) == ProcessBatch(items, recs[..i], faults[..i])
  {
    BatchAppend(items, recs[..i], faults[..i], recs[i..], faults[i..]);
    assert recs[..i] + recs[i..] == recs && faults[..i] + faults[i..] == faults;
  }

  /** A batch whose prefix ran cleanly to `mid` ends where its last record takes `mid`. */
  lemma BatchStepOk(items: map<Key, Item>, recs: seq<StreamRecord>, faults: seq<Faults>, mid: map<Key, Item>,
                    rec: StreamRecord, f: Faults, next: Step)
    requires |faults| == |recs| && |recs| > 0 && recs[|recs| - 1] == rec && faults[|recs| - 1] == f
    requires ProcessBatch(items, recs[..|recs| - 1], faults[..|recs| - 1]) == Step(mid, true)
    requires ProcessRecord(mid, rec, f) == next
    ensures ProcessBatch(items, recs, faults) == next
  {
  }

  /** A batch with one record appended. */
  lemma BatchSnoc(items: map<Key, Item>, recs: seq<StreamRecord>, faults: seq<Faults>, rec: StreamRecord, f: Faults)
    requires |faults| == |recs|
    ensures var before := ProcessBatch(items, recs, faults);
      ProcessBatch(items, recs + [rec], faults + [f])
      == if !before.ok then before else ProcessRecord(before.items, rec, f)
  {
    assert (recs + [rec])[..|recs|] == recs && (faults + [f])[..|recs|] == faults;
  }

  // ----- The processor -----

  /** findEventRecord: a loop over the two event partitions that returns at the first match. */
  method FindEventRecord(table: Table, slug: string, f: Faults) returns (found: Option<Key>)
    requires table.Valid()
    ensures found == FindEvent(table.items, slug, f)
  {
    var partitions := ["FAD", "EVENT"];
    for i := 0 to |partitions|
      invariant forall j :: 0 <= j < i ==> Probe(table.items, partitions[j], slug, ProbeFault(f, j)) == None
    {
      var result := table.Query(partitions[i], slug, ProbeFault(f, i));
      QueryFirst(table.items, partitions[i], slug);
      if result.Found? && |result.value| > 0 {
        found := Some((partitions[i], SkOf(result.value[0])));
        assert found == Probe(table.items, partitions[i], slug, ProbeFault(f, i));
        assert i == 1 ==> Probe(table.items, partitions[0], slug, ProbeFault(f, 0)) == None;
        return;
      }
      // A refused probe is logged and the next partition is tried.
      assert Probe(table.items, partitions[i], slug, ProbeFault(f, i)) == None;
    }
    assert Probe(table.items, partitions[0], slug, ProbeFault(f, 0)) == None;
    assert Probe(table.items, partitions[1], slug, ProbeFault(f, 1)) == None;
    return None;
  }

  /** incrementAttendeeCount. */
  method IncrementAttendeeCount(table: Table, slug: string, f: Faults) returns (ok: bool)
    requires table.Valid()
    modifies table
    ensures table.Valid()
    ensures Step(table.items, ok) == Increment(old(table.items), slug, f)
  {
    var found := FindEventRecord(table, slug, f);
    if found.None? {
      return true;
    }
    var r := table.Update(found.value, [Add(Counter, 1)], Always, f.write);
    ok := r == Done;
  }

  /** decrementAttendeeCount. */
  method DecrementAttendeeCount(table: Table, slug: string, f: Faults) returns (ok: bool)
    requires table.Valid()
    modifies table
    ensures table.Valid()
    ensures Step(table.items, ok) == Decrement(old(table.items), slug, f)
  {
    var found := FindEventRecord(table, slug, f);
    if found.None? {
      return true;
    }
    var r := table.Update(found.value, [Add(Counter, -1)], Positive(Counter), f.write);
    if r == Done {
      ok := true;
    } else if r == Refused(ConditionFailed) {
      var _ := table.Update(found.value, [Set(Counter, Num(0))], Always, f.reset);
      ok := true;
    } else {
      ok := false;
    }
  }

  /** processStreamRecord. */
  method ProcessStreamRecord(table: Table, rec: StreamRecord, f: Faults) returns (ok: bool)
    requires table.Valid()
    modifies table
    ensures table.Valid()
    ensures Step(table.items, ok) == ProcessRecord(old(table.items), rec, f)
  {
    if !IsAttendeeRecord(rec) {
      return true;
    }
    var slug := ExtractEventSlug(rec).value;
    if slug == "" {
      return true;
    }
    if rec.eventName == "INSERT" {
      ok := IncrementAttendeeCount(table, slug, f);
    } else if rec.eventName == "REMOVE" {
      ok := DecrementAttendeeCount(table, slug, f);
    } else {
      ok := true;
    }
  }

  /**
   * handler: processes the records in order; `ok` is false when an error
   * propagated out of the batch (the invocation fails and the feed retries it).
   */
  method HandleStream(table: Table, records: seq<StreamRecord>, faults: seq<Faults>) returns (ok: bool)
    requires table.Valid()
    requires |faults| == |records|
    modifies table
    ensures table.Valid()
    ensures Step(table.items, ok) == ProcessBatch(old(table.items), records, faults)
  {
    for i := 0 to |records|
      invariant table.Valid()
      invariant Step(table.items, true) == ProcessBatch(old(table.items), records[..i], faults[..i])
    {
      BatchNext(old(table.items), records, faults, i);
      var recordOk := ProcessStreamRecord(table, records[i], faults[i]);
      if !recordOk {
        FailedPrefixDecides(old(table.items), records, faults, i + 1);
        return false;
      }
    }
    assert records[..|records|] == records && faults[..|faults|] == faults;
    return true;
  }

  // ----- Properties -----

  /** The counter of a record, with a missing counter read as 0 (as `ADD` starts from 0). */
  function CountOf(item: Item): int {
    if Counter in item && item[Counter].Num? then item[Counter].n else 0
  }

  /** The counter is missing or a number, so `ADD` applies to it. */
  predicate Countable(item: Item) {
    Counter !in item || item[Counter].Num?
  }

  /** The table with record `k`'s counter set to `n` and nothing else changed. */
  function WithCount(items: map<Key, Item>, k: Key, n: int): map<Key, Item>
    requires k in items
  {
    items[k := items[k][Counter := Num(n)]]
  }

  /** `ADD attendeeCount d` on a record whose counter is missing or a number. */
  lemma AddToCounter(item: Item, d: int)
    requires Countable(item)
    ensures Apply(item, [Add(Counter, d)]) == Some(item[Counter := Num(CountOf(item) + d)])
  {
    var actions := [Add(Counter, d)];
    assert actions[1..] == [];
    var next := item[Counter := Num(CountOf(item) + d)];
    assert Apply(next, []) == Some(next);
  }

  /** `ADD attendeeCount d` on a record whose counter is something else is refused. */
  lemma AddToOther(item: Item, d: int)
    requires !Countable(item)
    ensures Apply(item, [Add(Counter, d)]) == None
  {
  }

  /** `SET attendeeCount = v`. */
  lemma SetCounter(item: Item, v: Value)
    ensures Apply(item, [Set(Counter, v)]) == Some(item[Counter := v])
  {
    var actions := [Set(Counter, v)];
    assert actions[1..] == [];
    assert Apply(item[Counter := v], []) == Some(item[Counter := v]);
  }

  /** The record found by the probes is an event record whose sort key begins with the slug, the least such under its partition. */
  lemma FoundIsEvent(items: map<Key, Item>, slug: string, f: Faults)
    requires FindEvent(items, slug, f).Some?
    ensures var k := FindEvent(items, slug, f).value;
      && k in items && (k.0 == "FAD" || k.0 == "EVENT") && slug <= k.1
      && (forall other :: other in items && other.0 == k.0 && slug <= other.1 && other != k ==> Precedes(k.1, other.1))
      && (k.0 == "EVENT" ==> f.fadProbe || Matching(items, "FAD", slug) == {})
  {
    var k := FindEvent(items, slug, f).value;
    assert k.1 in Matching(items, k.0, slug);
    forall other | other in items && other.0 == k.0 && slug <= other.1 && other != k
      ensures Precedes(k.1, other.1)
    {
      assert other.1 in Matching(items, k.0, slug);
    }
  }

  /** The probes see only the table's keys, so a change to attributes never changes which event a slug resolves to. */
  lemma FindEventSeesKeysOnly(items: map<Key, Item>, items': map<Key, Item>, slug: string, f: Faults)
    requires items.Keys == items'.Keys
    ensures FindEvent(items', slug, f) == FindEvent(items, slug, f)
  {
    assert Matching(items', "FAD", slug) == Matching(items, "FAD", slug);
    assert Matching(items', "EVENT", slug) == Matching(items, "EVENT", slug);
  }

  /**
   * An INSERT for a resolvable event adds exactly 1 to its counter, a
   * missing counter counting as 0, and changes nothing else; if the write is
   * refused, or the counter is not a number, the error propagates and
   * nothing changes.
   */
  lemma InsertAddsOne(items: map<Key, Item>, rec: StreamRecord, f: Faults)
    requires IsAttendeeRecord(rec) && rec.eventName == "INSERT"
    requires ExtractEventSlug(rec).value != ""
    requires FindEvent(items, ExtractEventSlug(rec).value, f).Some?
    ensures var k := FindEvent(items, ExtractEventSlug(rec).value, f).value;
      var s := ProcessRecord(items, rec, f);
      && k in items
      && (!f.write && Countable(items[k]) ==> s == Step(WithCount(items, k, CountOf(items[k]) + 1), true))
      && (f.write || !Countable(items[k]) ==> s == Step(items, false))
  {
    var slug := ExtractEventSlug(rec).value;
    var k := FindEvent(items, slug, f).value;
    FoundIsEvent(items, slug, f);
    var actions := [Add(Counter, 1)];
    assert ValidActions(actions);
    if Countable(items[k]) {
      AddToCounter(items[k], 1);
    } else {
      AddToOther(items[k], 1);
    }
  }

  /**
   * A REMOVE for a resolvable event subtracts 1 when the counter exists and
   * is positive, and otherwise resets it to 0; a refused reset is swallowed
   * and leaves the table as it was; a refused decrement propagates. No error
   * propagates from a failed guard, and the counter is never made negative.
   */
  lemma RemoveFloorsAtZero(items: map<Key, Item>, rec: StreamRecord, f: Faults)
    requires IsAttendeeRecord(rec) && rec.eventName == "REMOVE"
    requires ExtractEventSlug(rec).value != ""
    requires FindEvent(items, ExtractEventSlug(rec).value, f).Some?
    ensures var k := FindEvent(items, ExtractEventSlug(rec).value, f).value;
      var s := ProcessRecord(items, rec, f);
      var positive := Holds(Positive(Counter), items[k]);
      && k in items
      && (f.write ==> s == Step(items, false))
      && (!f.write && positive ==> s == Step(WithCount(items, k, CountOf(items[k]) - 1), true))
      && (!f.write && !positive && !f.reset ==> s == Step(WithCount(items, k, 0), true))
      && (!f.write && !positive && f.reset ==> s == Step(items, true))
      && (!f.write && (positive || !f.reset) ==> CountOf(s.items[k]) >= 0 && Counter in s.items[k])
  {
    var slug := ExtractEventSlug(rec).value;
    var k := FindEvent(items, slug, f).value;
    FoundIsEvent(items, slug, f);
    var dec := [Add(Counter, -1)];
    var reset := [Set(Counter, Num(0))];
    assert ValidActions(dec) && ValidActions(reset);
    if Holds(Positive(Counter), items[k]) {
      AddToCounter(items[k], -1);
    }
    SetCounter(items[k], Num(0));
  }

  /** A record the processor does not count (not an attendee's, no slug, MODIFY or any other name) leaves the table alone. */
  lemma OtherRecordsChangeNothing(items: map<Key, Item>, rec: StreamRecord, f: Faults)
    requires !IsAttendeeRecord(rec) || ExtractEventSlug(rec).value == ""
             || (rec.eventName != "INSERT" && rec.eventName != "REMOVE")
    ensures ProcessRecord(items, rec, f) == Step(items, true)
  {
  }

  /** When no probe finds the event (no match, or both probes refused), the record is skipped and nothing changes. */
  lemma UnresolvedIsSkipped(items: map<Key, Item>, rec: StreamRecord, f: Faults)
    requires IsAttendeeRecord(rec) && ExtractEventSlug(rec).value != ""
    requires (f.fadProbe || Matching(items, "FAD", ExtractEventSlug(rec).value) == {})
    requires (f.eventProbe || Matching(items, "EVENT", ExtractEventSlug(rec).value) == {})
    ensures ProcessRecord(items, rec, f) == Step(items, true)
  {
  }

  /** A record changes only event counters: the same keys, and every other attribute of every record as before. */
  lemma RecordTouchesOnlyCounters(items: map<Key, Item>, rec: StreamRecord, f: Faults)
    ensures var s := ProcessRecord(items, rec, f);
      && s.items.Keys == items.Keys
      && forall k, a :: k in items && a != Counter ==> Lookup1(s.items[k], a) == Lookup1(items[k], a)
  {
    if IsAttendeeRecord(rec) && ExtractEventSlug(rec).value != "" {
      var slug := ExtractEventSlug(rec).value;
      if FindEvent(items, slug, f).Some? {
        if rec.eventName == "INSERT" {
          InsertAddsOne(items, rec, f);
        } else if rec.eventName == "REMOVE" {
          RemoveFloorsAtZero(items, rec, f);
        }
      }
    }
  }

  /** A batch is its first part followed by the rest, the rest skipped when the first part failed. */
  lemma {:induction false} BatchAppend(items: map<Key, Item>, a: seq<StreamRecord>, fa: seq<Faults>,
                                       b: seq<StreamRecord>, fb: seq<Faults>)
    requires |fa| == |a| && |fb| == |b|
    ensures var first := ProcessBatch(items, a, fa);
      ProcessBatch(items, a + b, fa + fb) == if !first.ok then first else ProcessBatch(first.items, b, fb)
    decreases |b|
  {
    var first := ProcessBatch(items, a, fa);
    if b == [] {
      assert a + b == a && fa + fb == fa;
    } else {
      var n := |b| - 1;
      assert (a + b)[..|a + b| - 1] == a + b[..n];
      assert (fa + fb)[..|a + b| - 1] == fa + fb[..n];
      BatchAppend(items, a, fa, b[..n], fb[..n]);
      if first.ok {
        assert ProcessBatch(first.items, b, fb) ==
          var before := ProcessBatch(first.items, b[..n], fb[..n]);
          if !before.ok then before else ProcessRecord(before.items, b[n], fb[n]);
      }
    }
  }

  /**
   * An error that propagates from a record stops the batch there: the
   * records before it keep their updates and the records after it are not
   * processed.
   */
  lemma ErrorStopsBatch(items: map<Key, Item>, before: seq<StreamRecord>, fBefore: seq<Faults>,
                        rec: StreamRecord, f: Faults, after: seq<StreamRecord>, fAfter: seq<Faults>)
    requires |fBefore| == |before| && |fAfter| == |after|
    requires ProcessBatch(items, before, fBefore).ok
    requires !ProcessRecord(ProcessBatch(items, before, fBefore).items, rec, f).ok
    ensures ProcessBatch(items, before + [rec] + after, fBefore + [f] + fAfter)
            == Step(ProcessBatch(items, before, fBefore).items, false)
  {
    var done := ProcessBatch(items, before, fBefore);
    BatchAppend(items, before, fBefore, [rec], [f]);
    assert ProcessBatch(done.items, [rec], [f]) == ProcessRecord(done.items, rec, f) by {
      assert [rec][..0] == [] && [f][..0] == [];
    }
    BatchAppend(items, before + [rec], fBefore + [f], after, fAfter);
    assert ProcessRecord(done.items, rec, f).items == done.items by {
      RecordFailureChangesNothing(done.items, rec, f);
    }
  }

  /** A record whose error propagates has changed nothing. */
  lemma RecordFailureChangesNothing(items: map<Key, Item>, rec: StreamRecord, f: Faults)
    requires !ProcessRecord(items, rec, f).ok
    ensures ProcessRecord(items, rec, f).items == items
  {
    var slug := ExtractEventSlug(rec).value;
    if rec.eventName == "INSERT" {
      InsertAddsOne(items, rec, f);
    } else {
      RemoveFloorsAtZero(items, rec, f);
    }
  }

  /** An attendee record named `name` whose slug resolves, with no probe refused, to event `k`. */
  ghost predicate CountsFor(rec: StreamRecord, name: string, items: map<Key, Item>, k: Key) {
    && IsAttendeeRecord(rec) && rec.eventName == name
    && ExtractEventSlug(rec).value != ""
    && FindEvent(items, ExtractEventSlug(rec).value, NoFaults) == Some(k)
  }

  /** One fault-free INSERT on a counter c, a missing counter being 0. */
  lemma {:induction false} InsertStep(items: map<Key, Item>, rec: StreamRecord, k: Key, c: int)
    requires k in items && Countable(items[k]) && CountOf(items[k]) == c
    requires CountsFor(rec, "INSERT", items, k)
    ensures ProcessRecord(items, rec, NoFaults) == Step(WithCount(items, k, c + 1), true)
  {
    InsertAddsOne(items, rec, NoFaults);
  }

  /** One fault-free REMOVE on a counter c >= 0, a missing counter being 0. */
  lemma {:induction false} RemoveStep(items: map<Key, Item>, rec: StreamRecord, k: Key, c: int)
    requires k in items && Countable(items[k]) && CountOf(items[k]) == c && c >= 0
    requires CountsFor(rec, "REMOVE", items, k)
    ensures ProcessRecord(items, rec, NoFaults) == Step(WithCount(items, k, if c > 0 then c - 1 else 0), true)
  {
    RemoveFloorsAtZero(items, rec, NoFaults);
  }

  /** Counting only sees keys: a record that counts for event k still does after a counter change. */
  lemma {:induction false} CountsForAfter(items: map<Key, Item>, rec: StreamRecord, name: string, k: Key, n: int)
    requires k in items && CountsFor(rec, name, items, k)
    ensures CountsFor(rec, name, WithCount(items, k, n), k)
  {
    FindEventSeesKeysOnly(items, WithCount(items, k, n), ExtractEventSlug(rec).value, NoFaults);
  }

  /** An INSERT on the table whose counter at k was already moved to `before`. */
  lemma {:induction false} InsertAfter(items: map<Key, Item>, rec: StreamRecord, k: Key, before: int, after: int)
    requires k in items && after == before + 1
    requires CountsFor(rec, "INSERT", items, k)
    ensures ProcessRecord(WithCount(items, k, before), rec, NoFaults) == Step(WithCount(items, k, after), true)
  {
    var mid := WithCount(items, k, before);
    CountsForAfter(items, rec, "INSERT", k, before);
    InsertStep(mid, rec, k, before);
    assert mid[k][Counter := Num(after)] == items[k][Counter := Num(after)];
  }

  /** A REMOVE on the table whose counter at k was already moved to `before` >= 0. */
  lemma {:induction false} RemoveAfter(items: map<Key, Item>, rec: StreamRecord, k: Key, before: int, after: int)
    requires k in items && before >= 0 && after == (if before > 0 then before - 1 else 0)
    requires CountsFor(rec, "REMOVE", items, k)
    ensures ProcessRecord(WithCount(items, k, before), rec, NoFaults) == Step(WithCount(items, k, after), true)
  {
    var mid := WithCount(items, k, before);
    CountsForAfter(items, rec, "REMOVE", k, before);
    RemoveStep(mid, rec, k, before);
    assert mid[k][Counter := Num(after)] == items[k][Counter := Num(after)];
  }

  /** A later counter write replaces an earlier one. */
  lemma {:induction false} WithCountTwice(items: map<Key, Item>, k: Key, a: int, b: int)
    requires k in items
    ensures WithCount(WithCount(items, k, a), k, b) == WithCount(items, k, b)
  {
    assert items[k][Counter := Num(a)][Counter := Num(b)] == items[k][Counter := Num(b)];
  }

  /** Setting the counter to the value it already holds changes nothing. */
  lemma {:induction false} UnchangedCount(items: map<Key, Item>, k: Key, c: int)
    requires k in items && Counter in items[k] && items[k][Counter] == Num(c)
    ensures WithCount(items, k, c) == items
  {
    assert items[k][Counter := Num(c)] == items[k];
  }

  /** `slug` is non-empty and resolves, with no probe refused, to event `k`. */
  ghost predicate Resolves(items: map<Key, Item>, slug: string, k: Key) {
    slug != "" && FindEvent(items, slug, NoFaults) == Some(k)
  }

  /** An attendee record named `name` of the event with slug `slug`. */
  predicate ForEvent(rec: StreamRecord, name: string, slug: string) {
    IsAttendeeRecord(rec) && rec.eventName == name && ExtractEventSlug(rec) == Some(slug)
  }

  /**
   * Every record of the batch is an attendee record named `name` of the
   * event with slug `slug`, delivered without faults; the records may be
   * different attendees of that event or redeliveries of one. Stated
   * record by record from the end, as the batch runs; `AllForMeans` gives
   * the quantified reading.
   */
  predicate AllFor(recs: seq<StreamRecord>, faults: seq<Faults>, name: string, slug: string)
    decreases |recs|
  {
    && |faults| == |recs|
    && (|recs| > 0 ==>
          && AllFor(recs[..|recs| - 1], faults[..|recs| - 1], name, slug)
          && ForEvent(recs[|recs| - 1], name, slug) && faults[|recs| - 1] == NoFaults)
  }

  /** `AllFor` holds exactly when every record is for the event and every delivery is fault-free. */
  lemma {:induction false} AllForMeans(recs: seq<StreamRecord>, faults: seq<Faults>, name: string, slug: string)
    ensures AllFor(recs, faults, name, slug)
            <==> |faults| == |recs| && forall i :: 0 <= i < |recs| ==> ForEvent(recs[i], name, slug) && faults[i] == NoFaults
    decreases |recs|
  {
    if |recs| > 0 && |faults| == |recs| {
      var n := |recs|;
      AllForMeans(recs[..n - 1], faults[..n - 1], name, slug);
      assert forall i :: 0 <= i < n - 1 ==> recs[..n - 1][i] == recs[i] && faults[..n - 1][i] == faults[i];
    }
  }

  /** The last record of such a batch counts for k, and the rest of the batch is again such a batch. */
  lemma {:induction false} AllForLast(recs: seq<StreamRecord>, faults: seq<Faults>, name: string, slug: string, items: map<Key, Item>, k: Key)
    requires AllFor(recs, faults, name, slug) && recs != [] && Resolves(items, slug, k)
    ensures CountsFor(recs[|recs| - 1], name, items, k) && faults[|recs| - 1] == NoFaults
    ensures AllFor(recs[..|recs| - 1], faults[..|recs| - 1], name, slug)
  {
  }

  /** The first record of such a batch is for the event, and the rest of the batch is again such a batch. */
  lemma {:induction false} AllForFirst(recs: seq<StreamRecord>, faults: seq<Faults>, name: string, slug: string)
    requires AllFor(recs, faults, name, slug) && recs != []
    ensures ForEvent(recs[0], name, slug) && faults[0] == NoFaults
    ensures AllFor(recs[1..], faults[1..], name, slug)
  {
    AllForMeans(recs, faults, name, slug);
    AllForMeans(recs[1..], faults[1..], name, slug);
    assert forall i :: 0 <= i < |recs| - 1 ==> recs[1..][i] == recs[i + 1] && faults[1..][i] == faults[i + 1];
  }

  /** The batch, run from `items`, ends in `last`. */
  ghost predicate Ends(items: map<Key, Item>, recs: seq<StreamRecord>, faults: seq<Faults>, last: Step) {
    |faults| == |recs| && ProcessBatch(items, recs, faults) == last
  }

  /** A batch of one clean record `rec` that takes the table to `next` ends with that step. */
  lemma {:induction false} SingleRecord(items: map<Key, Item>, recs: seq<StreamRecord>, faults: seq<Faults>, rec: StreamRecord, next: Step)
    requires |recs| == |faults| == 1 && recs[0] == rec && faults[0] == NoFaults
    requires ProcessRecord(items, rec, NoFaults) == next
    ensures Ends(items, recs, faults, next)
  {
    assert recs[..0] == [] && faults[..0] == [];
  }

  /** A batch whose first part leaves the table `mid` ends where its second part, run from `mid`, ends. */
  lemma {:induction false} ThenBatch(items: map<Key, Item>, a: seq<StreamRecord>, fa: seq<Faults>, b: seq<StreamRecord>, fb: seq<Faults>,
                  mid: map<Key, Item>, last: Step)
    requires Ends(items, a, fa, Step(mid, true)) && Ends(mid, b, fb, last)
    ensures Ends(items, a + b, fa + fb, last)
  {
    BatchAppend(items, a, fa, b, fb);
  }

  /** The batch is its first record, which leaves `mid`, then the rest run from `mid`. */
  lemma {:induction false} FirstThenRest(items: map<Key, Item>, recs: seq<StreamRecord>, faults: seq<Faults>, mid: map<Key, Item>, last: Step)
    requires |faults| == |recs| > 0
    requires Ends(items, recs[..1], faults[..1], Step(mid, true)) && Ends(mid, recs[1..], faults[1..], last)
    ensures Ends(items, recs, faults, last)
  {
    ThenBatch(items, recs[..1], faults[..1], recs[1..], faults[1..], mid, last);
    assert recs[..1] + recs[1..] == recs && faults[..1] + faults[1..] == faults;
  }

  /** A batch opening with a clean INSERT for k on counter c ends where the rest ends, run from counter c + 1. */
  lemma {:induction false} FirstInsert(items: map<Key, Item>, k: Key, slug: string, c: int, recs: seq<StreamRecord>, faults: seq<Faults>,
                    last: Step)
    requires k in items && Countable(items[k]) && CountOf(items[k]) == c
    requires Resolves(items, slug, k) && AllFor(recs, faults, "INSERT", slug) && recs != []
    requires Ends(WithCount(items, k, c + 1), recs[1..], faults[1..], last)
    ensures Ends(items, recs, faults, last)
  {
    AllForFirst(recs, faults, "INSERT", slug);
    InsertStep(items, recs[0], k, c);
    SingleRecord(items, recs[..1], faults[..1], recs[0], Step(WithCount(items, k, c + 1), true));
    FirstThenRest(items, recs, faults, WithCount(items, k, c + 1), last);
  }

  /** A batch opening with a clean REMOVE for k on counter c >= 0 ends where the rest ends, run from max(c - 1, 0). */
  lemma {:induction false} FirstRemove(items: map<Key, Item>, k: Key, slug: string, c: int, recs: seq<StreamRecord>, faults: seq<Faults>,
                    last: Step)
    requires k in items && Countable(items[k]) && CountOf(items[k]) == c && c >= 0
    requires Resolves(items, slug, k) && AllFor(recs, faults, "REMOVE", slug) && recs != []
    requires Ends(WithCount(items, k, if c > 0 then c - 1 else 0), recs[1..], faults[1..], last)
    ensures Ends(items, recs, faults, last)
  {
    AllForFirst(recs, faults, "REMOVE", slug);
    RemoveStep(items, recs[0], k, c);
    SingleRecord(items, recs[..1], faults[..1], recs[0], Step(WithCount(items, k, if c > 0 then c - 1 else 0), true));
    FirstThenRest(items, recs, faults, WithCount(items, k, if c > 0 then c - 1 else 0), last);
  }

  /** n fault-free INSERTs for event k raise its numeric counter c to `total` = c + n. */
  lemma {:induction false} NumericInserts(items: map<Key, Item>, k: Key, slug: string, c: int,
                                          recs: seq<StreamRecord>, faults: seq<Faults>, total: int)
    requires k in items && Counter in items[k] && items[k][Counter] == Num(c)
    requires Resolves(items, slug, k) && AllFor(recs, faults, "INSERT", slug) && total == c + |recs|
    ensures Ends(items, recs, faults, Step(WithCount(items, k, total), true))
    decreases |recs|, 1
  {
    if recs == [] {
      UnchangedCount(items, k, total);
    } else {
      LastInsert(items, k, slug, c, recs, faults, total);
    }
  }

  /** The inductive step of `NumericInserts`: the batch without its last INSERT, then that INSERT. */
  lemma {:induction false} LastInsert(items: map<Key, Item>, k: Key, slug: string, c: int,
                                      recs: seq<StreamRecord>, faults: seq<Faults>, total: int)
    requires k in items && Counter in items[k] && items[k][Counter] == Num(c)
    requires Resolves(items, slug, k) && AllFor(recs, faults, "INSERT", slug) && recs != [] && total == c + |recs|
    ensures Ends(items, recs, faults, Step(WithCount(items, k, total), true))
    decreases |recs|, 0
  {
    var n := |recs|;
    AllForLast(recs, faults, "INSERT", slug, items, k);
    NumericInserts(items, k, slug, c, recs[..n - 1], faults[..n - 1], total - 1);
    InsertOntoCount(items, k, total - 1, total, recs, faults, recs[n - 1]);
  }

  /** A clean batch whose records before its last INSERT `rec` moved counter k to `before` ends at `after` = before + 1. */
  lemma {:induction false} InsertOntoCount(items: map<Key, Item>, k: Key, before: int, after: int, recs: seq<StreamRecord>, faults: seq<Faults>,
                        rec: StreamRecord)
    requires k in items && CountsFor(rec, "INSERT", items, k) && after == before + 1
    requires |faults| == |recs| && |recs| > 0 && recs[|recs| - 1] == rec && faults[|recs| - 1] == NoFaults
    requires Ends(items, recs[..|recs| - 1], faults[..|recs| - 1], Step(WithCount(items, k, before), true))
    ensures Ends(items, recs, faults, Step(WithCount(items, k, after), true))
  {
    InsertAfter(items, rec, k, before, after);
  }

  /** INSERTs run from the table whose counter at k was set to c end with counter `total` = c + n. */
  lemma {:induction false} InsertsFromCount(items: map<Key, Item>, k: Key, slug: string, c: int,
                         recs: seq<StreamRecord>, faults: seq<Faults>, total: int)
    requires k in items && Resolves(items, slug, k) && AllFor(recs, faults, "INSERT", slug) && total == c + |recs|
    ensures Ends(WithCount(items, k, c), recs, faults, Step(WithCount(items, k, total), true))
  {
    FindEventSeesKeysOnly(items, WithCount(items, k, c), slug, NoFaults);
    NumericInserts(WithCount(items, k, c), k, slug, c, recs, faults, total);
    WithCountTwice(items, k, c, total);
  }

  /** A non-empty batch of clean INSERTs for k on counter c, a missing counter being 0, ends with counter `total` = c + n. */
  lemma {:induction false} InsertsTo(items: map<Key, Item>, k: Key, slug: string, c: int,
                  recs: seq<StreamRecord>, faults: seq<Faults>, total: int)
    requires k in items && Countable(items[k]) && CountOf(items[k]) == c
    requires Resolves(items, slug, k) && AllFor(recs, faults, "INSERT", slug) && recs != [] && total == c + |recs|
    ensures Ends(items, recs, faults, Step(WithCount(items, k, total), true))
  {
    AllForFirst(recs, faults, "INSERT", slug);
    InsertsFromCount(items, k, slug, c + 1, recs[1..], faults[1..], total);
    FirstInsert(items, k, slug, c, recs, faults, Step(WithCount(items, k, total), true));
  }

  /**
   * n fault-free INSERTs for event k raise its counter c (a missing counter
   * being 0, as on a created event) to c + n: there is no deduplication.
   * An empty batch changes nothing.
   */
  lemma {:induction false} RepeatedInserts(items: map<Key, Item>, k: Key, slug: string, c: int,
                        recs: seq<StreamRecord>, faults: seq<Faults>)
    requires k in items && Countable(items[k]) && CountOf(items[k]) == c
    requires Resolves(items, slug, k) && AllFor(recs, faults, "INSERT", slug)
    ensures |recs| == 0 ==> ProcessBatch(items, recs, faults) == Step(items, true)
    ensures |recs| > 0 ==> ProcessBatch(items, recs, faults) == Step(WithCount(items, k, c + |recs|), true)
  {
    if |recs| > 0 {
      InsertsTo(items, k, slug, c, recs, faults, c + |recs|);
    }
  }

  /** m fault-free REMOVEs for event k take its numeric counter c >= 0 to `total` = max(c - m, 0). */
  lemma {:induction false} NumericRemoves(items: map<Key, Item>, k: Key, slug: string, c: int,
                                          recs: seq<StreamRecord>, faults: seq<Faults>, total: int)
    requires k in items && Counter in items[k] && items[k][Counter] == Num(c) && c >= 0
    requires Resolves(items, slug, k) && AllFor(recs, faults, "REMOVE", slug)
    requires total == if c >= |recs| then c - |recs| else 0
    ensures Ends(items, recs, faults, Step(WithCount(items, k, total), true))
    decreases |recs|, 1
  {
    if recs == [] {
      UnchangedCount(items, k, total);
    } else {
      LastRemove(items, k, slug, c, recs, faults, total);
    }
  }

  /** The inductive step of `NumericRemoves`: the batch without its last REMOVE, then that REMOVE. */
  lemma {:induction false} LastRemove(items: map<Key, Item>, k: Key, slug: string, c: int,
                                      recs: seq<StreamRecord>, faults: seq<Faults>, total: int)
    requires k in items && Counter in items[k] && items[k][Counter] == Num(c) && c >= 0
    requires Resolves(items, slug, k) && AllFor(recs, faults, "REMOVE", slug) && recs != []
    requires total == if c >= |recs| then c - |recs| else 0
    ensures Ends(items, recs, faults, Step(WithCount(items, k, total), true))
    decreases |recs|, 0
  {
    var m := |recs|;
    var before := if c >= m - 1 then c - (m - 1) else 0;
    AllForLast(recs, faults, "REMOVE", slug, items, k);
    NumericRemoves(items, k, slug, c, recs[..m - 1], faults[..m - 1], before);
    RemoveOntoCount(items, k, before, total, recs, faults, recs[m - 1]);
  }

  /** A clean batch whose records before its last REMOVE `rec` moved counter k to `before` >= 0 ends at max(before - 1, 0). */
  lemma {:induction false} RemoveOntoCount(items: map<Key, Item>, k: Key, before: int, after: int, recs: seq<StreamRecord>, faults: seq<Faults>,
                        rec: StreamRecord)
    requires k in items && before >= 0 && after == (if before > 0 then before - 1 else 0)
    requires CountsFor(rec, "REMOVE", items, k)
    requires |faults| == |recs| && |recs| > 0 && recs[|recs| - 1] == rec && faults[|recs| - 1] == NoFaults
    requires Ends(items, recs[..|recs| - 1], faults[..|recs| - 1], Step(WithCount(items, k, before), true))
    ensures Ends(items, recs, faults, Step(WithCount(items, k, after), true))
  {
    RemoveAfter(items, rec, k, before, after);
  }

  /** REMOVEs run from the table whose counter at k was set to c >= 0 end with counter `total` = max(c - m, 0). */
  lemma {:induction false} RemovesFromCount(items: map<Key, Item>, k: Key, slug: string, c: int,
                         recs: seq<StreamRecord>, faults: seq<Faults>, total: int)
    requires k in items && c >= 0 && Resolves(items, slug, k) && AllFor(recs, faults, "REMOVE", slug)
    requires total == if c >= |recs| then c - |recs| else 0
    ensures Ends(WithCount(items, k, c), recs, faults, Step(WithCount(items, k, total), true))
  {
    FindEventSeesKeysOnly(items, WithCount(items, k, c), slug, NoFaults);
    NumericRemoves(WithCount(items, k, c), k, slug, c, recs, faults, total);
    WithCountTwice(items, k, c, total);
  }

  /** A non-empty batch of clean REMOVEs for k on counter c >= 0, a missing counter being 0, ends with counter `total`. */
  lemma {:induction false} RemovesTo(items: map<Key, Item>, k: Key, slug: string, c: int,
                  recs: seq<StreamRecord>, faults: seq<Faults>, total: int)
    requires k in items && Countable(items[k]) && CountOf(items[k]) == c && c >= 0
    requires Resolves(items, slug, k) && AllFor(recs, faults, "REMOVE", slug) && recs != []
    requires total == if c >= |recs| then c - |recs| else 0
    ensures Ends(items, recs, faults, Step(WithCount(items, k, total), true))
  {
    AllForFirst(recs, faults, "REMOVE", slug);
    RemovesFromCount(items, k, slug, if c > 0 then c - 1 else 0, recs[1..], faults[1..], total);
    FirstRemove(items, k, slug, c, recs, faults, Step(WithCount(items, k, total), true));
  }

  /**
   * m fault-free REMOVEs for event k take its counter c >= 0 (a missing
   * counter being 0, as on a created event) to max(c - m, 0). An empty
   * batch changes nothing.
   */
  lemma {:induction false} RepeatedRemoves(items: map<Key, Item>, k: Key, slug: string, c: int,
                        recs: seq<StreamRecord>, faults: seq<Faults>)
    requires k in items && Countable(items[k]) && CountOf(items[k]) == c && c >= 0
    requires Resolves(items, slug, k) && AllFor(recs, faults, "REMOVE", slug)
    ensures |recs| == 0 ==> ProcessBatch(items, recs, faults) == Step(items, true)
    ensures |recs| > 0 ==> ProcessBatch(items, recs, faults)
                           == Step(WithCount(items, k, if c >= |recs| then c - |recs| else 0), true)
  {
    if |recs| > 0 {
      RemovesTo(items, k, slug, c, recs, faults, if c >= |recs| then c - |recs| else 0);
    }
  }

  /** The same INSERT delivered twice adds 2. */
  lemma {:induction false} InsertTwiceAddsTwo(items: map<Key, Item>, rec: StreamRecord, k: Key, c: int)
    requires k in items && Countable(items[k]) && CountOf(items[k]) == c
    requires CountsFor(rec, "INSERT", items, k)
    ensures ProcessBatch(items, [rec, rec], [NoFaults, NoFaults]) == Step(WithCount(items, k, c + 2), true)
  {
    var slug := ExtractEventSlug(rec).value;
    assert [rec, rec][..1] == [rec] && [NoFaults, NoFaults][..1] == [NoFaults];
    assert [rec][..0] == [] && [NoFaults][..0] == [];
    InsertsTo(items, k, slug, c, [rec, rec], [NoFaults, NoFaults], c + 2);
  }

  /**
   * From a counter c >= 0, or no counter at all (as a created event has),
   * n INSERTs followed by m > 0 REMOVEs for event k, with m >= c + n, leave
   * the counter at 0, never below.
   */
  lemma {:induction false} InsertsThenRemoves(items: map<Key, Item>, k: Key, slug: string, c: int,
                                              inserts: seq<StreamRecord>, fi: seq<Faults>,
                                              removes: seq<StreamRecord>, fr: seq<Faults>)
    requires k in items && Countable(items[k]) && CountOf(items[k]) == c && c >= 0 && Resolves(items, slug, k)
    requires AllFor(inserts, fi, "INSERT", slug) && AllFor(removes, fr, "REMOVE", slug)
    requires |removes| > 0 && |removes| >= c + |inserts|
    ensures ProcessBatch(items, inserts + removes, fi + fr) == Step(WithCount(items, k, 0), true)
  {
    if |inserts| > 0 {
      SomeInsertsThenRemoves(items, k, slug, c, inserts, fi, removes, fr);
    } else {
      assert inserts + removes == removes && fi + fr == fr;
      RemovesTo(items, k, slug, c, removes, fr, 0);
    }
  }

  /** `InsertsThenRemoves` when there is at least one INSERT. */
  lemma {:induction false} SomeInsertsThenRemoves(items: map<Key, Item>, k: Key, slug: string, c: int,
                                                  inserts: seq<StreamRecord>, fi: seq<Faults>,
                                                  removes: seq<StreamRecord>, fr: seq<Faults>)
    requires k in items && Countable(items[k]) && CountOf(items[k]) == c && c >= 0 && Resolves(items, slug, k)
    requires AllFor(inserts, fi, "INSERT", slug) && AllFor(removes, fr, "REMOVE", slug)
    requires |inserts| > 0 && |removes| >= c + |inserts|
    ensures Ends(items, inserts + removes, fi + fr, Step(WithCount(items, k, 0), true))
  {
    InsertsTo(items, k, slug, c, inserts, fi, c + |inserts|);
    RemovesAfter(items, k, slug, c + |inserts|, inserts, fi, removes, fr);
  }

  /** A batch that ends with count n, followed by at least n REMOVEs for event k, ends with count 0. */
  lemma {:induction false} RemovesAfter(items: map<Key, Item>, k: Key, slug: string, n: int,
                                        before: seq<StreamRecord>, fb: seq<Faults>,
                                        removes: seq<StreamRecord>, fr: seq<Faults>)
    requires k in items && n >= 0 && Resolves(items, slug, k)
    requires Ends(items, before, fb, Step(WithCount(items, k, n), true))
    requires AllFor(removes, fr, "REMOVE", slug) && |removes| >= n
    ensures Ends(items, before + removes, fb + fr, Step(WithCount(items, k, 0), true))
  {
    RemovesFromCount(items, k, slug, n, removes, fr, 0);
    ThenBatch(items, before, fb, removes, fr, WithCount(items, k, n), Step(WithCount(items, k, 0), true));
  }

}

=== FILE: event_handlers.dfy ===
/**
 * The event handlers: create, update and delete an event record under the
 * "FAD" or "EVENT" partition, and the two read-only listings.
 *
 * Each handler is a method on the table; its contract gives the response
 * for every branch in the order the handler tests them, and the table
 * afterwards.
 */
module EventHandlers {
  import opened Wrappers
  import opened Json
  import opened Strings
  import opened Store
  import opened Http
  import opened Validation
  import opened UpdateExpression

  const InvalidEventType := "Invalid eventType parameter. Must be 'fad' or 'event'"
  const MissingEventType := "Missing eventType path parameter"

  // ----- createEvent -----

  /** `${input.slug}#${input.creationDate}`. */
  function CreatedSortKey(fields: map<string, Value>): (sk: string)
    ensures TemplateText(Field(fields, "slug")) < sk
    ensures sk[|TemplateText(Field(fields, "slug"))|] == '#'
  {
    TemplateText(Field(fields, "slug")) + "#" + TemplateText(Field(fields, "creationDate"))
  }

  /** `{ ...input, pk, sk, eventType: pk }`: the body's fields, with the three key fields set over any the body carried. */
  function EventItem(fields: map<string, Value>, partition: string): (item: Item)
    ensures item.Keys == fields.Keys + {"pk", "sk", "eventType"}
    ensures item["pk"] == Str(partition) && item["eventType"] == Str(partition)
    ensures item["sk"] == Str(CreatedSortKey(fields))
    ensures forall a :: a in fields && a != "pk" && a != "sk" && a != "eventType" ==> item[a] == fields[a]
    ensures KeyOf(item) == Some((partition, CreatedSortKey(fields)))
    ensures SafeItem(item) <==> forall a :: a in fields && a !in {"pk", "sk", "eventType"} ==> SafeNumbers(fields[a])
  {
    fields["pk" := Str(partition)]["sk" := Str(CreatedSortKey(fields))]["eventType" := Str(partition)]
  }

  /**
   * createEvent: the body is parsed before the path is read; the put is
   * unconditional, so an existing record under the same key is replaced;
   * a refused put answers 400, not 500: with `{}` as the message when the
   * document client could not marshal a number beyond the safe integers,
   * with the serialised exception when the service refused the item (a
   * body with the key `""`) or failed.
   */
  method CreateEvent(table: Table, req: Request, fault: bool) returns (resp: Response)
    requires table.Valid()
    modifies table
    ensures table.Valid()
    ensures resp.status != 200 ==> table.items == old(table.items)
    ensures req.body.Malformed? ==> resp == ErrorResponse(400, "Invalid JSON")
    ensures req.body.Parsed? && Param(req.path, "eventType").None? ==> resp == ErrorResponse(400, MissingEventType)
    ensures (req.body.Parsed? && Param(req.path, "eventType").Some?
             && EventPartition(Param(req.path, "eventType").value).None?) ==> resp == ErrorResponse(400, InvalidEventType)
    ensures req.body.Parsed? && Param(req.path, "eventType").Some?
            && EventPartition(Param(req.path, "eventType").value).Some? ==>
      var fields := ObjectOf(req.body.members);
      var p := EventPartition(Param(req.path, "eventType").value).value;
      var item := EventItem(fields, p);
      && (!SafeItem(item) ==> resp == CaughtResponse(400))
      && (SafeItem(item) && (fault || "" in fields) ==> resp == ThrownResponse(400))
      && (!fault && "" !in fields && SafeItem(item) ==>
            && resp == Response(200, Obj(item))
            && table.items == old(table.items)[(p, CreatedSortKey(fields)) := item])
  {
    if req.body.Malformed? {
      return ErrorResponse(400, "Invalid JSON");
    }
    var input := ObjectOf(req.body.members);
    var eventType := Param(req.path, "eventType");
    if eventType.None? {
      return ErrorResponse(400, MissingEventType);
    }
    var partition := EventPartition(eventType.value);
    if partition.None? {
      return ErrorResponse(400, InvalidEventType);
    }
    var item := EventItem(input, partition.value);
    var outcome := table.Put(item, Unconditional, fault);
    if outcome == Refused(Unencodable) {
      return CaughtResponse(400);
    } else if outcome != Done {
      return ThrownResponse(400);
    }
    resp := Response(200, Obj(item));
  }

  // ----- updateEvent -----

  /** The body fields the update may write: `delete` of `pk`, `sk` and `eventType`, the rest in their order. */
  function Editable(members: Members): (r: Members)
    ensures forall p :: p in r <==> p in members && p.0 != "pk" && p.0 != "sk" && p.0 != "eventType"
    ensures forall i :: 0 <= i < |r| ==> r[i].0 != "pk" && r[i].0 != "sk" && r[i].0 != "eventType"
    ensures InOrder(r, members)
  {
    var once := Without(members, "pk");
    var twice := Without(once, "sk");
    InOrderTrans(twice, once, members);
    InOrderTrans(Without(twice, "eventType"), twice, members);
    Without(twice, "eventType")
  }

  /** The attributes of the updated record the response shows. */
  const ShownEventAttributes := {"title", "description", "date", "location", "maxAttendees", "price", "status",
                                 "updatedDate", "updatedBy"}

  function UpdatedEventBody(partition: string, slug: string, record: Item): Value {
    var shown := Pick(record, ShownEventAttributes)["eventType" := Str(partition)]["eventSlug" := Str(slug)];
    Obj(map["status" := Str("OK"), "message" := Str("Event updated successfully"), "updatedEvent" := Obj(shown)])
  }

  /** Both path parameters are present, the body parsed, something is left to write and the type names a partition. */
  predicate UpdateEventAccepted(req: Request) {
    && Param(req.path, "eventType").Some? && Param(req.path, "eventSlug").Some?
    && req.body.Parsed? && |Editable(req.body.members)| > 0
    && EventPartition(Param(req.path, "eventType").value).Some?
  }

  /**
   * updateEvent: four 400s in order before any store access, then a prefix
   * query for the event (404 when nothing matches), then one SET update of
   * the first match, by ascending sort key, under its actual key.
   */
  method UpdateEvent(table: Table, req: Request, now: string, queryFault: bool, updateFault: bool)
    returns (resp: Response)
    requires table.Valid()
    modifies table
    ensures table.Valid()
    ensures resp.status != 200 ==> table.items == old(table.items)
    ensures Param(req.path, "eventType").None? ==> resp == ErrorResponse(400, MissingEventType)
    ensures Param(req.path, "eventType").Some? && Param(req.path, "eventSlug").None? ==>
      resp == ErrorResponse(400, MissingEventSlug)
    ensures Param(req.path, "eventType").Some? && Param(req.path, "eventSlug").Some? && req.body.Malformed? ==>
      resp == ErrorResponse(400, "Invalid JSON format")
    ensures (Param(req.path, "eventType").Some? && Param(req.path, "eventSlug").Some? && req.body.Parsed?
             && |Editable(req.body.members)| == 0) ==> resp == ErrorResponse(400, "No valid fields to update")
    ensures Param(req.path, "eventType").Some? && Param(req.path, "eventSlug").Some? && req.body.Parsed?
            && |Editable(req.body.members)| > 0 && EventPartition(Param(req.path, "eventType").value).None? ==>
      resp == ErrorResponse(400, InvalidEventType)
    ensures UpdateEventAccepted(req) ==>
      var p := EventPartition(Param(req.path, "eventType").value).value;
      var slug := Param(req.path, "eventSlug").value;
      var fields := Editable(req.body.members);
      var stamp := Str(Caller(req.claims.username));
      var matching := Matching(old(table.items), p, slug);
      && (queryFault ==> resp == ErrorResponse(500, ServiceErrorText))
      && (!queryFault && matching == {} ==> resp == ErrorResponse(404, "Event not found"))
      && (!queryFault && matching != {} ==>
            var k := (p, Least(matching));
            && k in old(table.items)
            && (updateFault || NamesStamp(fields) || NamesEmpty(fields) || !SafeMembers(fields) ==>
                  resp == ErrorResponse(500, ServiceErrorText))
            && (!updateFault && !NamesStamp(fields) && !NamesEmpty(fields) && SafeMembers(fields) ==>
                  && k in table.items
                  && table.items == old(table.items)[k := table.items[k]]
                  && Stamped(old(table.items)[k], table.items[k], fields, Str(now), stamp)
                  && resp == Response(200, UpdatedEventBody(p, slug, table.items[k]))))
  {
    var eventType := Param(req.path, "eventType");
    var eventSlug := Param(req.path, "eventSlug");
    if eventType.None? {
      return ErrorResponse(400, MissingEventType);
    }
    if eventSlug.None? {
      return ErrorResponse(400, MissingEventSlug);
    }
    if req.body.Malformed? {
      return ErrorResponse(400, "Invalid JSON format");
    }
    // Remove any attempt to write the protected fields.
    var updateData := req.body.members;
    updateData := Without(updateData, "pk");
    updateData := Without(updateData, "sk");
    updateData := Without(updateData, "eventType");
    assert updateData == Editable(req.body.members);
    if |updateData| == 0 {
      return ErrorResponse(400, "No valid fields to update");
    }
    var partition := EventPartition(eventType.value);
    if partition.None? {
      return ErrorResponse(400, InvalidEventType);
    }
    var p, slug := partition.value, eventSlug.value;
    var existing := table.Query(p, slug, queryFault);
    if existing.ReadFailed? {
      return ErrorResponse(500, ServiceErrorText);
    }
    QueryFirst(table.items, p, slug);
    if |existing.value| == 0 {
      return ErrorResponse(404, "Event not found");
    }
    ghost var matching := Matching(table.items, p, slug);
    assert Least(matching) in matching;
    var key := (p, SkOf(existing.value[0]));
    var stamp := Str(Caller(req.claims.username));
    var outcome := UpdateStamped(table, key, updateData, Str(now), stamp, updateFault);
    if outcome != Done {
      return ErrorResponse(500, ServiceErrorText);
    }
    resp := Response(200, UpdatedEventBody(p, slug, table.items[key]));
  }

  // ----- deleteEvents -----

  /**
   * deleteEvents: removes exactly the key (upper(eventType), eventSlug),
   * whether or not it was there; nothing else is touched, attendee and
   * participant records included.
   */
  method DeleteEvents(table: Table, req: Request, fault: bool) returns (resp: Response)
    requires table.Valid()
    modifies table
    ensures table.Valid()
    ensures resp.status != 200 ==> table.items == old(table.items)
    ensures Param(req.path, "eventType").None? ==> resp == ErrorResponse(400, MissingEventType)
    ensures Param(req.path, "eventType").Some? && Param(req.path, "eventSlug").None? ==>
      resp == ErrorResponse(400, MissingEventSlug)
    ensures (Param(req.path, "eventType").Some? && Param(req.path, "eventSlug").Some?
             && EventPartition(Param(req.path, "eventType").value).None?) ==> resp == ErrorResponse(400, InvalidEventType)
    ensures Param(req.path, "eventType").Some? && Param(req.path, "eventSlug").Some?
            && EventPartition(Param(req.path, "eventType").value).Some? ==>
      var k := (EventPartition(Param(req.path, "eventType").value).value, Param(req.path, "eventSlug").value);
      && (fault ==> resp == ThrownResponse(400))
      && (!fault ==> resp == Response(200, Obj(map["status" := Str("OK")])) && table.items == old(table.items) - {k})
  {
    var eventType := Param(req.path, "eventType");
    var eventSlug := Param(req.path, "eventSlug");
    if eventType.None? {
      return ErrorResponse(400, MissingEventType);
    }
    if eventSlug.None? {
      return ErrorResponse(400, MissingEventSlug);
    }
    var partition := EventPartition(eventType.value);
    if partition.None? {
      return ErrorResponse(400, InvalidEventType);
    }
    var outcome := table.Delete((partition.value, eventSlug.value), fault);
    if outcome != Done {
      return ThrownResponse(400);
    }
    resp := Response(200, Obj(map["status" := Str("OK")]));
  }

  /**
   * A delete by the bare slug never removes the record createEvent stored
   * for that slug, whose sort key is `slug#creationDate`.
   */
  lemma DeleteBySlugKeepsCreated(items: map<Key, Item>, partition: string, fields: map<string, Value>, fault: bool)
    requires (partition, CreatedSortKey(fields)) in items
    ensures var slug := TemplateText(Field(fields, "slug"));
      (partition, CreatedSortKey(fields)) in DeleteEffect(items, (partition, slug), fault).0
  {
    var slug := TemplateText(Field(fields, "slug"));
    assert CreatedSortKey(fields) != slug by {
      assert |slug| < |CreatedSortKey(fields)|;
    }
  }

  // ----- The optimized listings -----

  /** getEventListOptimized: every record under the partition the `type` query parameter names, read-only. */
  method GetEventList(table: Table, req: Request, fault: bool) returns (resp: Response)
    requires table.Valid()
    ensures Param(req.query, "type").None? ==>
      resp == ErrorField(400, "Missing required query parameter: type (should be 'fad' or 'event')")
    ensures Param(req.query, "type").Some? && EventPartition(Param(req.query, "type").value).None? ==>
      resp == ErrorField(400, "Invalid type parameter. Must be 'fad' or 'event'")
    ensures Param(req.query, "type").Some? && EventPartition(Param(req.query, "type").value).Some? ==>
      var p := EventPartition(Param(req.query, "type").value).value;
      resp == if fault then ErrorField(500, ServiceErrorText) else Response(200, Records(QueryResult(table.items, p, "")))
  {
    var eventType := Param(req.query, "type");
    if eventType.None? {
      return ErrorField(400, "Missing required query parameter: type (should be 'fad' or 'event')");
    }
    var partition := EventPartition(eventType.value);
    if partition.None? {
      return ErrorField(400, "Invalid type parameter. Must be 'fad' or 'event'");
    }
    var result := table.Query(partition.value, "", fault);
    if result.ReadFailed? {
      return ErrorField(500, ServiceErrorText);
    }
    resp := Response(200, Records(result.value));
  }

  /** An empty prefix matches every sort key: the listing is the whole partition. */
  lemma ListingIsWholePartition(items: map<Key, Item>, partition: string)
    ensures Matching(items, partition, "") == set k | k in items && k.0 == partition :: k.1
  {
  }

  /** getEventDetailsOptimized: the records under the partition whose sort key begins with the slug, read-only. */
  method GetEventDetails(table: Table, req: Request, fault: bool) returns (resp: Response)
    requires table.Valid()
    ensures Param(req.path, "eventType").None? || Param(req.path, "eventSlug").None? ==>
      resp == ErrorField(400, "Missing eventType or eventSlug path parameters")
    ensures Param(req.path, "eventType").Some? && Param(req.path, "eventSlug").Some?
            && EventPartition(Param(req.path, "eventType").value).None? ==>
      resp == ErrorField(400, "Invalid eventType parameter. Must be 'fad' or 'event'")
    ensures Param(req.path, "eventType").Some? && Param(req.path, "eventSlug").Some?
            && EventPartition(Param(req.path, "eventType").value).Some? ==>
      var p := EventPartition(Param(req.path, "eventType").value).value;
      var slug := Param(req.path, "eventSlug").value;
      resp == if fault then ErrorField(500, ServiceErrorText) else Response(200, Records(QueryResult(table.items, p, slug)))
  {
    var eventType := Param(req.path, "eventType");
    var eventSlug := Param(req.path, "eventSlug");
    if eventType.None? || eventSlug.None? {
      return ErrorField(400, "Missing eventType or eventSlug path parameters");
    }
    var partition := EventPartition(eventType.value);
    if partition.None? {
      return ErrorField(400, "Invalid eventType parameter. Must be 'fad' or 'event'");
    }
    var result := table.Query(partition.value, eventSlug.value, fault);
    if result.ReadFailed? {
      return ErrorField(500, ServiceErrorText);
    }
    resp := Response(200, Records(result.value));
  }

  /**
   * The details query is a prefix match: an event whose slug merely begins
   * with the requested one is returned as well.
   */
  lemma DetailsIncludeLongerSlugs(items: map<Key, Item>, partition: string, slug: string, suffix: string)
    requires WellKeyed(items)
    requires (partition, slug + suffix) in items
    ensures exists i :: 0 <= i < |QueryResult(items, partition, slug)|
                        && QueryResult(items, partition, slug)[i] == items[(partition, slug + suffix)]
  {
    QueryResultSpec(items, partition, slug);
    assert slug <= slug + suffix;
  }
}

=== FILE: files.dfy ===
/**
 * putS3Object: a multipart upload whose single file is written to the bucket
 * under a key derived from the client's file name, with the two string
 * helpers that derive it.
 */
module FileUpload {
  import opened Wrappers
  import opened Json
  import opened Strings
  import opened Store
  import opened Http

  // ----- getExtensionFromName -----

  /** The text after the last `c`, or all of `s` when it holds no `c`: the last piece of `s.split(c)`. */
  function AfterLast(s: string, c: char): (r: string)
    ensures |r| <= |s| && r == s[|s| - |r|..]
    ensures c !in r
    ensures r == s <==> c !in s
    ensures r != s ==> s[|s| - |r| - 1] == c
  {
    if s == [] then []
    else if s[|s| - 1] == c then []
    else
      var rest := AfterLast(s[..|s| - 1], c);
      assert s[..|s| - 1] == s[..|s| - 1][..|s| - 1];
      rest + [s[|s| - 1]]
  }

  /**
   * getExtensionFromName: `split(".")` gives more than one piece exactly when
   * the name holds a `.`; the last piece is the extension, and an empty one
   * (`pop() || null`) gives none.
   */
  function ExtensionFromName(name: string): (r: Option<string>)
    ensures r.Some? <==> '.' in name && AfterLast(name, '.') != ""
    ensures r.Some? ==> r.value == AfterLast(name, '.')
  {
    if '.' in name && AfterLast(name, '.') != "" then Some(AfterLast(name, '.')) else None
  }

  /** The extension of `base.ext` is `ext`, whatever `base` is, when `ext` is a non-empty text without dots. */
  lemma {:induction false} ExtensionOfJoined(base: string, ext: string)
    requires ext != "" && '.' !in ext
    ensures ExtensionFromName(base + "." + ext) == Some(ext)
  {
    var name := base + "." + ext;
    assert name[|base|] == '.';
    AfterLastSuffix(base + ".", ext, '.');
  }

  /** Appending a text without `c` after a `c` makes that text the part after the last `c`. */
  lemma {:induction false} AfterLastSuffix(a: string, b: string, c: char)
    requires a != [] && a[|a| - 1] == c && c !in b
    ensures AfterLast(a + b, c) == b
    decreases |b|
  {
    if b == [] {
      assert a + b == a;
    } else {
      var s := a + b;
      assert s[..|s| - 1] == a + b[..|b| - 1];
      AfterLastSuffix(a, b[..|b| - 1], c);
      assert b == b[..|b| - 1] + [b[|b| - 1]];
    }
  }

  // ----- sanitizeFileName -----

  /** The characters `.` in a regular expression does not match. */
  predicate IsLineTerminator(c: char) {
    c == '\n' || c == '\r' || c == '\U{2028}' || c == '\U{2029}'
  }

  predicate IsSlash(c: char) {
    c == '/' || c == '\\'
  }

  /** The length of the first line: the prefix `^.*` can match. */
  function LineEnd(s: string): (n: nat)
    ensures n <= |s|
    ensures forall j :: 0 <= j < n ==> !IsLineTerminator(s[j])
    ensures n < |s| ==> IsLineTerminator(s[n])
  {
    if s == [] || IsLineTerminator(s[0]) then 0 else 1 + LineEnd(s[1..])
  }

  /** The position of the last slash before `n`, if there is one. */
  function LastSlashBefore(s: string, n: nat): (r: Option<nat>)
    requires n <= |s|
    ensures r.Some? ==> r.value < n && IsSlash(s[r.value]) && forall j :: r.value < j < n ==> !IsSlash(s[j])
    ensures r.None? ==> forall j :: 0 <= j < n ==> !IsSlash(s[j])
  {
    if n == 0 then None
    else if IsSlash(s[n - 1]) then Some(n - 1)
    else LastSlashBefore(s, n - 1)
  }

  /**
   * `replace(/^.*[\\/]/, "")`: the greedy match runs to the last slash of the
   * first line; with no slash there, nothing is removed.
   */
  function StripPath(s: string): (r: string)
    ensures |r| <= |s| && r == s[|s| - |r|..]
    ensures r == s <==> forall j :: 0 <= j < LineEnd(s) ==> !IsSlash(s[j])
    ensures r != s ==> IsSlash(s[|s| - |r| - 1]) && forall j :: 0 <= j < |s| - |r| ==> !IsLineTerminator(s[j])
  {
    match LastSlashBefore(s, LineEnd(s))
    case None => s
    case Some(i) => s[i + 1..]
  }

  /** A prefix free of line terminators lies inside the first line. */
  lemma {:induction false} LineEndAtLeast(s: string, n: nat)
    requires n <= |s| && forall j :: 0 <= j < n ==> !IsLineTerminator(s[j])
    ensures LineEnd(s) >= n
  {
    if n > 0 {
      assert !IsLineTerminator(s[0]);
      assert forall j :: 0 <= j < n - 1 ==> s[1..][j] == s[j + 1];
      LineEndAtLeast(s[1..], n - 1);
    }
  }

  /** Dropping part of the first line shortens the first line by as much. */
  lemma LineEndSuffix(s: string, k: nat)
    requires k <= LineEnd(s)
    ensures LineEnd(s[k..]) == LineEnd(s) - k
  {
    var t := s[k..];
    assert forall j :: 0 <= j < |t| ==> t[j] == s[k + j];
    LineEndAtLeast(t, LineEnd(s) - k);
    if LineEnd(s) < |s| {
      assert t[LineEnd(s) - k] == s[LineEnd(s)];
    }
  }

  /** The last slash before `n` is at `i` when `i` holds one and nothing between does. */
  lemma {:induction false} LastSlashAt(s: string, n: nat, i: nat)
    requires i < n <= |s| && IsSlash(s[i])
    requires forall j :: i < j < n ==> !IsSlash(s[j])
    ensures LastSlashBefore(s, n) == Some(i)
    decreases n
  {
    if n - 1 != i {
      LastSlashAt(s, n - 1, i);
    }
  }

  /** What is left has no slash on its first line: the match was the longest one. */
  lemma StripPathGreedy(s: string)
    ensures var r := StripPath(s); forall j :: 0 <= j < LineEnd(r) ==> !IsSlash(r[j])
  {
    match LastSlashBefore(s, LineEnd(s))
    case None =>
    case Some(i) =>
      var r := s[i + 1..];
      LineEndSuffix(s, i + 1);
      assert forall j :: 0 <= j < LineEnd(r) ==> r[j] == s[i + 1 + j];
  }

  /** `\w`, `.` and `-`: the characters `[^\w.-]` leaves alone. */
  predicate IsKept(c: char) {
    'a' <= c <= 'z' || 'A' <= c <= 'Z' || '0' <= c <= '9' || c == '_' || c == '.' || c == '-'
  }

  /** The characters a sanitised name is made of: `[a-z0-9_.-]`. */
  predicate IsSafe(c: char) {
    'a' <= c <= 'z' || '0' <= c <= '9' || c == '_' || c == '.' || c == '-'
  }

  /** `replace(/[^\w.-]/g, "_")`. */
  function ReplaceUnsafe(s: string): (r: string)
    ensures |r| == |s|
    ensures forall i :: 0 <= i < |s| ==> r[i] == if IsKept(s[i]) then s[i] else '_'
  {
    seq(|s|, i requires 0 <= i < |s| => if IsKept(s[i]) then s[i] else '_')
  }

  /** One character through the replacement and `toLowerCase`: a safe character, unchanged when already safe. */
  lemma SanitizedChar(c: char)
    ensures IsSafe(LowerChar(if IsKept(c) then c else '_'))
    ensures IsSafe(c) ==> LowerChar(if IsKept(c) then c else '_') == c
  {
  }

  /**
   * sanitizeFileName: the name without its directory part, every character
   * outside `[A-Za-z0-9_.-]` turned into `_`, then lower-cased.
   */
  function SanitizeFileName(name: string): (r: string)
    ensures |r| == |StripPath(name)|
    ensures forall i :: 0 <= i < |r| ==> IsSafe(r[i])
    ensures '/' !in r && '\\' !in r
  {
    var p := StripPath(name);
    var r := ToLower(ReplaceUnsafe(p));
    forall i | 0 <= i < |r|
      ensures IsSafe(r[i])
    {
      SanitizedChar(p[i]);
    }
    r
  }

  /** A name made only of safe characters is its own sanitised form. */
  lemma SafeNameUnchanged(name: string)
    requires forall i :: 0 <= i < |name| ==> IsSafe(name[i])
    ensures SanitizeFileName(name) == name
  {
    assert StripPath(name) == name;
    forall i | 0 <= i < |name|
      ensures SanitizeFileName(name)[i] == name[i]
    {
      SanitizedChar(name[i]);
    }
  }

  /** Sanitising twice gives what sanitising once does. */
  lemma SanitizeIdempotent(name: string)
    ensures SanitizeFileName(SanitizeFileName(name)) == SanitizeFileName(name)
  {
    SafeNameUnchanged(SanitizeFileName(name));
  }

  /** A name under a one-line directory path sanitises as its base name alone. */
  lemma SanitizeDropsDirectory(dir: string, base: string)
    requires forall i :: 0 <= i < |dir| ==> !IsLineTerminator(dir[i])
    requires forall i :: 0 <= i < |base| ==> !IsSlash(base[i])
    ensures StripPath(dir + "/" + base) == base
    ensures SanitizeFileName(dir + "/" + base) == SanitizeFileName(base)
  {
    var s := dir + "/" + base;
    forall j | 0 <= j <= |dir|
      ensures !IsLineTerminator(s[j])
    {
      if j < |dir| {
        assert s[j] == dir[j];
      }
    }
    LineEndAtLeast(s, |dir| + 1);
    assert forall j :: |dir| < j < |s| ==> s[j] == base[j - |dir| - 1];
    LastSlashAt(s, LineEnd(s), |dir|);
    assert s[|dir| + 1..] == base;
  }

  // ----- handler -----

  /**
   * The form parser's outcome: the file's bytes and its client-side name, no
   * file (no data arrived), or a parser error.
   */
  datatype FileParse = FileParsed(data: seq<bv8>, name: string) | NoFile | FileRejected

  const CloudFrontPrefix := "https://d2c2kb9p4hnpz.cloudfront.net/"

  /** `fileType?.ext || getExtensionFromName(originalName) || "bin"`. */
  function UploadExtension(sniffed: Option<FileType>, name: string): (ext: string)
    ensures ext != ""
    ensures sniffed.Some? && sniffed.value.ext != "" ==> ext == sniffed.value.ext
    ensures (sniffed.None? || sniffed.value.ext == "") && ExtensionFromName(name).Some? ==>
      ext == ExtensionFromName(name).value
    ensures (sniffed.None? || sniffed.value.ext == "") && ExtensionFromName(name).None? ==> ext == "bin"
  {
    if sniffed.Some? && sniffed.value.ext != "" then sniffed.value.ext
    else if ExtensionFromName(name).Some? then ExtensionFromName(name).value
    else "bin"
  }

  /** `fileType?.mime || "application/octet-stream"`. */
  function UploadMime(sniffed: Option<FileType>): (mime: string)
    ensures mime != ""
    ensures sniffed.Some? && sniffed.value.mime != "" ==> mime == sniffed.value.mime
    ensures (sniffed.None? || sniffed.value.mime == "") ==> mime == "application/octet-stream"
  {
    if sniffed.Some? && sniffed.value.mime != "" then sniffed.value.mime else "application/octet-stream"
  }

  /** `sanitizeFileName(originalName) || "upload." + extension`. */
  function ObjectKey(name: string, ext: string): (key: string)
    ensures key != ""
    ensures SanitizeFileName(name) != "" ==> key == SanitizeFileName(name)
    ensures SanitizeFileName(name) == "" ==> key == "upload." + ext
  {
    if SanitizeFileName(name) != "" then SanitizeFileName(name) else "upload." + ext
  }

  /**
   * The key of an upload whose name has no slash (the base name the form
   * parser reports) is made of safe characters only when the name is not
   * empty, and otherwise is `upload.` followed by the extension; either way
   * it holds no `/` when the sniffed extension holds none.
   */
  lemma UploadKeyFlat(name: string, sniffed: Option<FileType>)
    requires forall i :: 0 <= i < |name| ==> !IsSlash(name[i])
    requires sniffed.Some? ==> '/' !in sniffed.value.ext
    ensures name != "" ==> forall i :: 0 <= i < |ObjectKey(name, UploadExtension(sniffed, name))| ==>
      IsSafe(ObjectKey(name, UploadExtension(sniffed, name))[i])
    ensures '/' !in ObjectKey(name, UploadExtension(sniffed, name))
  {
    assert StripPath(name) == name;
    var ext := UploadExtension(sniffed, name);
    if name == "" {
      assert ExtensionFromName(name).None?;
      assert ext == "bin" || ext == sniffed.value.ext;
      assert "upload." + ext == "upload." + ext;
      assert forall i :: 0 <= i < |"upload." + ext| ==> ("upload." + ext)[i] != '/' by {
        forall i | 0 <= i < |"upload." + ext| ensures ("upload." + ext)[i] != '/' {
          if i >= 7 { assert ("upload." + ext)[i] == ext[i - 7]; }
        }
      }
    }
  }

  /** The file was taken and is in the bucket at `key`: the 200 body. */
  function UploadedBody(key: string): Value {
    Obj(map["status" := Str("OK"), "url" := Str(CloudFrontPrefix + key)])
  }

  /**
   * putS3Object: 400 "Invalid input" without a base64 body and a content
   * type, the parser's error or "No file found" as a 400, otherwise the file
   * written at its key with the sniffed (or default) content type and its
   * CloudFront address returned; an upload error is a 400 as well.
   */
  method PutS3Object(bucket: Bucket, req: Request, parse: FileParse, sniffed: Option<FileType>, fault: bool)
    returns (resp: Response)
    modifies bucket
    ensures !MultipartRequest(req) ==> resp == ErrorResponse(400, "Invalid input")
    ensures MultipartRequest(req) && parse.FileRejected? ==> resp == ErrorResponse(400, ServiceErrorText)
    ensures MultipartRequest(req) && parse.NoFile? ==> resp == ErrorResponse(400, "No file found")
    ensures MultipartRequest(req) && parse.FileParsed? ==>
      var key := ObjectKey(parse.name, UploadExtension(sniffed, parse.name));
      && (!fault ==> bucket.objects == old(bucket.objects)[key := Blob(Bytes(parse.data), UploadMime(sniffed))]
                     && resp == Response(200, UploadedBody(key)))
      && (fault ==> resp == ErrorResponse(400, ServiceErrorText))
    ensures resp.status != 200 ==> bucket.objects == old(bucket.objects)
  {
    if !MultipartRequest(req) {
      return ErrorResponse(400, "Invalid input");
    }
    match parse
    case FileRejected =>
      return ErrorResponse(400, ServiceErrorText);
    case NoFile =>
      return ErrorResponse(400, "No file found");
    case FileParsed(data, name) =>
      var ext := UploadExtension(sniffed, name);
      var mime := UploadMime(sniffed);
      var key := ObjectKey(name, ext);
      var ok := bucket.PutObject(key, Blob(Bytes(data), mime), fault);
      if !ok {
        return ErrorResponse(400, ServiceErrorText);
      }
      resp := Response(200, UploadedBody(key));
  }
}

=== FILE: http.dfy ===
/**
 * The request and response shapes the HTTP handlers share: path and query
 * parameters, a request body already run through `JSON.parse` (or the parse
 * failure), the caller's identity claims, and a status code with a JSON body.
 */
module Http {
  import opened Wrappers
  import opened Json

  /** Members of a parsed JSON object, in `Object.keys` order; `JSON.parse` never yields a key twice. */
  type Members = m: seq<(string, Value)> | DistinctKeys(m)

  predicate DistinctKeys(m: seq<(string, Value)>) {
    forall i, j :: 0 <= i < j < |m| ==> m[i].0 != m[j].0
  }

  /** `JSON.parse(event.body ?? "")`: an object, or the parser's error. */
  datatype Body = Parsed(members: Members) | Malformed(reason: string)

  /** The identity claims an authorizer attached to the request. */
  datatype Claims = Claims(username: Option<string>, email: Option<string>)

  datatype Request = Request(
    path: map<string, string>,
    query: map<string, string>,
    headers: map<string, string>,
    rawBody: Option<string>,
    isBase64Encoded: bool,
    body: Body,
    claims: Claims)

  datatype Response = Response(status: int, body: Value)

  /** `params?.[name]`, where an empty string counts as missing, as `!param` does. */
  function Param(params: map<string, string>, name: string): (r: Option<string>)
    ensures r.Some? <==> name in params && params[name] != ""
    ensures r.Some? ==> r.value == params[name]
  {
    if name in params && params[name] != "" then Some(params[name]) else None
  }

  /** `claim || "admin"`: who is recorded as having made the change. */
  function Caller(claim: Option<string>): (who: string)
    ensures who != ""
    ensures claim.Some? && claim.value != "" ==> who == claim.value
    ensures (claim.None? || claim.value == "") ==> who == "admin"
  {
    if claim.Some? && claim.value != "" then claim.value else "admin"
  }

  /** `headers["content-type"] || headers["Content-Type"]`. */
  function ContentTypeHeader(headers: map<string, string>): (r: Option<string>)
    ensures r.Some? <==> Param(headers, "content-type").Some? || Param(headers, "Content-Type").Some?
    ensures Param(headers, "content-type").Some? ==> r == Param(headers, "content-type")
    ensures Param(headers, "content-type").None? ==> r == Param(headers, "Content-Type")
  {
    if Param(headers, "content-type").Some? then Param(headers, "content-type") else Param(headers, "Content-Type")
  }

  /** A non-empty body, marked base64-encoded, with a content type. */
  predicate MultipartRequest(req: Request) {
    req.rawBody.Some? && req.rawBody.value != "" && req.isBase64Encoded && ContentTypeHeader(req.headers).Some?
  }

  const MissingEventSlug := "Missing eventSlug path parameter"

  /** `{ status: "Error", message }` with the given status code. */
  function ErrorResponse(status: int, message: string): Response {
    Response(status, Obj(map["status" := Str("Error"), "message" := Str(message)]))
  }

  /** `{ error: message }` with the given status code, the shape the listing handlers answer with. */
  function ErrorField(status: int, message: string): Response {
    Response(status, Obj(map["error" := Str(message)]))
  }

  /**
   * The message of an error a service call threw: the service's own text,
   * which is not part of this model, so one placeholder stands for all of them.
   */
  const ServiceErrorText := "service error"

  /** `{ status: "Error", message: error }` for a caught plain `Error`, which `JSON.stringify` renders as `{}`. */
  function CaughtResponse(status: int): Response {
    Response(status, Obj(map["status" := Str("Error"), "message" := Obj(map[])]))
  }

  /**
   * A service exception as `JSON.stringify` renders it: its own enumerable
   * fields (`name`, `$fault`, `$metadata`), whose values are the service's
   * and not part of this model; one placeholder object stands for all of them.
   */
  const ServiceException := Obj(map["name" := Str(ServiceErrorText)])

  /** `{ status: "Error", message: error }` for a caught service exception. */
  function ThrownResponse(status: int): Response {
    Response(status, Obj(map["status" := Str("Error"), "message" := ServiceException]))
  }

  /** The listed attributes an object has, as `{ a: o.a, ... }` renders once `undefined` ones are dropped. */
  function Pick(fields: map<string, Value>, names: set<string>): (r: map<string, Value>)
    ensures r.Keys == names * fields.Keys
    ensures forall a :: a in r ==> r[a] == fields[a]
  {
    map a | a in names * fields.Keys :: fields[a]
  }

  /** A list of records as a JSON array of objects. */
  function Records(rows: seq<map<string, Value>>): (v: Value)
    ensures v.Arr? && |v.elems| == |rows|
    ensures forall i :: 0 <= i < |rows| ==> v.elems[i] == Obj(rows[i])
  {
    Arr(seq(|rows|, i requires 0 <= i < |rows| => Obj(rows[i])))
  }

  /** Property `k` of a parsed body. */
  function Member(m: seq<(string, Value)>, k: string): (r: Option<Value>)
    ensures r.Some? <==> exists i :: 0 <= i < |m| && m[i].0 == k
    ensures r.Some? ==> exists i :: 0 <= i < |m| && m[i] == (k, r.value)
  {
    if m == [] then None
    else if m[0].0 == k then Some(m[0].1)
    else
      var r := Member(m[1..], k);
      assert forall i :: 1 <= i < |m| ==> m[1..][i - 1] == m[i];
      r
  }

  /** The body as an unordered object, `{ ...body }`. */
  function ObjectOf(m: Members): map<string, Value> {
    if m == [] then map[] else ObjectOf(m[1..])[m[0].0 := m[0].1]
  }

  /** The object has exactly the body's keys, each with the value the body gives it. */
  lemma {:induction false} ObjectOfMembers(m: Members)
    ensures ObjectOf(m).Keys == set i | 0 <= i < |m| :: m[i].0
    ensures forall i :: 0 <= i < |m| ==> ObjectOf(m)[m[i].0] == m[i].1
  {
    if m != [] {
      var rest: Members := m[1..];
      ObjectOfMembers(rest);
      assert forall i :: 1 <= i < |m| ==> rest[i - 1] == m[i];
      var f := ObjectOf(m);
      forall i | 0 <= i < |m|
        ensures f[m[i].0] == m[i].1
      {
        if i > 0 {
          assert rest[i - 1] == m[i];
        }
      }
      assert f.Keys == set i | 0 <= i < |m| :: m[i].0 by {
        forall a | a in f.Keys ensures a in set i | 0 <= i < |m| :: m[i].0 {
          if a != m[0].0 {
            var j :| 0 <= j < |rest| && rest[j].0 == a;
            assert m[j + 1].0 == a;
          }
        }
      }
    }
  }

  /** `x` occurs in `m` before an occurrence of `y`. */
  ghost predicate Before<T>(x: T, y: T, m: seq<T>) {
    exists a, b :: 0 <= a < b < |m| && x == m[a] && y == m[b]
  }

  /** Any two elements of `r` occur in `m`, and in the same order. */
  ghost predicate InOrder<T>(r: seq<T>, m: seq<T>) {
    forall i, j :: 0 <= i < j < |r| ==> Before(r[i], r[j], m)
  }

  /** Order kept twice is order kept. */
  lemma {:induction false} InOrderTrans<T>(r: seq<T>, s: seq<T>, m: seq<T>)
    requires InOrder(r, s) && InOrder(s, m)
    ensures InOrder(r, m)
  {
    forall i, j | 0 <= i < j < |r|
      ensures Before(r[i], r[j], m)
    {
      assert Before(r[i], r[j], s);
      var c, d :| 0 <= c < d < |s| && r[i] == s[c] && r[j] == s[d];
      assert Before(s[c], s[d], m);
    }
  }

  /** Keeping the order of `m[1..]` keeps the order of `m`. */
  lemma {:induction false} InOrderSkip<T>(r: seq<T>, m: seq<T>)
    requires m != [] && InOrder(r, m[1..])
    ensures InOrder(r, m)
  {
    forall i, j | 0 <= i < j < |r|
      ensures Before(r[i], r[j], m)
    {
      assert Before(r[i], r[j], m[1..]);
      var a, b :| 0 <= a < b < |m[1..]| && r[i] == m[1..][a] && r[j] == m[1..][b];
      assert r[i] == m[a + 1] && r[j] == m[b + 1];
    }
  }

  /** Putting `m[0]` in front of elements of `m[1..]` in their order keeps the order of `m`. */
  lemma {:induction false} InOrderCons<T>(r: seq<T>, m: seq<T>)
    requires m != [] && InOrder(r, m[1..])
    requires forall x :: x in r ==> x in m[1..]
    ensures InOrder([m[0]] + r, m)
  {
    var s := [m[0]] + r;
    forall i, j | 0 <= i < j < |s|
      ensures Before(s[i], s[j], m)
    {
      if i == 0 {
        assert s[j] == r[j - 1] && r[j - 1] in m[1..];
        var b :| 0 <= b < |m[1..]| && m[1..][b] == r[j - 1];
        assert s[i] == m[0] && s[j] == m[b + 1];
      } else {
        assert Before(r[i - 1], r[j - 1], m[1..]);
        var a, b :| 0 <= a < b < |m[1..]| && r[i - 1] == m[1..][a] && r[j - 1] == m[1..][b];
        assert s[i] == m[a + 1] && s[j] == m[b + 1];
      }
    }
  }

  /** `delete obj[k]`: the members without `k`, the others in their order. */
  function Without(m: Members, k: string): (r: Members)
    ensures forall i :: 0 <= i < |r| ==> r[i].0 != k
    ensures forall p :: p in r <==> p in m && p.0 != k
    ensures InOrder(r, m)
    ensures |r| <= |m|
  {
    if m == [] then []
    else
      var rest: Members := m[1..];
      var tail := Without(rest, k);
      if m[0].0 == k then
        InOrderSkip(tail, m);
        tail
      else
        assert forall p :: p in tail ==> p in rest;
        assert forall i :: 0 <= i < |tail| ==> tail[i].0 != m[0].0;
        InOrderCons(tail, m);
        [m[0]] + tail
  }
}

=== FILE: json.dfy ===
/**
 * JSON values as the handlers see them after `JSON.parse`, and the two
 * JavaScript coercions the handlers apply to them: truthiness (`!x`) and
 * string interpolation (`${x}`, `String(x)`).
 */
module Json {
  import opened Wrappers

  /**
   * A JSON value. Objects are unordered maps; where the order of an object's
   * keys matters (`Object.keys` of a request body) the body is kept as an
   * ordered member list instead (see `Http.Body`). Numbers are integers.
   */
  datatype Value =
    | Str(s: string)
    | Num(n: int)
    | Bool(b: bool)
    | Null
    | Arr(elems: seq<Value>)
    | Obj(fields: map<string, Value>)

  /** `Number.MAX_SAFE_INTEGER`, 2^53 - 1: the largest magnitude a JavaScript number holds exactly. */
  const MaxSafeInteger: int := 0x1F_FFFF_FFFF_FFFF

  /**
   * Every number in the value, at any depth, is a safe integer. The table's
   * document client refuses to marshal any other number, so a write carrying
   * one fails before it reaches the service.
   */
  predicate SafeNumbers(v: Value) {
    match v
    case Num(n) => -MaxSafeInteger <= n <= MaxSafeInteger
    case Arr(es) => forall i :: 0 <= i < |es| ==> SafeNumbers(es[i])
    case Obj(fs) => forall k :: k in fs ==> SafeNumbers(fs[k])
    case _ => true
  }

  function Digit(d: nat): (c: char)
    requires d < 10
  {
    "0123456789"[d]
  }

  /** Decimal rendering of a natural number, as `String(n)` prints an integer. */
  function NatText(n: nat): (r: string)
    ensures 1 <= |r|
    ensures forall i :: 0 <= i < |r| ==> '0' <= r[i] <= '9'
    ensures n < 10 <==> |r| == 1
  {
    if n < 10 then [Digit(n)] else NatText(n / 10) + [Digit(n % 10)]
  }

  /** Distinct numbers have distinct renderings, so `#attr0`, `#attr1`, ... never collide. */
  lemma {:induction false} NatTextInjective(a: nat, b: nat)
    requires NatText(a) == NatText(b)
    ensures a == b
  {
    if a >= 10 && b >= 10 {
      var ra, rb := NatText(a), NatText(b);
      assert ra[|ra| - 1] == Digit(a % 10) && rb[|rb| - 1] == Digit(b % 10);
      assert a % 10 == b % 10;
      assert ra[..|ra| - 1] == NatText(a / 10);
      assert rb[..|rb| - 1] == NatText(b / 10);
      NatTextInjective(a / 10, b / 10);
    } else if a < 10 && b < 10 {
      assert NatText(a)[0] == Digit(a) && NatText(b)[0] == Digit(b);
    }
  }

  function IntText(n: int): string {
    if n < 0 then "-" + NatText(-n) else NatText(n)
  }

  /** `String(v)` for a present JSON value; an array joins its elements with "," and renders null as "". */
  function Text(v: Value): string {
    match v
    case Str(s) => s
    case Num(n) => IntText(n)
    case Bool(b) => if b then "true" else "false"
    case Null => "null"
    case Obj(_) => "[object Object]"
    case Arr(es) => Join(seq(|es|, i requires 0 <= i < |es| => if es[i].Null? then "" else Text(es[i])))
  }

  function Join(parts: seq<string>): string {
    if parts == [] then "" else if |parts| == 1 then parts[0] else parts[0] + "," + Join(parts[1..])
  }

  /** `${x}` for a property that may be missing: a missing property renders as "undefined". */
  function TemplateText(v: Option<Value>): string {
    match v
    case None => "undefined"
    case Some(x) => Text(x)
  }

  /** JavaScript truthiness of a property that may be missing. */
  predicate Truthy(v: Option<Value>) {
    match v
    case None => false
    case Some(Str(s)) => s != ""
    case Some(Num(n)) => n != 0
    case Some(Bool(b)) => b
    case Some(Null) => false
    case Some(_) => true
  }

  /** Property lookup in an unordered object: `o[k]`, with `undefined` as `None`. */
  function Field(fields: map<string, Value>, k: string): Option<Value> {
    if k in fields then Some(fields[k]) else None
  }
}

=== FILE: quiz.dfy ===
/**
 * The quiz of an event: one JSON document per event slug, kept in the bucket
 * at `<slug>/quiz.json`, written whole by the upload handler and read back by
 * the get handler.
 */
module Quiz {
  import opened Wrappers
  import opened Json
  import opened Store
  import opened Http
  import FileUpload

  /** The bucket key of an event's quiz. */
  function QuizKey(slug: string): (key: string)
    ensures |key| == |slug| + 10 && key[..|slug|] == slug && key[|slug|..] == "/quiz.json"
  {
    slug + "/quiz.json"
  }

  /** Different events keep their quizzes under different keys. */
  lemma QuizKeysDistinct(a: string, b: string)
    requires a != b
    ensures QuizKey(a) != QuizKey(b)
  {
    if |a| == |b| {
      assert QuizKey(a)[..|a|] == a && QuizKey(b)[..|b|] == b;
    } else {
      assert |QuizKey(a)| != |QuizKey(b)|;
    }
  }

  /** What `JSON.stringify(input)` writes and `JSON.parse` reads back: the body as one object. */
  function QuizDocument(members: Members): Blob {
    Blob(Document(Obj(ObjectOf(members))), "application/json")
  }

  /** The upload request a well-formed quiz upload is: a slug, a body, and an object whose `quiz` is truthy. */
  predicate QuizAccepted(req: Request) {
    && Param(req.path, "eventSlug").Some?
    && req.rawBody.Some? && req.rawBody.value != ""
    && req.body.Parsed? && Truthy(Member(req.body.members, "quiz"))
  }

  /** The 200 body of an upload: the key written and the slug it belongs to. */
  function UploadedQuizBody(slug: string): Value {
    Obj(map["status" := Str("OK"), "message" := Str("Quiz uploaded successfully"),
            "key" := Str(QuizKey(slug)), "eventSlug" := Str(slug)])
  }

  /**
   * uploadQuizToS3: four kinds of 400 in order (slug, body, parse, `quiz`),
   * then the whole parsed body written at the slug's quiz key over any earlier
   * quiz; a write error is a 400 too.
   */
  method UploadQuiz(bucket: Bucket, req: Request, fault: bool) returns (resp: Response)
    modifies bucket
    ensures Param(req.path, "eventSlug").None? ==> resp == ErrorResponse(400, MissingEventSlug)
    ensures Param(req.path, "eventSlug").Some? && (req.rawBody.None? || req.rawBody.value == "") ==>
      resp == ErrorResponse(400, "Request body is required")
    ensures Param(req.path, "eventSlug").Some? && req.rawBody.Some? && req.rawBody.value != "" && req.body.Malformed? ==>
      resp == ErrorResponse(400, req.body.reason)
    ensures Param(req.path, "eventSlug").Some? && req.rawBody.Some? && req.rawBody.value != "" && req.body.Parsed?
            && !Truthy(Member(req.body.members, "quiz")) ==>
      resp == ErrorResponse(400, "Quiz object is required")
    ensures QuizAccepted(req) ==>
      var slug := Param(req.path, "eventSlug").value;
      && (!fault ==> bucket.objects == old(bucket.objects)[QuizKey(slug) := QuizDocument(req.body.members)]
                     && resp == Response(200, UploadedQuizBody(slug)))
      && (fault ==> resp == ErrorResponse(400, ServiceErrorText))
    ensures resp.status != 200 ==> bucket.objects == old(bucket.objects)
  {
    var slug := Param(req.path, "eventSlug");
    if slug.None? {
      return ErrorResponse(400, MissingEventSlug);
    }
    if req.rawBody.None? || req.rawBody.value == "" {
      return ErrorResponse(400, "Request body is required");
    }
    match req.body
    case Malformed(reason) =>
      return ErrorResponse(400, reason);
    case Parsed(members) =>
      if !Truthy(Member(members, "quiz")) {
        return ErrorResponse(400, "Quiz object is required");
      }
      var ok := bucket.PutObject(QuizKey(slug.value), QuizDocument(members), fault);
      if !ok {
        return ErrorResponse(400, ServiceErrorText);
      }
      resp := Response(200, UploadedQuizBody(slug.value));
  }

  /** The answer of getQuizFromS3 for what the bucket read returned. */
  function QuizResponse(read: BlobRead): (resp: Response)
    ensures read.BlobFound? && read.blob.content.Document? ==> resp == Response(200, read.blob.content.doc)
    ensures read.BlobFound? && read.blob.content.Bytes? ==> resp == ErrorResponse(400, ServiceErrorText)
    ensures read.NoSuchKey? ==> resp == ErrorResponse(404, "Quiz not found")
    ensures read.BlobFailed? ==> resp == ErrorResponse(400, ServiceErrorText)
  {
    match read
    case BlobFound(blob) =>
      (match blob.content
       case Document(doc) => Response(200, doc)
       case Bytes(_) => ErrorResponse(400, ServiceErrorText))
    case NoSuchKey => ErrorResponse(404, "Quiz not found")
    case BlobFailed => ErrorResponse(400, ServiceErrorText)
  }

  /**
   * getQuizFromS3: 400 without an event id, otherwise the document at the
   * event's quiz key, 404 "Quiz not found" when there is none, 400 on any
   * other read error, and 400 for raw bytes, which are taken not to parse.
   */
  method GetQuiz(bucket: Bucket, req: Request, fault: bool) returns (resp: Response)
    ensures Param(req.path, "eventId").None? ==> resp == ErrorResponse(400, "EventId is required in path parameters")
    ensures Param(req.path, "eventId").Some? ==>
      var key := QuizKey(Param(req.path, "eventId").value);
      && (fault ==> resp == ErrorResponse(400, ServiceErrorText))
      && (!fault && key !in bucket.objects ==> resp == ErrorResponse(404, "Quiz not found"))
      && (!fault && key in bucket.objects && bucket.objects[key].content.Document? ==>
            resp == Response(200, bucket.objects[key].content.doc))
      && (!fault && key in bucket.objects && bucket.objects[key].content.Bytes? ==>
            resp == ErrorResponse(400, ServiceErrorText))
  {
    var eventId := Param(req.path, "eventId");
    if eventId.None? {
      return ErrorResponse(400, "EventId is required in path parameters");
    }
    var read := bucket.GetObject(QuizKey(eventId.value), fault);
    resp := QuizResponse(read);
  }

  /**
   * The quiz round trip: after a successful upload for a slug, a get for that
   * slug answers 200 with the uploaded body as an object, whatever the bucket
   * held before.
   */
  method UploadThenGet(bucket: Bucket, upload: Request, get: Request) returns (stored: Response, fetched: Response)
    requires QuizAccepted(upload)
    requires Param(get.path, "eventId") == Param(upload.path, "eventSlug")
    modifies bucket
    ensures stored.status == 200
    ensures fetched == Response(200, Obj(ObjectOf(upload.body.members)))
  {
    stored := UploadQuiz(bucket, upload, false);
    fetched := GetQuiz(bucket, get, false);
  }

  /** Uploading a quiz for one event leaves every other event's quiz as it was. */
  lemma UploadKeepsOtherQuizzes(objects: map<string, Blob>, slug: string, other: string, members: Members)
    requires slug != other
    ensures var after := objects[QuizKey(slug) := QuizDocument(members)];
      (QuizKey(other) in after <==> QuizKey(other) in objects)
      && (QuizKey(other) in objects ==> after[QuizKey(other)] == objects[QuizKey(other)])
  {
    QuizKeysDistinct(slug, other);
  }

  /**
   * A file upload whose name is a base name (no slash) and whose sniffed
   * extension has no `/` never lands on a quiz key, so it cannot replace an
   * event's quiz.
   */
  lemma FileUploadsMissQuizzes(name: string, sniffed: Option<FileType>, slug: string)
    requires forall i :: 0 <= i < |name| ==> !FileUpload.IsSlash(name[i])
    requires sniffed.Some? ==> '/' !in sniffed.value.ext
    ensures FileUpload.ObjectKey(name, FileUpload.UploadExtension(sniffed, name)) != QuizKey(slug)
  {
    FileUpload.UploadKeyFlat(name, sniffed);
    assert QuizKey(slug)[|slug|] == '/';
  }
}

=== FILE: registration.dfy ===
/**
 * The three registration handlers: the self-service registration (a
 * multipart form with an optional payment screenshot), the manual attendee
 * registration an organiser makes, and the manual participant registration.
 * Each runs an ordered chain of 400 checks and then makes one table write;
 * the self-service one may first write one blob.
 */
module Registration {
  import opened Wrappers
  import opened Json
  import opened Strings
  import opened Store
  import opened Http
  import opened Validation

  // ----- eventRegistration -----

  /** The parsed multipart form: its text fields, and the payment screenshot's bytes when one was sent. */
  datatype Form = Form(fields: map<string, string>, file: Option<seq<bv8>>)

  /**
   * The form parser's outcome: the form, no result (the handler's `!parsed`
   * branch), or a parser error, which the handler's outer `catch` receives.
   */
  datatype FormParse = FormParsed(form: Form) | FormEmpty | FormRejected

  /** The form fields with `eventSlug` set to the path's slug over any the form carried. */
  function FormValues(form: Form, slug: string): (values: map<string, Value>)
    ensures values.Keys == form.fields.Keys + {"eventSlug"}
    ensures values["eventSlug"] == Str(slug)
    ensures forall k :: k in form.fields && k != "eventSlug" ==> values[k] == Str(form.fields[k])
  {
    (map k | k in form.fields :: Str(form.fields[k]))["eventSlug" := Str(slug)]
  }

  const SelfServiceRequired := ["firstName", "lastName", "email", "eventType"]

  /** `String(formData.email)`, as the pattern test reads it. */
  function EmailOf(values: map<string, Value>): string {
    TemplateText(Field(values, "email"))
  }

  /** `formData[name]` where the checks have made sure it is present. */
  function Attr(values: map<string, Value>, name: string): Value {
    Field(values, name).GetOr(Null)
  }

  /** `fileType?.ext || 'png'`. */
  function PaymentExtension(sniffed: Option<FileType>): string {
    if sniffed.Some? && sniffed.value.ext != "" then sniffed.value.ext else "png"
  }

  /** `fileType?.mime || 'image/png'`. */
  function PaymentMime(sniffed: Option<FileType>): string {
    if sniffed.Some? && sniffed.value.mime != "" then sniffed.value.mime else "image/png"
  }

  /** `${slug}/payments/${uuid}.${extension}`. */
  function PaymentKey(slug: string, uuid: string, ext: string): string {
    slug + "/payments/" + uuid + "." + ext
  }

  /**
   * Payment keys never collide across registrations: for slugs without '/'
   * and uuids without '.', two keys are equal only when slug, uuid and
   * extension all are.
   */
  lemma PaymentKeysDistinct(slug1: string, uuid1: string, ext1: string, slug2: string, uuid2: string, ext2: string)
    requires '/' !in slug1 && '/' !in slug2 && '.' !in uuid1 && '.' !in uuid2
    requires PaymentKey(slug1, uuid1, ext1) == PaymentKey(slug2, uuid2, ext2)
    ensures slug1 == slug2 && uuid1 == uuid2 && ext1 == ext2
  {
    var tail1, tail2 := "payments/" + uuid1 + "." + ext1, "payments/" + uuid2 + "." + ext2;
    assert PaymentKey(slug1, uuid1, ext1) == slug1 + ['/'] + tail1;
    assert PaymentKey(slug2, uuid2, ext2) == slug2 + ['/'] + tail2;
    SplitAtFirst(slug1, tail1, slug2, tail2, '/');
    assert tail1[9..] == uuid1 + ['.'] + ext1;
    assert tail2[9..] == uuid2 + ['.'] + ext2;
    SplitAtFirst(uuid1, ext1, uuid2, ext2, '.');
  }

  /** `paymentScreenshotKey`: the blob key when a file was sent, `null` otherwise. */
  function Screenshot(file: Option<seq<bv8>>, slug: string, uuid: string, sniffed: Option<FileType>): Value {
    if file.Some? then Str(PaymentKey(slug, uuid, PaymentExtension(sniffed))) else Null
  }

  /** The self-registered attendee: PENDING, self-service, under `(slug#ATTENDEE, email)`. */
  function SelfServiceItem(values: map<string, Value>, slug: string, screenshot: Value, now: string): Item {
    map["pk" := Str(slug + "#ATTENDEE"), "sk" := Attr(values, "email"),
        "firstName" := Attr(values, "firstName"), "lastName" := Attr(values, "lastName"),
        "email" := Attr(values, "email"), "phone" := Attr(values, "phone"),
        "eventSlug" := Str(slug), "eventType" := Attr(values, "eventType"),
        "paymentScreenshotKey" := screenshot, "attendanceStatus" := Str("PENDING"),
        "registrationDate" := Str(now), "registrationType" := Str("self-service")]
  }

  /** The self-registered attendee is keyed by the slug's attendee partition and the e-mail, and has no empty attribute name. */
  lemma SelfServiceKey(values: map<string, Value>, slug: string, screenshot: Value, now: string)
    requires "email" in values && values["email"] == Str(EmailOf(values))
    ensures KeyOf(SelfServiceItem(values, slug, screenshot, now)) == Some((slug + "#ATTENDEE", EmailOf(values)))
    ensures "" !in SelfServiceItem(values, slug, screenshot, now)
  {
  }

  /** A form's fields are text, so the self-registered attendee never holds a number the client refuses. */
  lemma FormItemSafe(form: Form, slug: string, screenshot: Value, now: string)
    requires screenshot.Str? || screenshot.Null?
    ensures SafeItem(SelfServiceItem(FormValues(form, slug), slug, screenshot, now))
  {
    var values := FormValues(form, slug);
    assert forall a :: a in values ==> values[a].Str?;
    TextItemSafe(values, slug, screenshot, now);
  }

  /** An attendee item built from text values and a text-or-null screenshot key holds no number at all. */
  lemma TextItemSafe(values: map<string, Value>, slug: string, screenshot: Value, now: string)
    requires forall a :: a in values ==> values[a].Str?
    requires screenshot.Str? || screenshot.Null?
    ensures SafeItem(SelfServiceItem(values, slug, screenshot, now))
  {
  }

  function RegisteredBody(screenshot: Value, email: Value): Value {
    Obj(map["status" := Str("OK"), "message" := Str("Registration successful"), "paymentScreenshotKey" := screenshot,
            "attendeeId" := email, "registrationType" := Str("self-service")])
  }

  /** Every check before the first write passed. */
  predicate SelfServiceAccepted(req: Request, parse: FormParse) {
    && MultipartRequest(req) && parse.FormParsed? && Param(req.path, "eventSlug").Some?
    && var values := FormValues(parse.form, Param(req.path, "eventSlug").value);
       AllTruthy(values, SelfServiceRequired) && EmailShaped(EmailOf(values))
  }

  /**
   * eventRegistration: four kinds of 400 in order (multipart input, form,
   * path slug, required fields, e-mail pattern), then the screenshot upload
   * when a file was sent, then the unconditional put of a PENDING attendee,
   * which replaces any earlier registration under the same e-mail. A form
   * without `phone` leaves the attendee attribute undefined, which the
   * table's client refuses, after the upload.
   */
  method EventRegistration(table: Table, bucket: Bucket, req: Request, parse: FormParse, sniffed: Option<FileType>,
                           uuid: string, now: string, blobFault: bool, putFault: bool)
    returns (resp: Response)
    requires table.Valid()
    modifies table, bucket
    ensures table.Valid()
    ensures resp.status != 200 ==> table.items == old(table.items)
    ensures !SelfServiceAccepted(req, parse) ==> bucket.objects == old(bucket.objects)
    ensures !MultipartRequest(req) ==> resp == ErrorResponse(400, "Invalid input - multipart form data required")
    ensures MultipartRequest(req) && parse.FormRejected? ==> resp == ErrorResponse(500, ServiceErrorText)
    ensures MultipartRequest(req) && parse.FormEmpty? ==> resp == ErrorResponse(400, "Failed to parse form data")
    ensures MultipartRequest(req) && parse.FormParsed? && Param(req.path, "eventSlug").None? ==>
      resp == ErrorResponse(400, MissingEventSlug)
    ensures MultipartRequest(req) && parse.FormParsed? && Param(req.path, "eventSlug").Some? ==>
      var values := FormValues(parse.form, Param(req.path, "eventSlug").value);
      && (!AllTruthy(values, SelfServiceRequired) ==>
            exists i :: FirstFalsyAt(values, SelfServiceRequired, i)
                        && resp == ErrorResponse(400, MissingField(SelfServiceRequired[i])))
      && (AllTruthy(values, SelfServiceRequired) && !EmailShaped(EmailOf(values)) ==>
            resp == ErrorResponse(400, "Invalid email format"))
    ensures SelfServiceAccepted(req, parse) ==>
      var slug := Param(req.path, "eventSlug").value;
      var values := FormValues(parse.form, slug);
      var file := parse.form.file;
      var screenshot := Screenshot(file, slug, uuid, sniffed);
      var uploaded := file.None? || !blobFault;
      && (file.Some? && !blobFault ==>
            bucket.objects == old(bucket.objects)[screenshot.s := Blob(Bytes(file.value), PaymentMime(sniffed))])
      && (!(file.Some? && !blobFault) ==> bucket.objects == old(bucket.objects))
      && (!uploaded || "phone" !in values || putFault ==> resp == ErrorResponse(500, ServiceErrorText))
      && (uploaded && "phone" in values && !putFault ==>
            && table.items == old(table.items)[(slug + "#ATTENDEE", EmailOf(values)) :=
                                                 SelfServiceItem(values, slug, screenshot, now)]
            && resp == Response(200, RegisteredBody(screenshot, Attr(values, "email"))))
  {
    var contentType := ContentTypeHeader(req.headers);
    if req.rawBody.None? || req.rawBody.value == "" || !req.isBase64Encoded || contentType.None? {
      return ErrorResponse(400, "Invalid input - multipart form data required");
    }
    if parse.FormRejected? {
      return ErrorResponse(500, ServiceErrorText);
    }
    if parse.FormEmpty? {
      return ErrorResponse(400, "Failed to parse form data");
    }
    var form := parse.form;
    var eventSlug := Param(req.path, "eventSlug");
    if eventSlug.None? {
      return ErrorResponse(400, MissingEventSlug);
    }
    var slug := eventSlug.value;
    var formData := FormValues(form, slug);
    var missing := FirstMissing(formData, SelfServiceRequired);
    if missing.Some? {
      return ErrorResponse(400, MissingField(missing.value));
    }
    if !EmailShaped(EmailOf(formData)) {
      return ErrorResponse(400, "Invalid email format");
    }
    assert Truthy(Field(formData, SelfServiceRequired[2]));
    FormItemSafe(form, slug, Screenshot(form.file, slug, uuid, sniffed), now);
    resp := StoreRegistration(table, bucket, formData, slug, form.file, sniffed, uuid, now, blobFault, putFault);
  }

  /**
   * The writes of a self-service registration whose checks passed: the
   * screenshot upload when a file was sent (a refusal answers 500 before the
   * table is touched), then the put of the attendee; a form without `phone`
   * fails at the put.
   */
  method StoreRegistration(table: Table, bucket: Bucket, values: map<string, Value>, slug: string,
                           file: Option<seq<bv8>>, sniffed: Option<FileType>, uuid: string, now: string,
                           blobFault: bool, putFault: bool)
    returns (resp: Response)
    requires table.Valid()
    requires slug != "" && "email" in values && values["email"] == Str(EmailOf(values)) && EmailOf(values) != ""
    modifies table, bucket
    ensures table.Valid()
    ensures resp.status != 200 ==> table.items == old(table.items)
    ensures var screenshot := Screenshot(file, slug, uuid, sniffed);
      var uploaded := file.None? || !blobFault;
      var safe := SafeItem(SelfServiceItem(values, slug, screenshot, now));
      && (file.Some? && !blobFault ==>
            bucket.objects == old(bucket.objects)[screenshot.s := Blob(Bytes(file.value), PaymentMime(sniffed))])
      && (!(file.Some? && !blobFault) ==> bucket.objects == old(bucket.objects))
      && (!uploaded || "phone" !in values || !safe || putFault ==> resp == ErrorResponse(500, ServiceErrorText))
      && (uploaded && "phone" in values && safe && !putFault ==>
            && table.items == old(table.items)[(slug + "#ATTENDEE", EmailOf(values)) :=
                                                 SelfServiceItem(values, slug, screenshot, now)]
            && resp == Response(200, RegisteredBody(screenshot, Attr(values, "email"))))
  {
    var screenshot := Null;
    if file.Some? {
      var key := PaymentKey(slug, uuid, PaymentExtension(sniffed));
      var ok := bucket.PutObject(key, Blob(Bytes(file.value), PaymentMime(sniffed)), blobFault);
      if !ok {
        return ErrorResponse(500, ServiceErrorText);
      }
      screenshot := Str(key);
    }
    resp := PutSelfService(table, values, slug, screenshot, now, putFault);
  }

  /**
   * The put of the self-registered attendee once any screenshot is stored:
   * a form without `phone`, an item the table's client refuses, or a failing
   * service answers 500 and leaves the table as it was.
   */
  method PutSelfService(table: Table, values: map<string, Value>, slug: string, screenshot: Value, now: string,
                        putFault: bool)
    returns (resp: Response)
    requires table.Valid()
    requires slug != "" && "email" in values && values["email"] == Str(EmailOf(values)) && EmailOf(values) != ""
    modifies table
    ensures table.Valid()
    ensures var item := SelfServiceItem(values, slug, screenshot, now);
      && ("phone" !in values || !SafeItem(item) || putFault ==>
            table.items == old(table.items) && resp == ErrorResponse(500, ServiceErrorText))
      && ("phone" in values && SafeItem(item) && !putFault ==>
            && table.items == old(table.items)[(slug + "#ATTENDEE", EmailOf(values)) := item]
            && resp == Response(200, RegisteredBody(screenshot, Attr(values, "email"))))
  {
    if "phone" !in values {
      return ErrorResponse(500, ServiceErrorText);
    }
    var item := SelfServiceItem(values, slug, screenshot, now);
    SelfServiceKey(values, slug, screenshot, now);
    var outcome := table.Put(item, Unconditional, putFault);
    if outcome != Done {
      return ErrorResponse(500, ServiceErrorText);
    }
    resp := Response(200, RegisteredBody(screenshot, Attr(values, "email")));
  }

  // ----- manualAttendeeRegistration -----

  const ManualAttendeeRequired := ["firstName", "lastName", "email", "phone", "profession", "eventType"]

  /** The body with `eventSlug` set to the path's slug over any the body carried. */
  function ManualAttendeeValues(members: Members, slug: string): (values: map<string, Value>)
    ensures values.Keys == ObjectOf(members).Keys + {"eventSlug"}
    ensures values["eventSlug"] == Str(slug)
    ensures forall k :: k in ObjectOf(members) && k != "eventSlug" ==> values[k] == ObjectOf(members)[k]
  {
    ObjectOf(members)["eventSlug" := Str(slug)]
  }

  /** The attendee an organiser registers: VERIFIED, manual, with who registered it. */
  function ManualAttendeeItem(values: map<string, Value>, slug: string, now: string, registeredBy: string): Item {
    map["pk" := Str(slug + "#ATTENDEE"), "sk" := Attr(values, "email"),
        "firstName" := Attr(values, "firstName"), "lastName" := Attr(values, "lastName"),
        "email" := Attr(values, "email"), "phone" := Attr(values, "phone"),
        "profession" := Attr(values, "profession"), "eventSlug" := Str(slug),
        "eventType" := Attr(values, "eventType"), "registrationDate" := Str(now),
        "attendanceStatus" := Str("VERIFIED"), "registrationType" := Str("manual"),
        "registeredBy" := Str(registeredBy)]
  }

  function ManualBody(idName: string, email: Value, registeredBy: string): Value {
    Obj(map["status" := Str("OK"), "message" := Str("Manual registration successful"), idName := email,
            "registrationType" := Str("manual"), "registeredBy" := Str(registeredBy)])
  }

  /**
   * manualAttendeeRegistration: the path slug is checked before the body is
   * parsed; after the required fields and the e-mail pattern, the put only
   * succeeds when no record exists under `(slug#ATTENDEE, email)`, so an
   * existing registration is never overwritten and the refusal answers 500.
   * An e-mail value that passes the pattern only once converted to text (an
   * array, say) is no valid sort key, and the put is refused as well.
   */
  method ManualAttendeeRegistration(table: Table, req: Request, now: string, putFault: bool) returns (resp: Response)
    requires table.Valid()
    modifies table
    ensures table.Valid()
    ensures resp.status != 200 ==> table.items == old(table.items)
    ensures Param(req.path, "eventSlug").None? ==> resp == ErrorResponse(400, MissingEventSlug)
    ensures Param(req.path, "eventSlug").Some? && req.body.Malformed? ==>
      resp == ErrorResponse(400, "Invalid JSON format")
    ensures Param(req.path, "eventSlug").Some? && req.body.Parsed? ==>
      var slug := Param(req.path, "eventSlug").value;
      var values := ManualAttendeeValues(req.body.members, slug);
      && (!AllTruthy(values, ManualAttendeeRequired) ==>
            exists i :: FirstFalsyAt(values, ManualAttendeeRequired, i)
                        && resp == ErrorResponse(400, MissingField(ManualAttendeeRequired[i])))
      && (AllTruthy(values, ManualAttendeeRequired) && !EmailShaped(EmailOf(values)) ==>
            resp == ErrorResponse(400, "Invalid email format"))
      && (AllTruthy(values, ManualAttendeeRequired) && EmailShaped(EmailOf(values)) ==>
            var registeredBy := Caller(req.claims.username);
            var email := Attr(values, "email");
            var stored := && email.Str? && !putFault && SafeItem(ManualAttendeeItem(values, slug, now, registeredBy))
                          && (slug + "#ATTENDEE", email.s) !in old(table.items);
            && (stored ==>
                  && table.items == old(table.items)[(slug + "#ATTENDEE", email.s) :=
                                                       ManualAttendeeItem(values, slug, now, registeredBy)]
                  && resp == Response(200, ManualBody("attendeeId", email, registeredBy)))
            && (!stored ==> resp == ErrorResponse(500, ServiceErrorText)))
  {
    var eventSlug := Param(req.path, "eventSlug");
    if eventSlug.None? {
      return ErrorResponse(400, MissingEventSlug);
    }
    if req.body.Malformed? {
      return ErrorResponse(400, "Invalid JSON format");
    }
    var slug := eventSlug.value;
    var formData := ManualAttendeeValues(req.body.members, slug);
    var missing := FirstMissing(formData, ManualAttendeeRequired);
    if missing.Some? {
      ghost var i :| FirstFalsyAt(formData, ManualAttendeeRequired, i) && ManualAttendeeRequired[i] == missing.value;
      return ErrorResponse(400, MissingField(missing.value));
    }
    if !EmailShaped(EmailOf(formData)) {
      return ErrorResponse(400, "Invalid email format");
    }
    assert Truthy(Field(formData, ManualAttendeeRequired[2]));
    resp := StoreManualAttendee(table, formData, slug, now, Caller(req.claims.username), putFault);
  }

  /**
   * The put of a manual attendee whose checks passed: it succeeds only when
   * no record exists under `(slug#ATTENDEE, email)` and the e-mail is text;
   * any refusal answers 500 and leaves the table as it was.
   */
  method StoreManualAttendee(table: Table, values: map<string, Value>, slug: string, now: string,
                             registeredBy: string, putFault: bool)
    returns (resp: Response)
    requires table.Valid()
    requires slug != "" && Attr(values, "email") != Str("")
    modifies table
    ensures table.Valid()
    ensures var email := Attr(values, "email");
      var stored := && email.Str? && !putFault && SafeItem(ManualAttendeeItem(values, slug, now, registeredBy))
                    && (slug + "#ATTENDEE", email.s) !in old(table.items);
      && (stored ==>
            && table.items == old(table.items)[(slug + "#ATTENDEE", email.s) :=
                                                 ManualAttendeeItem(values, slug, now, registeredBy)]
            && resp == Response(200, ManualBody("attendeeId", email, registeredBy)))
      && (!stored ==> table.items == old(table.items) && resp == ErrorResponse(500, ServiceErrorText))
  {
    var item := ManualAttendeeItem(values, slug, now, registeredBy);
    var email := Attr(values, "email");
    assert KeyOf(item) == if email.Str? then Some((slug + "#ATTENDEE", email.s)) else None;
    var outcome := table.Put(item, IfAbsent, putFault);
    if outcome != Done {
      return ErrorResponse(500, ServiceErrorText);
    }
    resp := Response(200, ManualBody("attendeeId", email, registeredBy));
  }

  // ----- manualEventRegistration -----

  const ParticipantRequired := ["firstName", "lastName", "email", "phone", "eventSlug", "eventType"]

  /** `${formData.eventSlug}#PARTICIPANT`. */
  function ParticipantPartition(values: map<string, Value>): string {
    TemplateText(Field(values, "eventSlug")) + "#PARTICIPANT"
  }

  /** The participant an organiser registers: VERIFIED, manual, with who registered it. */
  function ParticipantItem(values: map<string, Value>, now: string, registeredBy: string): Item {
    map["pk" := Str(ParticipantPartition(values)), "sk" := Attr(values, "email"),
        "firstName" := Attr(values, "firstName"), "lastName" := Attr(values, "lastName"),
        "email" := Attr(values, "email"), "phone" := Attr(values, "phone"),
        "eventSlug" := Attr(values, "eventSlug"), "eventType" := Attr(values, "eventType"),
        "registrationDate" := Str(now), "attendanceStatus" := Str("VERIFIED"),
        "registrationType" := Str("manual"), "registeredBy" := Str(registeredBy)]
  }

  /**
   * manualEventRegistration: the slug comes from the body and is required
   * like the other fields; the put is unconditional, so an existing
   * participant with the same e-mail is replaced; `registeredBy` is the
   * caller's e-mail claim, not the username.
   */
  method ManualEventRegistration(table: Table, req: Request, now: string, putFault: bool) returns (resp: Response)
    requires table.Valid()
    modifies table
    ensures table.Valid()
    ensures resp.status != 200 ==> table.items == old(table.items)
    ensures req.body.Malformed? ==> resp == ErrorResponse(400, "Invalid JSON format")
    ensures req.body.Parsed? ==>
      var values := ObjectOf(req.body.members);
      && (!AllTruthy(values, ParticipantRequired) ==>
            exists i :: FirstFalsyAt(values, ParticipantRequired, i)
                        && resp == ErrorResponse(400, MissingField(ParticipantRequired[i])))
      && (AllTruthy(values, ParticipantRequired) && !EmailShaped(EmailOf(values)) ==>
            resp == ErrorResponse(400, "Invalid email format"))
      && (AllTruthy(values, ParticipantRequired) && EmailShaped(EmailOf(values)) ==>
            var registeredBy := Caller(req.claims.email);
            var email := Attr(values, "email");
            var safe := SafeItem(ParticipantItem(values, now, registeredBy));
            && (email.Str? && safe && !putFault ==>
                  && table.items == old(table.items)[(ParticipantPartition(values), email.s) :=
                                                       ParticipantItem(values, now, registeredBy)]
                  && resp == Response(200, ManualBody("participantId", email, registeredBy)))
            && (!email.Str? || !safe || putFault ==> resp == ErrorResponse(500, ServiceErrorText)))
  {
    if req.body.Malformed? {
      return ErrorResponse(400, "Invalid JSON format");
    }
    var formData := ObjectOf(req.body.members);
    var missing := FirstMissing(formData, ParticipantRequired);
    if missing.Some? {
      ghost var i :| FirstFalsyAt(formData, ParticipantRequired, i) && ParticipantRequired[i] == missing.value;
      return ErrorResponse(400, MissingField(missing.value));
    }
    if !EmailShaped(EmailOf(formData)) {
      return ErrorResponse(400, "Invalid email format");
    }
    assert Truthy(Field(formData, ParticipantRequired[2]));
    resp := StoreParticipant(table, formData, now, Caller(req.claims.email), putFault);
  }

  /**
   * The put of a participant whose checks passed: unconditional, so it
   * succeeds whenever the e-mail is text and the service does not fail,
   * replacing any participant under the same key.
   */
  method StoreParticipant(table: Table, values: map<string, Value>, now: string, registeredBy: string, putFault: bool)
    returns (resp: Response)
    requires table.Valid()
    requires Attr(values, "email") != Str("")
    modifies table
    ensures table.Valid()
    ensures var email := Attr(values, "email");
      var safe := SafeItem(ParticipantItem(values, now, registeredBy));
      && (email.Str? && safe && !putFault ==>
            && table.items == old(table.items)[(ParticipantPartition(values), email.s) :=
                                                 ParticipantItem(values, now, registeredBy)]
            && resp == Response(200, ManualBody("participantId", email, registeredBy)))
      && (!email.Str? || !safe || putFault ==> table.items == old(table.items) && resp == ErrorResponse(500, ServiceErrorText))
  {
    var item := ParticipantItem(values, now, registeredBy);
    var email := Attr(values, "email");
    assert KeyOf(item) == if email.Str? then Some((ParticipantPartition(values), email.s)) else None;
    var outcome := table.Put(item, Unconditional, putFault);
    if outcome != Done {
      return ErrorResponse(500, ServiceErrorText);
    }
    resp := Response(200, ManualBody("participantId", email, registeredBy));
  }

  /** Participant and attendee partitions never meet, whatever the slugs: their last characters differ. */
  lemma ParticipantsApartFromAttendees(values: map<string, Value>, slug: string)
    ensures ParticipantPartition(values) != slug + "#ATTENDEE"
  {
    var p := ParticipantPartition(values);
    var a := slug + "#ATTENDEE";
    assert p[|p| - 1] == 'T' && a[|a| - 1] == 'E';
  }
}

=== FILE: store.dfy ===
/**
 * The two storage services behind the handlers, as state: a single key-value
 * table keyed by (partition key, sort key), and a blob bucket keyed by object
 * key. Each service call is a method of a class; what it does to the state is
 * a function of the old state, defined here and used by the handlers' own
 * contracts. Any call may be refused by the service for reasons outside the
 * model (network, throttling, permissions): the caller passes that as `fault`.
 */
module Store {
  import opened Wrappers
  import opened Json
  import opened Strings

  /** (pk, sk). */
  type Key = (string, string)

  /** A stored record: its attributes, the key attributes `pk` and `sk` included. */
  type Item = map<string, Value>

  /**
   * Why a table call failed. `Unencodable` is the document client's own
   * refusal, a plain `Error` thrown before anything is sent; the others are
   * exceptions the service answers with.
   */
  datatype Failure =
    | Unencodable      // a value the document client cannot marshal: a number beyond the safe integers
    | Unavailable      // any service error the model does not derive from the state
    | Invalid          // a validation error: bad key, overlapping or key paths in an update, ADD on a non-number
    | ConditionFailed  // the call's condition was false on the current record

  /** Outcome of a write. */
  datatype Outcome = Done | Refused(failure: Failure)

  /** Outcome of a read: reads are only refused for reasons outside the model. */
  datatype Read<T> = Found(value: T) | ReadFailed

  /** The key an item is stored under, read from its `pk` and `sk` string attributes. */
  function KeyOf(item: Item): Option<Key> {
    if "pk" in item && item["pk"].Str? && "sk" in item && item["sk"].Str?
    then Some((item["pk"].s, item["sk"].s))
    else None
  }

  /** The attributes a record starts with when an update creates it. */
  function KeyAttrs(key: Key): (item: Item)
    ensures KeyOf(item) == Some(key)
  {
    map["pk" := Str(key.0), "sk" := Str(key.1)]
  }

  /** Every record is stored under the key its own key attributes name. */
  ghost predicate WellKeyed(items: map<Key, Item>) {
    forall k :: k in items ==> KeyOf(items[k]) == Some(k)
  }

  function Lookup(items: map<Key, Item>, key: Key): Option<Item> {
    if key in items then Some(items[key]) else None
  }

  // ----- Put -----

  datatype PutCondition = Unconditional | IfAbsent

  /** Every attribute value is one the document client can marshal. */
  predicate SafeItem(item: Item) {
    forall a :: a in item ==> SafeNumbers(item[a])
  }

  /**
   * PutItem: replace the record under the item's key; `IfAbsent` is
   * `attribute_not_exists(pk) AND attribute_not_exists(sk)`. The document
   * client refuses an item holding a number that is not a safe integer
   * before the call is made; the service refuses an item with an empty
   * attribute name.
   */
  function PutEffect(items: map<Key, Item>, item: Item, cond: PutCondition, fault: bool): (r: (map<Key, Item>, Outcome))
    ensures r.1 == Done <==> !fault && KeyOf(item).Some? && KeyOf(item).value.0 != "" && KeyOf(item).value.1 != ""
                              && "" !in item && SafeItem(item) && (cond == IfAbsent ==> KeyOf(item).value !in items)
    ensures r.1 == Done ==> r.0 == items[KeyOf(item).value := item]
    ensures r.1 != Done ==> r.0 == items
    ensures r.1 == Refused(Unencodable) <==> !SafeItem(item)
  {
    if !SafeItem(item) then (items, Refused(Unencodable))
    else if fault then (items, Refused(Unavailable))
    else match KeyOf(item)
      case None => (items, Refused(Invalid))
      case Some(k) =>
        if k.0 == "" || k.1 == "" || "" in item then (items, Refused(Invalid))
        else if cond == IfAbsent && k in items then (items, Refused(ConditionFailed))
        else (items[k := item], Done)
  }

  // ----- Delete -----

  /** DeleteItem: removing an absent key succeeds and changes nothing. */
  function DeleteEffect(items: map<Key, Item>, key: Key, fault: bool): (r: (map<Key, Item>, Outcome)) {
    if fault then (items, Refused(Unavailable)) else (items - {key}, Done)
  }

  // ----- Update -----

  /** One clause of an update expression: `SET attr = value` or `ADD attr delta`. */
  datatype Action = Set(attr: string, value: Value) | Add(attr: string, delta: int)

  /** `Positive(a)` is `attribute_exists(a) AND a > :zero`. */
  datatype Condition = Always | Positive(attr: string)

  /** A clause whose operand the document client can marshal. */
  predicate SafeAction(action: Action) {
    match action
    case Set(_, v) => SafeNumbers(v)
    case Add(_, d) => -MaxSafeInteger <= d <= MaxSafeInteger
  }

  /** Every operand of the expression is one the document client can marshal. */
  predicate Encodable(actions: seq<Action>) {
    forall i :: 0 <= i < |actions| ==> SafeAction(actions[i])
  }

  /**
   * An update expression that is sent and accepted: every operand is
   * marshalled, and the service sees no attribute named twice, no key
   * attribute and no empty name.
   */
  predicate ValidActions(actions: seq<Action>) {
    && Encodable(actions)
    && (forall i, j :: 0 <= i < j < |actions| ==> actions[i].attr != actions[j].attr)
    && (forall i :: 0 <= i < |actions| ==> actions[i].attr != "pk" && actions[i].attr != "sk" && actions[i].attr != "")
  }

  predicate Holds(cond: Condition, item: Item) {
    match cond
    case Always => true
    case Positive(a) => a in item && item[a].Num? && item[a].n > 0
  }

  /** The record after the actions, or None when an ADD meets an attribute that is not a number. */
  function Apply(item: Item, actions: seq<Action>): Option<Item>
    decreases |actions|
  {
    if actions == [] then Some(item)
    else
      var next := match actions[0]
        case Set(a, v) => Some(item[a := v])
        case Add(a, d) =>
          if a !in item then Some(item[a := Num(d)])
          else if item[a].Num? then Some(item[a := Num(item[a].n + d)])
          else None;
      match next
      case None => None
      case Some(item') => Apply(item', actions[1..])
  }

  function Lookup1(item: Item, a: string): Option<Value> {
    if a in item then Some(item[a]) else None
  }

  predicate AllSets(actions: seq<Action>) {
    forall i :: 0 <= i < |actions| ==> actions[i].Set?
  }

  /** A list of SETs with distinct attributes writes each named attribute and leaves every other attribute alone. */
  lemma {:induction false} ApplySets(item: Item, actions: seq<Action>)
    requires AllSets(actions)
    requires forall i, j :: 0 <= i < j < |actions| ==> actions[i].attr != actions[j].attr
    ensures Apply(item, actions).Some?
    ensures var r := Apply(item, actions).value;
      && (forall i :: 0 <= i < |actions| ==> actions[i].attr in r && r[actions[i].attr] == actions[i].value)
      && (forall a :: (forall i :: 0 <= i < |actions| ==> actions[i].attr != a) ==> Lookup1(r, a) == Lookup1(item, a))
      && r.Keys == item.Keys + set i | 0 <= i < |actions| :: actions[i].attr
    decreases |actions|
  {
    if actions != [] {
      var a0 := actions[0].attr;
      var item' := item[a0 := actions[0].value];
      var rest := actions[1..];
      ApplySets(item', rest);
      var r := Apply(item', rest).value;
      assert Apply(item, actions) == Apply(item', rest);
      forall i | 0 <= i < |actions|
        ensures actions[i].attr in r && r[actions[i].attr] == actions[i].value
      {
        if i > 0 {
          assert rest[i - 1] == actions[i];
        } else {
          assert forall j :: 0 <= j < |rest| ==> rest[j].attr != a0 by {
            forall j | 0 <= j < |rest| ensures rest[j].attr != a0 {
              assert rest[j] == actions[j + 1];
            }
          }
          assert Lookup1(r, a0) == Lookup1(item', a0);
        }
      }
      forall a | (forall i :: 0 <= i < |actions| ==> actions[i].attr != a)
        ensures Lookup1(r, a) == Lookup1(item, a)
      {
        assert forall j :: 0 <= j < |rest| ==> rest[j].attr != a by {
          forall j | 0 <= j < |rest| ensures rest[j].attr != a {
            assert rest[j] == actions[j + 1];
          }
        }
        assert actions[0].attr != a;
      }
      var names := set i | 0 <= i < |actions| :: actions[i].attr;
      var restNames := set i | 0 <= i < |rest| :: rest[i].attr;
      assert names == {a0} + restNames by {
        forall x | x in names ensures x in {a0} + restNames {
          var i :| 0 <= i < |actions| && actions[i].attr == x;
          if i > 0 { assert rest[i - 1].attr == x; }
        }
        forall x | x in restNames ensures x in names {
          var i :| 0 <= i < |rest| && rest[i].attr == x;
          assert actions[i + 1].attr == x;
        }
      }
    }
  }

  /**
   * UpdateItem with an update expression and a condition. The client
   * marshals the operands before the call; the service validates the
   * expression, then evaluates the condition on the current record, then
   * applies the actions; a missing record is created from its key.
   */
  function UpdateEffect(items: map<Key, Item>, key: Key, actions: seq<Action>, cond: Condition, fault: bool)
    : (r: (map<Key, Item>, Outcome))
    ensures r.1 != Done ==> r.0 == items
    ensures r.1 == Refused(Unencodable) <==> !Encodable(actions)
  {
    if !Encodable(actions) then (items, Refused(Unencodable))
    else if fault then (items, Refused(Unavailable))
    else if key.0 == "" || key.1 == "" || !ValidActions(actions) then (items, Refused(Invalid))
    else
      var current := if key in items then items[key] else KeyAttrs(key);
      if !Holds(cond, current) then (items, Refused(ConditionFailed))
      else match Apply(current, actions)
        case None => (items, Refused(Invalid))
        case Some(item) => (items[key := item], Done)
  }

  // ----- Query -----

  /** Sort keys under `pk` that begin with `prefix` (`pk = :pk AND begins_with(sk, :prefix)`). */
  ghost function Matching(items: map<Key, Item>, pk: string, prefix: string): set<string> {
    set k | k in items && k.0 == pk && prefix <= k.1 :: k.1
  }

  ghost function Rows(items: map<Key, Item>, pk: string, sks: seq<string>): (rows: seq<Item>)
    requires forall i :: 0 <= i < |sks| ==> (pk, sks[i]) in items
  {
    seq(|sks|, i requires 0 <= i < |sks| => items[(pk, sks[i])])
  }

  /** Taking the least remaining key moves it to the end of the listed prefix. */
  lemma SortedStep(done: seq<string>, remaining: set<string>, m: string, all: set<string>)
    requires IsLeast(m, remaining)
    requires done + SortedSet(remaining) == SortedSet(all)
    ensures (done + [m]) + SortedSet(remaining - {m}) == SortedSet(all)
  {
    LeastUnique(m, Least(remaining), remaining);
    assert SortedSet(remaining) == [m] + SortedSet(remaining - {m});
  }

  lemma RowsSnoc(items: map<Key, Item>, pk: string, sks: seq<string>, s: string)
    requires forall i :: 0 <= i < |sks| ==> (pk, sks[i]) in items
    requires (pk, s) in items
    ensures Rows(items, pk, sks + [s]) == Rows(items, pk, sks) + [items[(pk, s)]]
  {
    assert forall i :: 0 <= i < |sks| ==> (sks + [s])[i] == sks[i];
  }

  /** What a Query returns: the matching records, in ascending sort-key order. */
  ghost function QueryResult(items: map<Key, Item>, pk: string, prefix: string): seq<Item> {
    var sks := SortedSet(Matching(items, pk, prefix));
    SortedSetSpec(Matching(items, pk, prefix));
    assert forall i :: 0 <= i < |sks| ==> sks[i] in Matching(items, pk, prefix);
    Rows(items, pk, sks)
  }

  /** The sort key of a stored record. */
  function SkOf(item: Item): string {
    if "sk" in item && item["sk"].Str? then item["sk"].s else ""
  }

  /**
   * A Query returns exactly the records under `pk` whose sort key begins with
   * `prefix`, each once, in strictly ascending sort-key order.
   */
  lemma QueryResultSpec(items: map<Key, Item>, pk: string, prefix: string)
    requires WellKeyed(items)
    ensures var rows := QueryResult(items, pk, prefix);
      && |rows| == |Matching(items, pk, prefix)|
      && (forall i :: 0 <= i < |rows| ==>
            (pk, SkOf(rows[i])) in items && items[(pk, SkOf(rows[i]))] == rows[i] && prefix <= SkOf(rows[i]))
      && (forall k :: k in items && k.0 == pk && prefix <= k.1 ==> exists i :: 0 <= i < |rows| && rows[i] == items[k])
      && (forall i, j :: 0 <= i < j < |rows| ==> Precedes(SkOf(rows[i]), SkOf(rows[j])))
  {
    var m := Matching(items, pk, prefix);
    var sks := SortedSet(m);
    SortedSetSpec(m);
    var rows := QueryResult(items, pk, prefix);
    QueryLength(items, pk, prefix);
    forall i | 0 <= i < |rows|
      ensures (pk, SkOf(rows[i])) in items && items[(pk, SkOf(rows[i]))] == rows[i] && prefix <= SkOf(rows[i])
    {
      QueryRow(items, pk, prefix, i);
    }
    forall k | k in items && k.0 == pk && prefix <= k.1
      ensures exists i :: 0 <= i < |rows| && rows[i] == items[k]
    {
      assert k.1 in m;
      var i :| 0 <= i < |sks| && sks[i] == k.1;
      QueryRow(items, pk, prefix, i);
    }
    forall i, j | 0 <= i < j < |rows|
      ensures Precedes(SkOf(rows[i]), SkOf(rows[j]))
    {
      QueryRow(items, pk, prefix, i);
      QueryRow(items, pk, prefix, j);
    }
  }

  lemma QueryLength(items: map<Key, Item>, pk: string, prefix: string)
    ensures |QueryResult(items, pk, prefix)| == |SortedSet(Matching(items, pk, prefix))|
  {
  }

  /** Row `i` of a Query is the record under the `i`-th matching sort key in ascending order. */
  lemma QueryRow(items: map<Key, Item>, pk: string, prefix: string, i: int)
    requires WellKeyed(items)
    requires 0 <= i < |SortedSet(Matching(items, pk, prefix))|
    ensures var sks := SortedSet(Matching(items, pk, prefix));
      var rows := QueryResult(items, pk, prefix);
      && |rows| == |sks| && (pk, sks[i]) in items && rows[i] == items[(pk, sks[i])]
      && SkOf(rows[i]) == sks[i] && prefix <= sks[i]
  {
    var m := Matching(items, pk, prefix);
    SortedSetSpec(m);
    var sks := SortedSet(m);
    assert sks[i] in m;
  }

  /** The first record a Query returns is the one with the least matching sort key; an empty Query means no match. */
  lemma QueryFirst(items: map<Key, Item>, pk: string, prefix: string)
    requires WellKeyed(items)
    ensures var rows := QueryResult(items, pk, prefix);
      && (rows == [] <==> Matching(items, pk, prefix) == {})
      && (rows != [] ==> SkOf(rows[0]) == Least(Matching(items, pk, prefix)))
  {
    var m := Matching(items, pk, prefix);
    SortedSetSpec(m);
    if m != {} {
      assert SortedSet(m)[0] == Least(m);
      assert QueryResult(items, pk, prefix)[0] == items[(pk, Least(m))];
    }
  }

  /** The least element of a non-empty set of strings, by one pass over it. */
  method LeastOf(s: set<string>) returns (m: string)
    requires s != {}
    ensures IsLeast(m, s)
  {
    m :| m in s;
    var rest := s - {m};
    while rest != {}
      invariant m in s && rest <= s
      invariant forall x :: x in s - rest && x != m ==> Precedes(m, x)
      decreases rest
    {
      var y :| y in rest;
      PrecedesTrichotomy(y, m);
      if Precedes(y, m) {
        forall x | x in s - rest && x != y
          ensures Precedes(y, x)
        {
          if x != m {
            PrecedesTransitive(y, m, x);
          }
        }
        m := y;
      }
      rest := rest - {y};
    }
  }

  /** The key-value table. */
  class Table {
    var items: map<Key, Item>

    ghost predicate Valid()
      reads this
    {
      WellKeyed(items)
    }

    constructor ()
      ensures Valid() && items == map[]
    {
      items := map[];
    }

    /** GetItem. */
    method Get(key: Key, fault: bool) returns (r: Read<Option<Item>>)
      ensures r == if fault then ReadFailed else Found(Lookup(items, key))
    {
      if fault {
        return ReadFailed;
      }
      r := Found(Lookup(items, key));
    }

    /** PutItem. */
    method Put(item: Item, cond: PutCondition, fault: bool) returns (r: Outcome)
      requires Valid()
      modifies this
      ensures Valid()
      ensures (items, r) == PutEffect(old(items), item, cond, fault)
    {
      var e := PutEffect(items, item, cond, fault);
      items, r := e.0, e.1;
    }

    /** DeleteItem. */
    method Delete(key: Key, fault: bool) returns (r: Outcome)
      requires Valid()
      modifies this
      ensures Valid()
      ensures (items, r) == DeleteEffect(old(items), key, fault)
    {
      var e := DeleteEffect(items, key, fault);
      items, r := e.0, e.1;
    }

    /** UpdateItem. */
    method Update(key: Key, actions: seq<Action>, cond: Condition, fault: bool) returns (r: Outcome)
      requires Valid()
      modifies this
      ensures Valid()
      ensures (items, r) == UpdateEffect(old(items), key, actions, cond, fault)
    {
      var e := UpdateEffect(items, key, actions, cond, fault);
      UpdateKeepsKeys(items, key, actions, cond, fault);
      items, r := e.0, e.1;
    }

    /** Query: the records under `pk` whose sort key begins with `prefix`, in ascending sort-key order. */
    method Query(pk: string, prefix: string, fault: bool) returns (r: Read<seq<Item>>)
      requires Valid()
      ensures r == if fault then ReadFailed else Found(QueryResult(items, pk, prefix))
    {
      if fault {
        return ReadFailed;
      }
      var remaining := set k | k in items && k.0 == pk && prefix <= k.1 :: k.1;
      ghost var all := remaining;
      assert all == Matching(items, pk, prefix);
      ghost var done: seq<string> := [];
      var rows: seq<Item> := [];
      while remaining != {}
        invariant forall s :: s in remaining ==> (pk, s) in items
        invariant forall i :: 0 <= i < |done| ==> (pk, done[i]) in items
        invariant done + SortedSet(remaining) == SortedSet(all)
        invariant rows == Rows(items, pk, done)
        decreases |remaining|
      {
        var m := LeastOf(remaining);
        SortedStep(done, remaining, m, all);
        RowsSnoc(items, pk, done, m);
        rows := rows + [items[(pk, m)]];
        done := done + [m];
        remaining := remaining - {m};
      }
      assert done == SortedSet(all);
      r := Found(rows);
    }
  }

  /** An update never moves a record: the result is still well keyed. */
  lemma UpdateKeepsKeys(items: map<Key, Item>, key: Key, actions: seq<Action>, cond: Condition, fault: bool)
    requires WellKeyed(items)
    ensures WellKeyed(UpdateEffect(items, key, actions, cond, fault).0)
  {
    var e := UpdateEffect(items, key, actions, cond, fault);
    if e.1 == Done {
      var current := if key in items then items[key] else KeyAttrs(key);
      ApplyKeepsKeyAttrs(current, actions);
    }
  }

  lemma {:induction false} ApplyKeepsKeyAttrs(item: Item, actions: seq<Action>)
    requires forall i :: 0 <= i < |actions| ==> actions[i].attr != "pk" && actions[i].attr != "sk"
    requires Apply(item, actions).Some?
    ensures KeyOf(Apply(item, actions).value) == KeyOf(item)
    decreases |actions|
  {
    if actions != [] {
      var next := match actions[0]
        case Set(a, v) => item[a := v]
        case Add(a, d) => if a !in item then item[a := Num(d)] else item[a := Num(item[a].n + d)];
      assert Apply(item, actions) == Apply(next, actions[1..]);
      ApplyKeepsKeyAttrs(next, actions[1..]);
    }
  }

  // ----- Blob bucket -----

  /** Object content: raw bytes, or a JSON document kept as the value it serialises. */
  datatype Content = Bytes(data: seq<bv8>) | Document(doc: Value)

  datatype Blob = Blob(content: Content, contentType: string)

  datatype BlobRead = BlobFound(blob: Blob) | NoSuchKey | BlobFailed

  /** What the file-type sniffer recognised from a buffer's first bytes. */
  datatype FileType = FileType(ext: string, mime: string)

  /** The object bucket. */
  class Bucket {
    var objects: map<string, Blob>

    constructor ()
      ensures objects == map[]
    {
      objects := map[];
    }

    /** PutObject: writes (or overwrites) one object. */
    method PutObject(key: string, blob: Blob, fault: bool) returns (ok: bool)
      modifies this
      ensures ok == !fault
      ensures objects == if ok then old(objects)[key := blob] else old(objects)
    {
      ok := !fault;
      if ok {
        objects := objects[key := blob];
      }
    }

    /** GetObject: a missing key is reported as NoSuchKey. */
    method GetObject(key: string, fault: bool) returns (r: BlobRead)
      ensures r == if fault then BlobFailed else if key in objects then BlobFound(objects[key]) else NoSuchKey
    {
      if fault {
        r := BlobFailed;
      } else if key in objects {
        r := BlobFound(objects[key]);
      } else {
        r := NoSuchKey;
      }
    }
  }
}

=== FILE: strings.dfy ===
/**
 * String primitives the handlers rely on: substring search, the text before a
 * separator, ASCII case mapping, and the lexicographic order in which the
 * store returns sort keys.
 */
module Strings {

  /** `s.includes(t)`. */
  predicate Contains(s: string, t: string) {
    exists i | 0 <= i <= |s| - |t| :: t <= s[i..]
  }

  /** `s.split(c)[0]`: the text before the first `c`, or all of `s` when there is none. */
  function BeforeFirst(s: string, c: char): (r: string)
    ensures r <= s
    ensures c !in r
    ensures r == s || s[|r|] == c
  {
    if s == [] || s[0] == c then [] else [s[0]] + BeforeFirst(s[1..], c)
  }

  /** The text before the first `c` of `a + [c] + b` is `a` when `a` holds no `c`. */
  lemma {:induction false} BeforeFirstSplit(a: string, c: char, b: string)
    requires c !in a
    ensures BeforeFirst(a + [c] + b, c) == a
  {
    if a != [] {
      assert (a + [c] + b)[1..] == a[1..] + [c] + b;
      BeforeFirstSplit(a[1..], c, b);
    }
  }

  /** Splitting at the first `c` is unambiguous: equal joins of `c`-free heads give equal heads and tails. */
  lemma SplitAtFirst(a1: string, b1: string, a2: string, b2: string, c: char)
    requires c !in a1 && c !in a2 && a1 + [c] + b1 == a2 + [c] + b2
    ensures a1 == a2 && b1 == b2
  {
    BeforeFirstSplit(a1, c, b1);
    BeforeFirstSplit(a2, c, b2);
    assert b1 == (a1 + [c] + b1)[|a1| + 1..];
    assert b2 == (a2 + [c] + b2)[|a2| + 1..];
  }

  function UpperChar(c: char): char {
    if 'a' <= c <= 'z' then (c as int - 'a' as int + 'A' as int) as char else c
  }

  function LowerChar(c: char): char {
    if 'A' <= c <= 'Z' then (c as int - 'A' as int + 'a' as int) as char else c
  }

  /** `s.toUpperCase()`, restricted to the ASCII letters. */
  function ToUpper(s: string): string {
    seq(|s|, i requires 0 <= i < |s| => UpperChar(s[i]))
  }

  /** `s.toLowerCase()`, restricted to the ASCII letters. */
  function ToLower(s: string): string {
    seq(|s|, i requires 0 <= i < |s| => LowerChar(s[i]))
  }

  /**
   * Strict lexicographic order on strings, character by character, a proper
   * prefix first. This is the order in which the store returns sort keys
   * (the order of UTF-8 bytes coincides with the order of code points).
   */
  predicate Precedes(a: string, b: string) {
    if a == [] then b != []
    else if b == [] then false
    else a[0] < b[0] || (a[0] == b[0] && Precedes(a[1..], b[1..]))
  }

  lemma {:induction false} PrecedesIrreflexive(a: string)
    ensures !Precedes(a, a)
  {
    if a != [] {
      PrecedesIrreflexive(a[1..]);
    }
  }

  lemma {:induction false} PrecedesTransitive(a: string, b: string, c: string)
    requires Precedes(a, b) && Precedes(b, c)
    ensures Precedes(a, c)
  {
    if a != [] && a[0] == b[0] && b[0] == c[0] {
      PrecedesTransitive(a[1..], b[1..], c[1..]);
    }
  }

  lemma {:induction false} PrecedesTrichotomy(a: string, b: string)
    ensures a == b || Precedes(a, b) || Precedes(b, a)
  {
    if a != [] && b != [] && a[0] == b[0] {
      PrecedesTrichotomy(a[1..], b[1..]);
      if a[1..] == b[1..] {
        assert a == [a[0]] + a[1..] && b == [b[0]] + b[1..];
      }
    }
  }

  lemma PrecedesAsymmetric(a: string, b: string)
    requires Precedes(a, b)
    ensures !Precedes(b, a)
  {
    if Precedes(b, a) {
      PrecedesTransitive(a, b, a);
      PrecedesIrreflexive(a);
    }
  }

  /** `m` is the least element of `s`. */
  ghost predicate IsLeast(m: string, s: set<string>) {
    m in s && forall x :: x in s && x != m ==> Precedes(m, x)
  }

  lemma {:induction false} LeastExists(s: set<string>)
    requires s != {}
    ensures exists m :: IsLeast(m, s)
    decreases |s|
  {
    var x :| x in s;
    if s != {x} {
      LeastExists(s - {x});
      var m :| IsLeast(m, s - {x});
      PrecedesTrichotomy(x, m);
      if Precedes(x, m) {
        forall y | y in s && y != x
          ensures Precedes(x, y)
        {
          if y != m {
            PrecedesTransitive(x, m, y);
          }
        }
        assert IsLeast(x, s);
      } else {
        assert IsLeast(m, s);
      }
    } else {
      assert IsLeast(x, s);
    }
  }

  lemma LeastUnique(m: string, n: string, s: set<string>)
    requires IsLeast(m, s) && IsLeast(n, s)
    ensures m == n
  {
    if m != n {
      PrecedesAsymmetric(m, n);
    }
  }

  /** The least string of a non-empty finite set. */
  ghost function Least(s: set<string>): (m: string)
    requires s != {}
    ensures IsLeast(m, s)
  {
    LeastExists(s);
    var m :| IsLeast(m, s);
    m
  }

  /** The elements of `s` listed in ascending order. */
  ghost function SortedSet(s: set<string>): (r: seq<string>)
    decreases |s|
  {
    if s == {} then [] else [Least(s)] + SortedSet(s - {Least(s)})
  }

  ghost predicate StrictlyAscending(r: seq<string>) {
    forall i, j :: 0 <= i < j < |r| ==> Precedes(r[i], r[j])
  }

  /** `SortedSet(s)` lists every element of `s` exactly once, in ascending order. */
  lemma {:induction false} SortedSetSpec(s: set<string>)
    ensures var r := SortedSet(s);
      |r| == |s| && (forall x :: x in r <==> x in s) && StrictlyAscending(r)
    decreases |s|
  {
    if s != {} {
      var m := Least(s);
      var rest := SortedSet(s - {m});
      SortedSetSpec(s - {m});
      var r := [m] + rest;
      assert r == SortedSet(s);
      forall i, j | 0 <= i < j < |r|
        ensures Precedes(r[i], r[j])
      {
        if i > 0 {
          assert r[i] == rest[i - 1] && r[j] == rest[j - 1];
        } else {
          assert r[j] == rest[j - 1];
          assert r[j] in s - {m};
        }
      }
    }
  }
}

=== FILE: tags.dfy ===
/**
 * The resource tags every deployed stack carries: three common tags and an
 * Environment/CostCenter/Owner triple chosen by environment name, merged
 * with the environment's tags written last.
 */
module Tags {

  type Tags = map<string, string>

  const AppArn := "arn:aws:resource-groups:eu-central-1:000468819253:group/fee-suite/01o2gty3uabg42ao3jsnhrcu5m"

  const CommonTags: Tags := map["ManagedBy" := "CDK", "Project" := "FEE_SUITE", "awsApplication" := AppArn]

  const TripleNames: set<string> := {"Environment", "CostCenter", "Owner"}

  function Triple(environment: string, costCenter: string, owner: string): (t: Tags)
    ensures t.Keys == TripleNames
    ensures t["Environment"] == environment && t["CostCenter"] == costCenter && t["Owner"] == owner
  {
    map["Environment" := environment, "CostCenter" := costCenter, "Owner" := owner]
  }

  /** The per-environment triples, as an object literal with these three own properties. */
  const EnvironmentTags: map<string, Tags> := map[
    "dev" := Triple("Development", "DevTeam", "DevOps"),
    "staging" := Triple("Staging", "QATeam", "QA"),
    "prod" := Triple("Production", "ProdTeam", "Operations")]

  /**
   * The names every object literal answers through its prototype chain
   * (`Object.prototype`'s own properties); each is a function or an object,
   * so truthy, and none has own enumerable properties to spread.
   */
  const InheritedNames: set<string> := {
    "constructor", "__defineGetter__", "__defineSetter__", "hasOwnProperty",
    "__lookupGetter__", "__lookupSetter__", "isPrototypeOf", "propertyIsEnumerable",
    "toString", "valueOf", "__proto__", "toLocaleString"}

  /** What `environmentTags[environment]` yields: an own triple, an inherited member, or `undefined`. */
  datatype Lookup = OwnTags(tags: Tags) | Inherited | Undefined

  function LookupEnvironment(environment: string): (r: Lookup)
    ensures r.OwnTags? <==> environment in EnvironmentTags
    ensures r.OwnTags? ==> r.tags == EnvironmentTags[environment]
    ensures r.Inherited? <==> environment !in EnvironmentTags && environment in InheritedNames
  {
    if environment in EnvironmentTags then OwnTags(EnvironmentTags[environment])
    else if environment in InheritedNames then Inherited
    else Undefined
  }

  /**
   * getTags as written: `{...commonTags, ...(environmentTags[environment] ||
   * environmentTags.dev)}`. An inherited member is truthy, so it is spread
   * instead of the dev triple, and spreading it adds nothing.
   */
  function GetTagsAsWritten(environment: string): Tags {
    match LookupEnvironment(environment)
    case OwnTags(t) => CommonTags + t
    case Inherited => CommonTags
    case Undefined => CommonTags + EnvironmentTags["dev"]
  }

  /** An environment named after an inherited member gets no Environment, CostCenter or Owner tag. */
  lemma AsWrittenDropsTriple()
    ensures GetTagsAsWritten("constructor").Keys == {"ManagedBy", "Project", "awsApplication"}
    ensures "Environment" !in GetTagsAsWritten("toString")
  {
    assert "constructor" !in EnvironmentTags && "toString" !in EnvironmentTags;
  }

  /** The triple an environment name selects: its own one, or the dev one for any other name. */
  function EnvironmentTriple(environment: string): (t: Tags)
    ensures t.Keys == TripleNames
    ensures environment in EnvironmentTags ==> t == EnvironmentTags[environment]
    ensures environment !in EnvironmentTags ==> t == EnvironmentTags["dev"]
  {
    if environment in EnvironmentTags then EnvironmentTags[environment] else EnvironmentTags["dev"]
  }

  /**
   * getTags with the own-property lookup it evidently means: the three common
   * tags and the selected triple, six tags in all, the triple's values
   * winning on a shared name.
   */
  function GetTags(environment: string): (tags: Tags)
    ensures tags.Keys == CommonTags.Keys + TripleNames
    ensures forall k :: k in CommonTags && k !in TripleNames ==> tags[k] == CommonTags[k]
    ensures forall k :: k in TripleNames ==> tags[k] == EnvironmentTriple(environment)[k]
  {
    CommonTags + EnvironmentTriple(environment)
  }

  /** Whatever the environment name, the tags include ManagedBy, Project and the application ARN. */
  lemma CommonTagsPresent(environment: string)
    ensures var tags := GetTags(environment);
      && tags["ManagedBy"] == "CDK" && tags["Project"] == "FEE_SUITE" && tags["awsApplication"] == AppArn
  {
    assert "ManagedBy" !in TripleNames && "Project" !in TripleNames && "awsApplication" !in TripleNames;
  }

  /** Exactly six tags, whatever the environment name: the two groups share no name. */
  lemma SixTags(environment: string)
    ensures CommonTags.Keys !! TripleNames
    ensures |GetTags(environment)| == 6
  {
    assert |CommonTags.Keys| == 3;
    assert |TripleNames| == 3;
    assert CommonTags.Keys !! TripleNames;
  }

  /** The three named environments each get their own triple. */
  lemma OwnTriples()
    ensures GetTags("dev")["Environment"] == "Development" && GetTags("dev")["CostCenter"] == "DevTeam"
            && GetTags("dev")["Owner"] == "DevOps"
    ensures GetTags("staging")["Environment"] == "Staging" && GetTags("staging")["CostCenter"] == "QATeam"
            && GetTags("staging")["Owner"] == "QA"
    ensures GetTags("prod")["Environment"] == "Production" && GetTags("prod")["CostCenter"] == "ProdTeam"
            && GetTags("prod")["Owner"] == "Operations"
  {
    assert EnvironmentTriple("dev") == Triple("Development", "DevTeam", "DevOps");
    assert EnvironmentTriple("staging") == Triple("Staging", "QATeam", "QA");
    assert EnvironmentTriple("prod") == Triple("Production", "ProdTeam", "Operations");
  }

  /** Any other environment name gets the dev tags. */
  lemma FallbackTriple(environment: string)
    requires environment != "dev" && environment != "staging" && environment != "prod"
    ensures GetTags(environment) == GetTags("dev")
  {
    assert environment !in EnvironmentTags;
  }

  /** Where the lookup finds an own triple or nothing, the code as written agrees with the corrected one. */
  lemma AsWrittenAgrees(environment: string)
    requires environment !in InheritedNames
    ensures GetTagsAsWritten(environment) == GetTags(environment)
  {
  }
}

=== FILE: update_expression.dfy ===
/**
 * The dynamic SET expression the two update handlers build: one
 * `#attrI = :valI` clause per remaining body key, I = 0..n-1 in key order,
 * then `updatedDate` at index n and `updatedBy` at index n+1, with a name map
 * and a value map filled alongside.
 */
module UpdateExpression {
  import opened Wrappers
  import opened Json
  import opened Store
  import opened Http

  function AttrName(i: nat): string { "#attr" + NatText(i) }

  function ValueName(i: nat): string { ":val" + NatText(i) }

  function Clause(i: nat): string { AttrName(i) + " = " + ValueName(i) }

  lemma PlaceholdersDistinct(i: nat, j: nat)
    requires i != j
    ensures AttrName(i) != AttrName(j) && ValueName(i) != ValueName(j)
  {
    if NatText(i) == NatText(j) {
      NatTextInjective(i, j);
    }
    assert AttrName(i)[5..] == NatText(i) && AttrName(j)[5..] == NatText(j);
    assert ValueName(i)[4..] == NatText(i) && ValueName(j)[4..] == NatText(j);
  }

  /** The (attribute, value) pair the expression assigns at each index. */
  function Assignments(members: Members, updatedDate: Value, updatedBy: Value): (r: seq<(string, Value)>)
    ensures |r| == |members| + 2
  {
    members + [("updatedDate", updatedDate), ("updatedBy", updatedBy)]
  }

  /** What the expression's clause, name and value at index `i` must be. */
  ghost predicate Built(parts: seq<string>, names: map<string, string>, values: map<string, Value>,
                        pairs: seq<(string, Value)>, i: nat)
    requires i < |pairs| && i < |parts|
  {
    && parts[i] == Clause(i)
    && AttrName(i) in names && names[AttrName(i)] == pairs[i].0
    && ValueName(i) in values && values[ValueName(i)] == pairs[i].1
  }

  /**
   * The `forEach` over the body's keys and the two stamp appends: clause i is
   * `#attrI = :valI`, `#attrI` names key i and `:valI` holds its value, for
   * every body key and then for `updatedDate` and `updatedBy`; the maps hold
   * nothing else.
   */
  method BuildSetExpression(members: Members, updatedDate: Value, updatedBy: Value)
    returns (parts: seq<string>, names: map<string, string>, values: map<string, Value>)
    ensures var pairs := Assignments(members, updatedDate, updatedBy);
      && |parts| == |pairs|
      && (forall i :: 0 <= i < |pairs| ==> Built(parts, names, values, pairs, i))
      && names.Keys == (set i | 0 <= i < |pairs| :: AttrName(i))
      && values.Keys == (set i | 0 <= i < |pairs| :: ValueName(i))
  {
    var pairs := Assignments(members, updatedDate, updatedBy);
    parts, names, values := [], map[], map[];
    var n := |members|;
    for index := 0 to n
      invariant |parts| == index
      invariant forall i :: 0 <= i < index ==> Built(parts, names, values, pairs, i)
      invariant names.Keys == (set i | 0 <= i < index :: AttrName(i))
      invariant values.Keys == (set i | 0 <= i < index :: ValueName(i))
    {
      parts, names, values := Push(parts, names, values, pairs, index, members[index].0, members[index].1);
    }
    parts, names, values := Push(parts, names, values, pairs, n, "updatedDate", updatedDate);
    parts, names, values := Push(parts, names, values, pairs, n + 1, "updatedBy", updatedBy);
  }

  /** One clause appended at index `index`, keeping everything built before it. */
  method Push(parts: seq<string>, names: map<string, string>, values: map<string, Value>,
              ghost pairs: seq<(string, Value)>, index: nat, key: string, value: Value)
    returns (parts': seq<string>, names': map<string, string>, values': map<string, Value>)
    requires |parts| == index < |pairs| && pairs[index] == (key, value)
    requires forall i :: 0 <= i < index ==> Built(parts, names, values, pairs, i)
    requires names.Keys == (set i | 0 <= i < index :: AttrName(i))
    requires values.Keys == (set i | 0 <= i < index :: ValueName(i))
    ensures |parts'| == index + 1
    ensures forall i :: 0 <= i <= index ==> Built(parts', names', values', pairs, i)
    ensures names'.Keys == (set i | 0 <= i < index + 1 :: AttrName(i))
    ensures values'.Keys == (set i | 0 <= i < index + 1 :: ValueName(i))
  {
    parts' := parts + [Clause(index)];
    names' := names[AttrName(index) := key];
    values' := values[ValueName(index) := value];
    forall i | 0 <= i < index
      ensures Built(parts', names', values', pairs, i)
    {
      PlaceholdersDistinct(i, index);
      assert Built(parts, names, values, pairs, i);
    }
  }

  /** How the store reads `SET #attr0 = :val0, ...`: clause i assigns value placeholder i to name placeholder i. */
  function Resolve(count: nat, names: map<string, string>, values: map<string, Value>): seq<Action>
    requires forall i :: 0 <= i < count ==> AttrName(i) in names && ValueName(i) in values
  {
    seq(count, i requires 0 <= i < count => Set(names[AttrName(i)], values[ValueName(i)]))
  }

  /** The resolved expression sets exactly the body's members, then the two stamps, in that order. */
  lemma ResolveBuilt(parts: seq<string>, names: map<string, string>, values: map<string, Value>,
                     members: Members, updatedDate: Value, updatedBy: Value)
    requires var pairs := Assignments(members, updatedDate, updatedBy);
      |parts| == |pairs| && forall i :: 0 <= i < |pairs| ==> Built(parts, names, values, pairs, i)
    ensures forall i :: 0 <= i < |parts| ==> AttrName(i) in names && ValueName(i) in values
    ensures Resolve(|parts|, names, values) == SetActions(members, updatedDate, updatedBy)
  {
    var pairs := Assignments(members, updatedDate, updatedBy);
    forall i | 0 <= i < |parts|
      ensures AttrName(i) in names && ValueName(i) in values
      ensures names[AttrName(i)] == pairs[i].0 && values[ValueName(i)] == pairs[i].1
    {
      assert Built(parts, names, values, pairs, i);
    }
    var resolved := Resolve(|parts|, names, values);
    var expected := SetActions(members, updatedDate, updatedBy);
    assert |resolved| == |expected|;
    forall i | 0 <= i < |parts|
      ensures resolved[i] == expected[i]
    {
    }
  }

  /** The SET actions of the update: each body member, then `updatedDate` and `updatedBy`. */
  function SetActions(members: Members, updatedDate: Value, updatedBy: Value): (actions: seq<Action>) {
    var pairs := Assignments(members, updatedDate, updatedBy);
    seq(|pairs|, i requires 0 <= i < |pairs| => Set(pairs[i].0, pairs[i].1))
  }

  /** The body may carry the stamp names itself; then two clauses write the same path. */
  predicate NamesStamp(members: Members) {
    exists i :: 0 <= i < |members| && (members[i].0 == "updatedDate" || members[i].0 == "updatedBy")
  }

  /** A JSON body may carry the key `""`; its clause then names an empty attribute. */
  predicate NamesEmpty(members: Members) {
    exists i :: 0 <= i < |members| && members[i].0 == ""
  }

  /** Every body value is one the document client can marshal: no number beyond a safe integer, at any depth. */
  predicate SafeMembers(members: Members) {
    forall i :: 0 <= i < |members| ==> SafeNumbers(members[i].1)
  }

  /**
   * `after` is `before` with every body member written, the two stamps
   * written, and every other attribute as it was.
   */
  ghost predicate Stamped(before: Item, after: Item, members: Members, updatedDate: Value, updatedBy: Value) {
    && (forall i :: 0 <= i < |members| ==> Lookup1(after, members[i].0) == Some(members[i].1))
    && Lookup1(after, "updatedDate") == Some(updatedDate)
    && Lookup1(after, "updatedBy") == Some(updatedBy)
    && (forall a :: a != "updatedDate" && a != "updatedBy" && Member(members, a).None? ==>
          Lookup1(after, a) == Lookup1(before, a))
  }

  /**
   * Applying the stamped update to a record whose body keys are not key
   * attributes: the update is valid exactly when no body key is a stamp name
   * or empty and every value sent, the stamps included, is safe; the new
   * record then holds every body value, the two stamps, and every other
   * attribute as before.
   */
  lemma StampedUpdate(item: Item, members: Members, updatedDate: Value, updatedBy: Value)
    requires forall i :: 0 <= i < |members| ==> members[i].0 != "pk" && members[i].0 != "sk"
    ensures var actions := SetActions(members, updatedDate, updatedBy);
      ValidActions(actions) <==> && !NamesStamp(members) && !NamesEmpty(members)
                                 && SafeMembers(members) && SafeNumbers(updatedDate) && SafeNumbers(updatedBy)
    ensures var actions := SetActions(members, updatedDate, updatedBy);
      && !NamesStamp(members) && !NamesEmpty(members)
      && SafeMembers(members) && SafeNumbers(updatedDate) && SafeNumbers(updatedBy) ==>
        Apply(item, actions).Some? && Stamped(item, Apply(item, actions).value, members, updatedDate, updatedBy)
  {
    if NamesStamp(members) {
      StampClash(members, updatedDate, updatedBy);
    } else if NamesEmpty(members) {
      EmptyNameRefused(members, updatedDate, updatedBy);
    } else if !(SafeMembers(members) && SafeNumbers(updatedDate) && SafeNumbers(updatedBy)) {
      UnsafeNumberRefused(members, updatedDate, updatedBy);
    } else {
      StampedApply(item, members, updatedDate, updatedBy);
    }
  }

  /** A body key that is a stamp name makes two clauses write the same attribute. */
  lemma StampClash(members: Members, updatedDate: Value, updatedBy: Value)
    requires NamesStamp(members)
    ensures !ValidActions(SetActions(members, updatedDate, updatedBy))
  {
    var actions := SetActions(members, updatedDate, updatedBy);
    var n := |members|;
    var i :| 0 <= i < n && (members[i].0 == "updatedDate" || members[i].0 == "updatedBy");
    assert actions[i].attr == members[i].0;
    if members[i].0 == "updatedDate" {
      assert actions[n].attr == "updatedDate";
    } else {
      assert actions[n + 1].attr == "updatedBy";
    }
  }

  /** A body key `""` makes a clause write an attribute with an empty name. */
  lemma EmptyNameRefused(members: Members, updatedDate: Value, updatedBy: Value)
    requires NamesEmpty(members)
    ensures !ValidActions(SetActions(members, updatedDate, updatedBy))
  {
    var actions := SetActions(members, updatedDate, updatedBy);
    var i :| 0 <= i < |members| && members[i].0 == "";
    assert actions[i].attr == "";
  }

  /** A value beyond the safe integers, in the body or a stamp, makes the client refuse the expression. */
  lemma UnsafeNumberRefused(members: Members, updatedDate: Value, updatedBy: Value)
    requires !(SafeMembers(members) && SafeNumbers(updatedDate) && SafeNumbers(updatedBy))
    ensures !ValidActions(SetActions(members, updatedDate, updatedBy))
  {
    var actions := SetActions(members, updatedDate, updatedBy);
    var n := |members|;
    if !SafeMembers(members) {
      var i :| 0 <= i < n && !SafeNumbers(members[i].1);
      assert actions[i] == Set(members[i].0, members[i].1);
    } else if !SafeNumbers(updatedDate) {
      assert actions[n] == Set("updatedDate", updatedDate);
    } else {
      assert actions[n + 1] == Set("updatedBy", updatedBy);
    }
  }

  /** Without such keys and values the SET actions have safe operands and name distinct, non-empty attributes, none of them a key attribute. */
  lemma SetActionsValid(members: Members, updatedDate: Value, updatedBy: Value)
    requires forall i :: 0 <= i < |members| ==> members[i].0 != "pk" && members[i].0 != "sk"
    requires !NamesStamp(members) && !NamesEmpty(members)
    requires SafeMembers(members) && SafeNumbers(updatedDate) && SafeNumbers(updatedBy)
    ensures ValidActions(SetActions(members, updatedDate, updatedBy))
    ensures AllSets(SetActions(members, updatedDate, updatedBy))
  {
    var actions := SetActions(members, updatedDate, updatedBy);
    var n := |members|;
    assert forall i :: 0 <= i < n ==> actions[i].attr == members[i].0;
    assert actions[n].attr == "updatedDate" && actions[n + 1].attr == "updatedBy";
  }

  /** Without such keys and values the update is valid and leaves the record `Stamped`. */
  lemma StampedApply(item: Item, members: Members, updatedDate: Value, updatedBy: Value)
    requires forall i :: 0 <= i < |members| ==> members[i].0 != "pk" && members[i].0 != "sk"
    requires !NamesStamp(members) && !NamesEmpty(members)
    requires SafeMembers(members) && SafeNumbers(updatedDate) && SafeNumbers(updatedBy)
    ensures var actions := SetActions(members, updatedDate, updatedBy);
      ValidActions(actions) && Apply(item, actions).Some?
      && Stamped(item, Apply(item, actions).value, members, updatedDate, updatedBy)
  {
    var actions := SetActions(members, updatedDate, updatedBy);
    var n := |members|;
    SetActionsValid(members, updatedDate, updatedBy);
    ApplySets(item, actions);
    var r := Apply(item, actions).value;
    forall i | 0 <= i < n
      ensures Lookup1(r, members[i].0) == Some(members[i].1)
    {
      assert actions[i] == Set(members[i].0, members[i].1);
    }
    assert actions[n] == Set("updatedDate", updatedDate);
    assert actions[n + 1] == Set("updatedBy", updatedBy);
    forall a | a != "updatedDate" && a != "updatedBy" && Member(members, a).None?
      ensures Lookup1(r, a) == Lookup1(item, a)
    {
      assert forall i :: 0 <= i < |actions| ==> actions[i].attr != a;
    }
  }

  /**
   * The stamped update of an existing record: it succeeds exactly when the
   * service does not fail, no body key is a stamp name or empty, and every
   * value sent is safe; it then rewrites that one record as `Stamped` says,
   * under the same key, and nothing else.
   */
  lemma StampedEffect(items: map<Key, Item>, k: Key, members: Members, updatedDate: Value, updatedBy: Value, fault: bool)
    requires WellKeyed(items) && k in items && k.0 != "" && k.1 != ""
    requires forall i :: 0 <= i < |members| ==> members[i].0 != "pk" && members[i].0 != "sk"
    ensures var e := UpdateEffect(items, k, SetActions(members, updatedDate, updatedBy), Always, fault);
      && (e.1 == Done <==> && !fault && !NamesStamp(members) && !NamesEmpty(members)
                           && SafeMembers(members) && SafeNumbers(updatedDate) && SafeNumbers(updatedBy))
      && (e.1 == Done ==> k in e.0 && e.0 == items[k := e.0[k]] && KeyOf(e.0[k]) == Some(k)
                          && Stamped(items[k], e.0[k], members, updatedDate, updatedBy))
      && (e.1 != Done ==> e.0 == items)
  {
    var actions := SetActions(members, updatedDate, updatedBy);
    StampedUpdate(items[k], members, updatedDate, updatedBy);
    if && !fault && !NamesStamp(members) && !NamesEmpty(members)
       && SafeMembers(members) && SafeNumbers(updatedDate) && SafeNumbers(updatedBy) {
      ApplyKeepsKeyAttrs(items[k], actions);
    }
  }

  /**
   * The update both edit handlers send once the record is known to exist:
   * the SET expression built from the body's members and the two stamps,
   * applied to that one record.
   */
  method UpdateStamped(table: Table, key: Key, members: Members, updatedDate: Value, updatedBy: Value, fault: bool)
    returns (outcome: Outcome)
    requires table.Valid() && key in table.items && key.0 != "" && key.1 != ""
    requires forall i :: 0 <= i < |members| ==> members[i].0 != "pk" && members[i].0 != "sk"
    modifies table
    ensures table.Valid()
    ensures outcome == Done <==> && !fault && !NamesStamp(members) && !NamesEmpty(members)
                                 && SafeMembers(members) && SafeNumbers(updatedDate) && SafeNumbers(updatedBy)
    ensures outcome == Done ==>
      && key in table.items && table.items == old(table.items)[key := table.items[key]]
      && Stamped(old(table.items)[key], table.items[key], members, updatedDate, updatedBy)
    ensures outcome != Done ==> table.items == old(table.items)
  {
    var parts, names, values := BuildSetExpression(members, updatedDate, updatedBy);
    ResolveBuilt(parts, names, values, members, updatedDate, updatedBy);
    StampedEffect(table.items, key, members, updatedDate, updatedBy, fault);
    outcome := table.Update(key, Resolve(|parts|, names, values), Always, fault);
  }
}

=== FILE: validation.dfy ===
/**
 * The validation steps several handlers share: the FAD/EVENT discriminator,
 * the e-mail pattern and the ordered required-field check.
 */
module Validation {
  import opened Wrappers
  import opened Json
  import opened Strings

  /** The event partitions: an event is stored under pk "FAD" or pk "EVENT". */
  const Partitions: set<string> := {"FAD", "EVENT"}

  /** `eventType.toUpperCase()` when it names an event partition. */
  function EventPartition(eventType: string): Option<string> {
    var p := ToUpper(eventType);
    if p == "FAD" || p == "EVENT" then Some(p) else None
  }

  /** Acceptance of the discriminator is case-insensitive, and an accepted one is its own upper case. */
  lemma EventPartitionCaseInsensitive(t: string)
    ensures EventPartition(ToLower(t)) == EventPartition(t)
    ensures EventPartition(t).Some? <==> ToUpper(t) in Partitions
    ensures EventPartition(t).Some? ==> EventPartition(t).value == ToUpper(t)
  {
    assert ToUpper(ToLower(t)) == ToUpper(t) by {
      assert forall i :: 0 <= i < |t| ==> UpperChar(LowerChar(t[i])) == UpperChar(t[i]);
    }
  }

  /** The characters the regular expression class `\s` matches. */
  predicate IsSpace(c: char) {
    c in {'\t', '\n', '\U{000B}', '\U{000C}', '\r', ' ', '\U{00A0}', '\U{1680}', '\U{2028}', '\U{2029}',
          '\U{202F}', '\U{205F}', '\U{3000}', '\U{FEFF}'}
    || ('\U{2000}' <= c <= '\U{200A}')
  }

  /** One or more characters of `[^\s@]`. */
  predicate Word(s: string) {
    |s| > 0 && forall i :: 0 <= i < |s| ==> !IsSpace(s[i]) && s[i] != '@'
  }

  /** `/^[^\s@]+@[^\s@]+\.[^\s@]+$/.test(s)`. */
  predicate EmailShaped(s: string) {
    exists k | 0 <= k < |s| ::
      && s[k] == '@' && Word(s[..k]) && Word(s[k + 1..])
      && exists d | k + 1 < d < |s| - 1 :: s[d] == '.'
  }

  /** An e-mail-shaped string has exactly one '@', no white space, and a '.' with text on both sides after the '@'. */
  lemma EmailShapedMeans(s: string)
    requires EmailShaped(s)
    ensures exists local, domain :: s == local + "@" + domain && Word(local) && Word(domain)
    ensures forall i :: 0 <= i < |s| ==> !IsSpace(s[i])
  {
    var k :| 0 <= k < |s| && s[k] == '@' && Word(s[..k]) && Word(s[k + 1..]);
    assert s == s[..k] + "@" + s[k + 1..];
    forall i | 0 <= i < |s| ensures !IsSpace(s[i]) {
      if i < k {
        assert s[..k][i] == s[i];
      } else if i > k {
        assert s[k + 1..][i - k - 1] == s[i];
      }
    }
  }

  /** Every listed field has a truthy value. */
  predicate AllTruthy(fields: map<string, Value>, required: seq<string>) {
    forall i :: 0 <= i < |required| ==> Truthy(Field(fields, required[i]))
  }

  /** `required[i]` is the first listed field whose value is falsy. */
  predicate FirstFalsyAt(fields: map<string, Value>, required: seq<string>, i: int) {
    && 0 <= i < |required|
    && !Truthy(Field(fields, required[i]))
    && forall j :: 0 <= j < i ==> Truthy(Field(fields, required[j]))
  }

  /**
   * The required-field loop: the first field of `required` whose value is
   * falsy, or None when all are present.
   */
  method FirstMissing(fields: map<string, Value>, required: seq<string>) returns (missing: Option<string>)
    ensures missing.None? <==> AllTruthy(fields, required)
    ensures missing.Some? ==> exists i :: FirstFalsyAt(fields, required, i) && required[i] == missing.value
  {
    for i := 0 to |required|
      invariant forall j :: 0 <= j < i ==> Truthy(Field(fields, required[j]))
    {
      if !Truthy(Field(fields, required[i])) {
        assert FirstFalsyAt(fields, required, i);
        return Some(required[i]);
      }
    }
    return None;
  }

  /** The message for the first missing field. */
  function MissingField(field: string): string {
    "Missing required field: " + field
  }
}

=== FILE: wrappers.dfy ===
/** Optional values, for JavaScript's `undefined`/`null` results and absent map entries. */
module Wrappers {

  datatype Option<+T> = None | Some(value: T) {

    /** The wrapped value, or `default` when there is none (JavaScript's `x || default` for present-or-absent). */
    function GetOr(default: T): T {
      match this
      case Some(v) => v
      case None => default
    }
  }
}
